=== FILE: README.md ===
# run — a Dafny model of the task-tree resolution engine

`run` is a task runner. A YAML file maps task names to shell code, to lists of subtasks, or to
`{code, desc}` wrappers. The runner builds a task tree from it, then resolves a command line
against that tree. Resolution delegates by name or abbreviation, applies `=name`/`+name`/`-name`
filters and detects a trailing `?`. The result is a plan: setup variables first, then the
selected leaves, with the arguments forwarded through a `$RUNARGS` placeholder. A plan can be
explained as text or executed. Execution binds the variables, prints a lone variable's value,
or dispatches the remaining commands sequentially or concurrently.

This project models that core as pure Dafny functions over immutable data.

- `common.dfy` (`Common`): `Option` and `Result`.
- `strings.dfy` (`Strings`): the PHP string built-ins the core uses. Truthiness, `substr`
  prefixes, `strpos`, `str_replace`, `strtoupper` and `join`.
- `task.dfy` (`Tasks`): the configuration value (`Value`), the task datatype, and the
  one-pass construction `Task::__construct`. This covers marker stripping, type inference,
  child building and the nesting error.
- `navigator.dfy` (`Navigator`): nodes addressed by paths of child indices from the root.
  Covers `parents`, `qualified_name`, the three flatteners, name and abbreviation lookup,
  and the setup tasks.
- `command.dfy` (`Commands`): the `Command` value and its truthy-only `code` setter.
- `executors.dfy` (`Executors`): `executeSync` as a fail-fast fold over a process oracle
  `(code, environment) -> (status, output)`.
- `plan.dfy` (`Plans`): `explain` (a loop proved against a reference rendering) and the
  pure skeleton of `execute`. That skeleton is the variable loop, print mode, `RUNARGS`
  and dispatch by mode.
- `resolver.dfy` (`Resolver`): `Task::run` up to the plan, and `Task::complete`. Covers
  filter extraction, help detection, command collection and placeholder normalisation.
- `helpers.dfy` (`Helpers`): the `iter_colors` palette and the comment-to-description
  line scan of `read_config`.
- `cli.dfy` (`Cli`): the `--run-path` / `--run-complete` flags and the complete/run choice.

PHP object comparison becomes path equality. "Self" in `run` is the node at a path `p`; the
filters hold paths relative to it. The PHP `$_ENV` global and the by-value environment of
`executeSync` become an explicit map that is threaded through and returned. PHP truthiness
of a string is `s != "" && s != "0"` throughout.

At the following places the source does not do what it evidently means. The model follows
the evident intent, and a one-line comment marks each place in the Dafny:

- bare identifiers and dot-syntax member access (`parent`, `tasks`, `self`, `$this.childs()`,
  `task.parent`, ...), and the read of the undefined property `$parent->childs`
  (src/task.php:161);
- `array_slice` applied to strings, and `str_slice` (src/task.php:259), meaning `substr`;
- a literal `is_array($code)` (src/task.php:18-20) would unwrap every array, so every list of
  subtasks, the root's run list included, would become a leaf with a null code. Only
  `{code, desc}` wrappers are unwrapped;
- swapped `str_replace` arguments and the inverted placeholder test (src/task.php:296-303);
- the reversed `in_array` arguments and the inverted pick test of the leaf selection
  (src/task.php:283-286);
- the undefined `$task` in delegation by name (src/task.php:225-226);
- backticks around the not-found message (src/task.php:244), which would run it as a shell
  command; a string is meant;
- misspelt names (`$ouput`, `variables()`, src/executors.php:16, 28-29);
- `executeSync` receives the environment by value (src/executors.php:6, 29), so its bindings
  never reach the caller; the model returns them;
- `array_diff` on `Command` objects (src/plan.php:49), which PHP cannot convert to strings;
  dropping the bound command from the pending list is meant;
- the re-run of every variable collected so far (src/plan.php:51); only the new one is run;
- the missing multiplex argument of the parallel dispatch (src/plan.php:87).

Elsewhere the model keeps the code's behaviour as written:

- The variable test is kept literal (`name === strtoupper(name)`, src/task.php:40). So a
  name without lower-case letters is `variable`, including the empty name and text such as
  `07`. A bare list item therefore becomes an unnamed variable leaf
  (`Tasks.BareItemIsAnonymousVariable`).
- Keys are kept as text, and `Strings.IntegerKey` decides which ones PHP holds as integers
  (`0`, `12`, `-3`, but not `07` or `+1`). `array_slice` at src/task.php:14 re-indexes such a
  key to the integer `0`. The node then has `textual` false and the name `"0"`. A leaf under such a key is a
  `directive`, because the integer `0` is never identical to a string. For the same reason no
  argument ever selects it by name (`Tasks.Task.Is`), while `substr` and truthiness still see `"0"`.
- Placeholder normalisation (src/task.php:293-315) keeps `$RUNARGS` in every unbound
  command that already holds it. It strips the placeholder only from bound commands that
  follow one. When no command holds it, it appends it to the first unbound command. So
  several commands can receive the arguments. `Resolver.NormalizeSpec` states exactly which.
- A strip that would leave an empty or `"0"` code changes nothing, because the `code`
  setter ignores falsy values (src/command.php:20).

## Model

| member | source | states |
|---|---|---|
| Tasks.Markers | src/task.php:23-34 | The task is optional exactly when its name starts with `/`. It is quiet exactly when quiet was inherited or the name holds a `!`. The final name is the original with its leading `/` (when optional) removed and then every `!` deleted, so it holds no `!` and only characters of the original. A name without markers is kept as it is. |
| Tasks.MarkersExample | src/task.php:23-34 | `/b!` becomes the task `b`, both optional and quiet. |
| Tasks.GroupType | src/task.php:47-70 | A list or map code gives a group. It is `sequence` unless the parent is parallel or multiplex, whose type it inherits. One pair of parentheses gives `parallel` and two give `multiplex`, with the parentheses removed from the name. Under a concurrent parent the group stays concurrent. |
| Tasks.Build | src/task.php:9-93 | Every constructed node is well formed: no `!` left in any name, composite nodes code-less and group-typed, quiet passed to every descendant, concurrency kept by nested groups. It is optional exactly for a leading `/` and quiet exactly for inherited quiet or a `!`. Its name is textual exactly when the key is not one PHP holds as an integer. The only failure is the nesting error. |
| Tasks.BuildFails | src/task.php:56-76 | Construction fails exactly when some group entry, at any depth of the value, is a parenthesised group with two or more ancestors (`Tasks.TooDeep`). |
| Tasks.DescriptorFails | src/task.php:14-76 | A sub-descriptor fails exactly when its first entry holds such a group. |
| Tasks.BuildTree | src/cli.php:23 | The tree built from the configuration is well formed. |
| Tasks.BuildTreeFails | src/cli.php:23 | Building the tree from the configuration fails exactly when it holds a parenthesised group below a child of the root. |
| Tasks.FromDescriptor | src/task.php:14-17 | A sub-descriptor (its first entry, or a bare value under the empty name) builds a well-formed task that inherits quiet and concurrency. The only failure is the nesting error. |
| Tasks.BuildChildren | src/task.php:72-76 | A group gets exactly one child per entry, each well formed, quiet when the group is, and concurrent when a nested group sits under a concurrent one. |
| Tasks.Classification | src/task.php:36-70 | A scalar code gives a childless leaf with that code, named as the markers leave it. It is `variable` exactly when its key is not an integer key and its name has no lower-case letter, else `directive`. A list or map code gives a code-less group, typed and named by its parentheses, with one child per entry. A textual name with no lower-case letter gets the description `Prints the variable`. |
| Tasks.NestingRejected | src/task.php:56-61 | A parenthesised group with two or more ancestors fails with `Subtask descriptions and execution control not supported`. |
| Tasks.BareItemIsAnonymousVariable | src/task.php:73-74 | A bare scalar list item is wrapped under the empty name. It becomes an unnamed `variable` leaf running that scalar, with the variable description, inherited quiet, and not optional. |
| Tasks.ChildrenInOrder | src/task.php:72-76 | The k-th child is built from the k-th entry, in entry order. |
| Navigator.Parents | src/task.php:139-148 | `parents()` has one node per ancestor, root first. The i-th is the node at the path's first i steps. |
| Navigator.QualifiedNameRoot | src/task.php:150-156 | The root's qualified name is its own name when that is truthy, and empty otherwise. |
| Navigator.QualifiedNameStep | src/task.php:150-156 | Going to a child extends the parent's qualified name by the child's name when that is truthy, space-separated. So the qualified name is the space-join of the truthy names along the path. |
| Navigator.LeafPaths | src/task.php:172-182 | `flatten_general_tasks()` is non-empty, consists of leaves only, and is in document order without repetition. |
| Navigator.LeafPathsComplete | src/task.php:172-182 | Every leaf below the node appears in its flattening. |
| Navigator.Descendants | src/task.php:184-193 | `flatten_childs_with_composite()` lists only nodes strictly below the node, in preorder. |
| Navigator.DescendantsComplete | src/task.php:184-193 | Every node strictly below the node, composite or not, appears among its descendants. |
| Navigator.FindChildTasksByName | src/task.php:195-203 | A path is in the result exactly when it reaches a leaf below the node whose name is identical (`===`) to the given one, so never a leaf with an integer name. The result is in document order. |
| Navigator.FindChildTaskByAbbreviation | src/task.php:205-217 | A found path is the walk the abbreviation spells. Each level takes the first child starting with the next letter, continuing while the rest of the abbreviation is truthy. |
| Navigator.AbbreviationComplete | src/task.php:205-217 | Conversely, every walk the abbreviation spells is found. So `null` means no child matches at some level. |
| Navigator.SetupPaths | src/task.php:158-170 | Every setup task is a `variable` child of an ancestor, placed before the child on the way to the node. The list is in document order, level by level from the root. |
| Navigator.SetupPathsComplete | src/task.php:158-170 | Every such `variable` child is collected. |
| Commands.NewCommand | src/command.php:9-13 | The constructor stores name, code and variable verbatim. Without a variable the command is unbound. |
| Commands.Command.Code | src/command.php:19-22 | `code()` returns the current code and changes nothing. A truthy argument replaces the code and is returned. A falsy one (`''`, `'0'`, null) leaves the command unchanged. Name and variable never change. |
| Commands.SetCodeIdempotent | src/command.php:19-22 | Setting the same code twice is the same as setting it once. |
| Commands.GetAfterSet | src/command.php:19-22 | Reading after a set yields the value exactly when it was truthy, else the old code. |
| Executors.RunSync | src/executors.php:6-40 | A run launches at most as many commands as it is given. A run that launches nothing has not failed. |
| Executors.RunSyncLaunched | src/executors.php:7-22 | The codes launched are those of a prefix of the command list, in list order. |
| Executors.RunSyncStatuses | src/executors.php:7-37 | Every launched command exited with status 0, except the last one of a failed run. That one, launched with the bindings of all earlier commands, exited non-zero. So nothing after the first failure is launched. |
| Executors.RunSyncLog | src/executors.php:10-35 | The notices printed are a launch notice for every launched unbound command, none when quiet. A failed run then adds a failure notice for the command that failed. `Executors.NoticeText` renders them as lines `[run] Launched '<code>'` and `[run] Command '<code>' has failed`. A run without failure launches every command exactly once. |
| Executors.RunSyncEnv | src/executors.php:16-30 | A run without failure leaves exactly the reference fold's environment. Each bound command's raw output is stored under its variable, and each command sees the bindings before it. |
| Executors.EnvAfterUntouched | src/executors.php:28-30 | A name that no bound command binds keeps its value, or stays absent. |
| Executors.EnvAfterBinds | src/executors.php:28-30 | After a bound command runs, its variable holds that command's untrimmed output. |
| Executors.QuietLogsNothing | src/executors.php:10-12 | When quiet, no launch notice is printed. |
| Plans.ExpectedLinesSnoc | src/plan.php:20-32 | Rendering one more command appends its line. The header goes before it exactly when it is the first unbound command of a headed mode. |
| Plans.Explain | src/plan.php:15-36 | The loop with its `plain` flag yields exactly the reference lines joined by `"\n"`. |
| Plans.ExplainShape | src/plan.php:18-34 | There is one line per command, plus one header exactly when the mode is sequence, parallel or multiplex and some command is unbound. The header is `[MODE]` in upper case, right before the first unbound command. That command's line is four spaces, a space and its code. A bound command shows `NAME='code'`. In directive mode there is no header and no indent. |
| Plans.UnboundOf | src/plan.php:45-50 | The pending commands are exactly the unbound ones. Together with the bound ones they account for every command. |
| Plans.UnboundOfAppend | src/plan.php:45-50 | The pending list of a concatenation is the concatenation of the pending lists, so unbound commands keep their relative order. |
| Plans.UnboundOfSnoc | src/plan.php:45-50 | One more command extends the pending list by itself exactly when it is unbound. With the empty list for no commands, this fixes the pending list as the unbound commands in their original order. |
| Plans.PendingEmpty | src/plan.php:52-55 | The pending list is empty at step i exactly when i is the last command and every command is bound. |
| Plans.VariablePhase | src/plan.php:42-56 | The variable loop fails only on a bound command, with that command's code. It enters print mode only when every command of the plan is bound. |
| Plans.PhaseMatchesPartition | src/plan.php:42-56 | The variable loop equals running the bound commands in order with `executeSync`. It fails on the same command, prints when the whole plan is bound, and otherwise hands on the same environment. |
| Plans.Execute | src/plan.php:38-101 | Once dispatched, the pending commands are `UnboundOf` of the plan, so by `Plans.UnboundOfSnoc` the unbound ones in their original order. `RUNARGS` is the space-join of argv. The prepared notice is printed exactly when not quiet. Directive and sequence run synchronously; parallel runs concurrently without multiplexing; multiplex with it. |
| Plans.ExecutePhases | src/plan.php:45-55 | `execute` stops with the failure of exactly the variable command that fails. It prints, and stops before `RUNARGS` and dispatch, exactly when the plan is non-empty and all bound, and what it prints is the last command's variable value. |
| Plans.ExecuteEnvironment | src/plan.php:51-59 | The environment that is dispatched holds every variable binding of the reference fold, plus `RUNARGS`. |
| Resolver.Without | src/task.php:262 | `array_diff($argv, [$arg])` removes every occurrence of the argument and keeps all the others. |
| Resolver.ResidualArguments | src/task.php:252-266 | After filter extraction, the arguments left are exactly those that are not consumed filter arguments, in their original order. A consumed argument is `=`, `+` or `-` followed by a leaf name. |
| Resolver.FilterMembership | src/task.php:252-266 | A leaf below the node is picked, enabled or disabled exactly when its name is textual and the command line holds it behind `=`, `+` or `-`. |
| Resolver.KeyedResidualValues | src/task.php:262 | The key-preserving residual PHP holds has the same values, in the same order, as the re-indexed residual. |
| Resolver.HelpMissedAfterFilter | src/task.php:262-273 | As written, `=build ?` does not request help, because the `?` keeps key 1. |
| Resolver.KeyedAfterConsumed | src/task.php:262 | After a consumed filter argument, a surviving argument keeps its original key 1. |
| Resolver.HelpFoundAfterFilter | src/task.php:268-273 | The intended test on the remaining arguments does request help for `=build ?`. |
| Resolver.HelpAfterFilters | src/task.php:268-273 | With the intended test, a lone `?` among consumed filter arguments always requests help. |
| Resolver.SelectLeaves | src/task.php:282-287 | A leaf is kept exactly when it is the node itself, or picked, or (no pick active, and not both optional and un-enabled, and not disabled). Order is preserved. |
| Resolver.GeneralPaths | src/task.php:281-291 | The general commands come from exactly the selected leaves below the node, in document order. |
| Resolver.ResolvedCommands | src/task.php:275-291 | The command list is one command per setup task first, bound to its task's own name and carrying its qualified name. Then comes one per selected leaf, bound exactly when the leaf is `variable`. |
| Resolver.StripFromSpec | src/task.php:293-305 | The normalisation loop strips the placeholder exactly from the bound commands that come after a forwarding command. It ends with a mark exactly when some unbound command holds the placeholder. |
| Resolver.NormalizeSpec | src/task.php:293-315 | Normalisation keeps every name and variable and the list length. With a forwarding command it only strips later bound commands. Without one, it appends ` $RUNARGS` to the first unbound command and changes nothing else. |
| Resolver.AppendedForwards | src/task.php:307-315 | The appended placeholder goes to an unbound command, and afterwards that command forwards the arguments. |
| Resolver.ChildNamed | src/task.php:223-229 | Delegation takes the first child whose name is identical (`===`) to the argument, and fails only when no child has it. |
| Resolver.NameWalk | src/task.php:222-229 | The walk of exact names is a path below the node, one step per argument at most. |
| Resolver.NameWalkSteps | src/task.php:222-229 | Delegation follows, at each level, the first child named by the next argument. It stops only when the arguments run out or no child has the next name. |
| Resolver.Prepare | src/task.php:252-331 | Help is shown exactly when the remaining arguments are `['?']`. Its target is the node itself, or the root's child on its path. Otherwise the plan runs with the unconsumed arguments and the node's quiet flag. The plan's mode is the node's type. |
| Resolver.Run | src/task.php:219-250 | Below the root, `run` always ends in help or a plan. |
| Resolver.RunBelowRoot | src/task.php:219-229 | Below the root, `run` follows the exact-name walk and prepares the node reached with the arguments left. |
| Resolver.RootDelegatesByName | src/task.php:219-229 | At the root, a first argument naming a child hands the rest to that child. The exact-name walk continues from there, and the node reached is prepared with the arguments left. |
| Resolver.RootDelegatesByAbbreviation | src/task.php:231-238 | At the root, a first argument that names no child but spells a walk of first letters hands the rest to the end of that walk. The exact-name walk continues from there, and the node reached is prepared with the arguments left. |
| Resolver.RootNotFound | src/task.php:231-250 | At the root, `Task "<x>" not found` comes exactly when some argument other than a lone `?` is given, no child has the first argument as its name, and no walk is spelled by it. The root help comes exactly for no arguments, or a `?` that names no task. |
| Resolver.Complete | src/task.php:333-352 | Completion lists only truthy names. |
| Resolver.CompleteAtWalk | src/task.php:333-352 | Completion lists exactly the truthy child names of the node the exact-name walk reaches, in order. |
| Helpers.IterColors | src/helpers.php:70-90 | The n-th yield is `COLORS[n mod 12]`, always a palette member. |
| Helpers.ColorWindow | src/helpers.php:71-88 | Any 12 consecutive yields contain every palette colour exactly once and nothing else. |
| Helpers.Split | src/helpers.php:29 | `explode` gives at least one piece, and no piece holds the separator. |
| Helpers.SplitJoin | src/helpers.php:29 | Joining the pieces with the separator gives back the text. |
| Helpers.JoinSplit | src/helpers.php:29 | Splitting the join of separator-free pieces gives back the pieces. |
| Helpers.Matching | src/helpers.php:38-39 | A key is selected exactly when the line starts with it and PHP does not hold it as an integer, in key order. |
| Helpers.LineItems | src/helpers.php:38-45 | A line yields one `key => {code: value, desc}` item per matching key, in key order. |
| Helpers.ScanConfig | src/helpers.php:26-51 | The result is `['run' => items]`, with the items in the order the scan produced them. |
| Helpers.ScanComments | src/helpers.php:29-50 | After each line, the pending comments are exactly the texts of the comment block that ends there. |
| Helpers.ScanAppends | src/helpers.php:29-51 | Each line extends the run list only by its own items. Those items are described by the comments directly above it, joined by the two characters backslash and `n`. |
| Helpers.CommentLine | src/helpers.php:32-35 | A `# ` line adds no item and collects its text with `# ` removed. |
| Helpers.NoStaleComments | src/helpers.php:47-50 | A line after a non-comment line, or at the top, gets the empty description. |
| Helpers.ItemsAreDescribed | src/helpers.php:40-43 | Every item is a one-entry `{code, desc}` wrapper. The task constructor opens it to the parsed value of a matching top-level key. |
| Cli.IndexOf | src/cli.php:11 | `list.index` finds the first occurrence, and fails exactly when the token is absent. |
| Cli.TakePath | src/cli.php:8-13 | Without `--run-path` the path is `run.yml` and the arguments are untouched. |
| Cli.TakeComplete | src/cli.php:15-19 | Completion is selected exactly when `--run-complete` is present. Without it the arguments are untouched. |
| Cli.ParseArgs | src/cli.php:6-19 | Argument handling fails, with `pop`'s index error, exactly when the first `--run-path` is the last token. |
| Cli.PathSplits | src/cli.php:10-13 | The arguments are `before + ["--run-path", path] + after`, with no flag in `before`, and what is left is `before + after`. |
| Cli.CompleteSplits | src/cli.php:16-19 | Only the first `--run-complete` is removed, and the other tokens keep their order. |
| Cli.NoFlags | src/cli.php:6-19 | Without either flag the program reads `run.yml`, runs, and passes every argument on. |
| Cli.Invoke | src/cli.php:21-31 | A bad `--run-path` aborts, and a missing file aborts with `No '<path>' found`. Otherwise the program aborts exactly on a nesting error. Failing both, it completes exactly when `--run-complete` was given, and runs otherwise. |

## Left out

- Process spawning, pipes and `proc_open`/`proc_close` (src/executors.php:15-27). They are an oracle from code and environment to exit status and standard output.
- `executeAsync` and `_printLine` have empty bodies (src/executors.php:43-52). The concurrent dispatch is recorded as a value (`Plans.Dispatch`), not run.
- The pseudo-terminal wrapper (src/faketty.php) is a foreign library. `faketty` is passed through as a flag.
- Help rendering (`print_help`) and coloured messages (`print_message`) are terminal formatting. Help and errors are result values (`Resolver.Resolution`, `Cli.Ending`).
- File reading, YAML parsing, the `{x}` rewrite and the options document of `read_config` (src/helpers.php:11-23, 53-57) are parsing outside the core. `Cli.Invoke` takes a loader parameter; the scan receives the first document's text and its parsed mapping.
- Dotenv loading via `RUNVARS` (src/plan.php:60-64) is a file read.
- Wall-clock timing and the `Finished in` line (src/plan.php:67, 95-99) are floating-point clock readings.
- `exit()` and `print` side effects become results. `Executors.SyncRun` records the notices and a `failed` flag, and `Plans.Outcome` records what `execute` printed or dispatched.
- Task options (`$this->options()`) are only passed through to the executor's `faketty` flag.
- Helpers.KeyMatches: every canonical decimal key counts as an integer key (`Strings.IntegerKey`), because bounds at `PHP_INT_MAX` and YAML's own key conversions happen in the parser, outside the scan. The same test decides `Tasks.KeyName` and the `textual` flag of a node (src/task.php:14).
- Navigator.SetupPaths: the ancestor test `in_array($task, $this->parents())` (src/task.php:163) compares objects loosely (`==`): first `_parent`, then `_childs`. The model compares positions instead. The two differ only for a sibling equal to an ancestor up to its children. Such a twin with a different number of children simply compares unequal, as in the model. A twin whose children compare far enough leads back, through each child's reference to its parent, to an object already being compared, and PHP then stops with the fatal error `Nesting level too deep - recursive dependency?`, which the model does not reproduce.
- Navigator.FindChildTaskByAbbreviation: first letters are compared as characters, while PHP's `substr($name, 0, 1)` compares first bytes. Names and abbreviations in ASCII resolve alike, but a non-ASCII first letter resolves differently, because strings are modelled as character sequences without an encoding.
- Executors.RunSync: standard error of a bound command is piped but never read, so the oracle reports standard output only.

## Findings

| source | as written | input that shows it | evidently intended | confidence | as-written member | corrected member |
|---|---|---|---|---|---|---|
| src/task.php:262,270 | `array_diff` keeps the original keys, and `$argv === ['?']` compares keys too, so a `?` after a consumed filter sits under key 1 and is not recognised as a help request | `run group =build ?` where `group` has a leaf `build` | help is requested when the remaining arguments are just `?`, wherever filters stood | not executed | Resolver.HelpMissedAfterFilter | Resolver.HelpAfterFilters |

=== FILE: cli.dfy ===
/**
 * The command-line entry (src/cli.php): strips the `--run-path <file>` and
 * `--run-complete` flags from the arguments, loads the configuration from the chosen
 * path, builds the task tree and either completes or runs the remaining arguments.
 *
 * Reading and parsing the configuration file is a parameter (`Loader`): it gives the
 * configuration mapping for a path, or nothing when there is no such file.
 */
module Cli {
  import opened Common
  import opened Strings
  import opened Tasks
  import opened Navigator
  import opened Resolver

  const DEFAULT_PATH := "run.yml"
  const PATH_FLAG := "--run-path"
  const COMPLETE_FLAG := "--run-complete"
  const POP_ERROR := "pop index out of range"

  /** The arguments once the two flags are handled. */
  datatype Invocation = Invocation(path: string, complete: bool, argv: seq<string>)

  /** `xs.index(x)`: the first position holding `x`. */
  function IndexOf(xs: seq<string>, x: string): (r: Option<nat>)
    ensures r.Some? ==> r.value < |xs| && xs[r.value] == x && x !in xs[..r.value]
    ensures r.None? <==> x !in xs
  {
    if |xs| == 0 then None
    else if xs[0] == x then Some(0)
    else match IndexOf(xs[1..], x)
      case None => None
      case Some(i) =>
        assert xs[..i + 1] == [xs[0]] + xs[1..][..i];
        Some(i + 1)
  }

  /**
   * cli.php:9-13: the token after the first `--run-path` becomes the path and both are
   * removed; `pop` past the end of the list (the flag given last) raises `IndexError`.
   */
  function TakePath(argv: seq<string>): (r: Result<(string, seq<string>)>)
    ensures PATH_FLAG !in argv ==> r == Success((DEFAULT_PATH, argv))
  {
    match IndexOf(argv, PATH_FLAG)
    case None => Success((DEFAULT_PATH, argv))
    case Some(i) =>
      if i + 1 >= |argv| then Failure(POP_ERROR)
      else Success((argv[i + 1], argv[..i] + argv[i + 2..]))
  }

  /** cli.php:16-19: `remove` deletes the first `--run-complete` and selects completion. */
  function TakeComplete(argv: seq<string>): (r: (bool, seq<string>))
    ensures r.0 <==> COMPLETE_FLAG in argv
    ensures !r.0 ==> r.1 == argv
  {
    match IndexOf(argv, COMPLETE_FLAG)
    case None => (false, argv)
    case Some(i) => (true, argv[..i] + argv[i + 1..])
  }

  /** Both flag steps, in the order cli.php:8-19 takes them. */
  function ParseArgs(argv: seq<string>): (r: Result<Invocation>)
    ensures r.Failure? <==> PATH_FLAG in argv && IndexOf(argv, PATH_FLAG).value == |argv| - 1
    ensures r.Failure? ==> r.message == POP_ERROR
  {
    var (path, rest) :- TakePath(argv);
    var (complete, rest') := TakeComplete(rest);
    Success(Invocation(path, complete, rest'))
  }

  /**
   * The path step is undone by putting the flag and its value back where they were: the
   * arguments are `before + ["--run-path", path] + after` with no flag in `before`, and
   * what is left is `before + after`, so every other token keeps its relative order.
   */
  lemma PathSplits(argv: seq<string>)
    requires TakePath(argv).Success? && PATH_FLAG in argv
    ensures var (path, rest) := TakePath(argv).value;
            exists before, after ::
              argv == before + [PATH_FLAG, path] + after && PATH_FLAG !in before && rest == before + after
  {
    var i := IndexOf(argv, PATH_FLAG).value;
    var (path, rest) := TakePath(argv).value;
    assert argv == argv[..i] + [PATH_FLAG, path] + argv[i + 2..];
  }

  /** Likewise for `--run-complete`: exactly its first occurrence is deleted. */
  lemma CompleteSplits(argv: seq<string>)
    requires COMPLETE_FLAG in argv
    ensures var (complete, rest) := TakeComplete(argv);
            exists before, after ::
              argv == before + [COMPLETE_FLAG] + after && COMPLETE_FLAG !in before && rest == before + after
  {
    var i := IndexOf(argv, COMPLETE_FLAG).value;
    assert argv == argv[..i] + [COMPLETE_FLAG] + argv[i + 1..];
  }

  /** Without either flag the invocation uses `run.yml`, runs, and passes every argument on. */
  lemma NoFlags(argv: seq<string>)
    requires PATH_FLAG !in argv && COMPLETE_FLAG !in argv
    ensures ParseArgs(argv) == Success(Invocation(DEFAULT_PATH, false, argv))
  {
  }

  /** The configuration mapping for a path, or `None` when `is_file` fails. */
  type Loader = string -> Option<Value>

  /** What the program ends with. */
  datatype Ending =
    | Aborted(message: string)
    | Completed(names: seq<string>)
    | Resolved(resolution: Resolution)

  /**
   * cli.php:22-31 with the file check of read_config (helpers.php:11-15): a missing file
   * or a nesting error ends the program with a message; then `complete` lists names or
   * `run` resolves the arguments from the root.
   */
  function Invoke(argv: seq<string>, load: Loader): (e: Ending)
    ensures ParseArgs(argv).Failure? ==> e == Aborted(POP_ERROR)
    ensures ParseArgs(argv).Success? && load(ParseArgs(argv).value.path).None? ==>
              e == Aborted("No '" + ParseArgs(argv).value.path + "' found")
    ensures e.Completed? ==> ParseArgs(argv).Success? && ParseArgs(argv).value.complete
    ensures e.Resolved? ==> ParseArgs(argv).Success? && !ParseArgs(argv).value.complete
    ensures ParseArgs(argv).Success? && load(ParseArgs(argv).value.path).Some? ==>
              var inv := ParseArgs(argv).value;
              (e.Aborted? <==> BuildTree(load(inv.path).value).Failure?)
              && (e.Aborted? ==> e.message == NESTING_ERROR)
              && (!e.Aborted? ==> (e.Completed? <==> inv.complete))
  {
    match ParseArgs(argv)
    case Failure(m) => Aborted(m)
    case Success(inv) =>
      match load(inv.path)
      case None => Aborted("No '" + inv.path + "' found")
      case Some(config) =>
        match BuildTree(config)
        case Failure(m) => Aborted(m)
        case Success(root) =>
          if inv.complete then Completed(Complete(root, inv.argv))
          else Resolved(Run(root, [], inv.argv))
  }
}

=== FILE: command.dfy ===
/** A resolved, executable step (src/command.php). */
module Commands {
  import opened Common
  import opened Strings

  /**
   * A qualified task name, the shell code to run, and the optional name of the
   * environment variable its output is captured into.
   */
  datatype Command = Command(name: string, code: string, variable: Option<string>)
  {
    /** `variable()` tested for truthiness: only a truthy name captures output. */
    predicate Bound() {
      variable.Some? && Truthy(variable.value)
    }

    /**
     * `code($value = null)` (command.php:19-22): the result pairs the command after the
     * call with the value the call returns. A truthy argument replaces the code and is
     * returned; no argument, or a falsy one (`''`, `'0'`, null), changes nothing and
     * returns the current code. Name and variable are never changed.
     */
    function Code(value: Option<string> := None): (r: (Command, string))
      ensures r.0.name == name && r.0.variable == variable
      ensures r.1 == r.0.code
      ensures value.Some? && Truthy(value.value) ==> r.0.code == value.value
      ensures !(value.Some? && Truthy(value.value)) ==> r.0 == this
    {
      // bare `value` at command.php:20 means $value
      if value.Some? && Truthy(value.value) then (this.(code := value.value), value.value)
      else (this, code)
    }
  }

  /** The constructor (command.php:9-13) stores its arguments verbatim; the variable defaults to null. */
  function NewCommand(name: string, code: string, variable: Option<string> := None): (c: Command)
    ensures c.name == name && c.code == code && c.variable == variable
    ensures variable.None? ==> !c.Bound()
  {
    Command(name, code, variable)
  }

  /** Setting the code twice with the same value is the same as setting it once. */
  lemma SetCodeIdempotent(c: Command, value: Option<string>)
    ensures c.Code(value).0.Code(value) == c.Code(value)
  {
  }

  /** Reading the code after setting it yields the value exactly when the value was truthy. */
  lemma GetAfterSet(c: Command, value: string)
    ensures c.Code(Some(value)).0.Code().1 == (if Truthy(value) then value else c.code)
  {
  }
}

=== FILE: common.dfy ===
/** Failure-compatible wrappers shared by every module of the model. */
module Common {

  /** A value that may be absent; stands for PHP's `null`. */
  datatype Option<+T> = None | Some(value: T) {

    predicate IsFailure() {
      None?
    }

    function PropagateFailure<U>(): Option<U>
      requires None?
    {
      None
    }

    function Extract(): T
      requires Some?
    {
      value
    }
  }

  /** A computation that either produced a value or stopped the program with a message. */
  datatype Result<+R> = Success(value: R) | Failure(message: string) {

    predicate IsFailure() {
      Failure?
    }

    function PropagateFailure<U>(): Result<U>
      requires Failure?
    {
      Failure(message)
    }

    function Extract(): R
      requires Success?
    {
      value
    }
  }
}

=== FILE: executors.dfy ===
/**
 * The synchronous executor `executeSync` (src/executors.php:6-40) as a fail-fast
 * state machine over an abstract process oracle.
 *
 * Spawning a process, piping its output and waiting for it are replaced by `Oracle`:
 * given the command's code and the environment it is launched with, the oracle says
 * how the process exits and what it writes to standard output. The environment is
 * threaded explicitly and returned, instead of the PHP by-value array that never
 * reaches the caller.
 */
module Executors {
  import opened Common
  import opened Strings
  import opened Commands

  type Env = map<string, string>

  /** How a process ended: its exit status and its (raw, untrimmed) standard output. */
  datatype Exit = Exit(status: int, output: string)

  type Oracle = (string, Env) -> Exit

  /**
   * The trace of one `executeSync` call: the codes launched, in launch order, the lines
   * printed, the environment afterwards, and whether it stopped the program with exit 1.
   */
  datatype SyncRun = SyncRun(launched: seq<string>, log: seq<Notice>, env: Env, failed: bool)

  /** The code launched last: for a failed run, the command that failed. */
  function LastLaunched(r: SyncRun): string {
    if |r.launched| == 0 then "" else r.launched[|r.launched| - 1]
  }

  /** A line `executeSync` prints: a launch notice or the failure banner. */
  datatype Notice = Launched(code: string) | Failed(code: string)

  /** The text printed for a notice. */
  function NoticeText(n: Notice): string {
    match n
    case Launched(code) => "[run] Launched '" + code + "'\n"
    // printed by print_message (helpers.php:63-67), which adds the newline; its bold styling is not modelled
    case Failed(code) => "[run] Command '" + code + "' has failed\n"
  }

  /** The environment after a command ran: its output is stored only if it is bound. */
  function Bind(env: Env, c: Command, output: string): Env {
    if c.Bound() then env[c.variable.value := output] else env
  }

  /** Reference fold: the environment after the first `n` commands ran, each seeing the previous bindings. */
  function EnvAfter(cmds: seq<Command>, env: Env, run: Oracle, n: nat): Env
    requires n <= |cmds|
  {
    if n == 0 then env
    else
      var before := EnvAfter(cmds, env, run, n - 1);
      Bind(before, cmds[n - 1], run(cmds[n - 1].code, before).output)
  }

  /** The status the `i`-th command exits with, launched after all earlier ones. */
  function StatusAt(cmds: seq<Command>, env: Env, run: Oracle, i: nat): int
    requires i < |cmds|
  {
    run(cmds[i].code, EnvAfter(cmds, env, run, i)).status
  }

  /** The launch notices for the given commands: unbound ones only, and none when quiet. */
  function LaunchLines(cmds: seq<Command>, quiet: bool): seq<Notice> {
    if |cmds| == 0 then []
    else (if !cmds[0].Bound() && !quiet then [Launched(cmds[0].code)] else []) + LaunchLines(cmds[1..], quiet)
  }

  /**
   * `executeSync($commands, $environ, $quiet)`: launches the commands strictly in
   * order, each with the bindings of the bound commands before it; the first non-zero
   * exit prints the failure banner and ends the program, so nothing after it is
   * launched. `RunSyncLaunched`, `RunSyncStatuses`, `RunSyncLog` and `RunSyncEnv` state the
   * trace, the last against the reference fold `EnvAfter`.
   */
  function RunSync(cmds: seq<Command>, env: Env, quiet: bool, run: Oracle): (r: SyncRun)
    ensures 1 <= |r.launched| <= |cmds| || (|r.launched| == 0 && !r.failed)
    decreases |cmds|
  {
    if |cmds| == 0 then SyncRun([], [], env, false)
    else
      var c := cmds[0];
      // `$command->variables()` and `$ouput` (executors.php:16, 28-29) are typos for
      // variable() and $output: only bound commands have their output captured
      var notice := if !c.Bound() && !quiet then [Launched(c.code)] else [];
      var exit := run(c.code, env);
      var env1 := Bind(env, c, exit.output);
      if exit.status != 0 then SyncRun([c.code], notice + [Failed(c.code)], env1, true)
      else
        var rest := RunSync(cmds[1..], env1, quiet, run);
        SyncRun([c.code] + rest.launched, notice + rest.log, rest.env, rest.failed)
  }

  /** One step of `RunSync`: a successful head is followed by the run of the tail. */
  lemma RunSyncUnfold(cmds: seq<Command>, env: Env, quiet: bool, run: Oracle)
    requires |cmds| > 0
    ensures var c := cmds[0];
            var exit := run(c.code, env);
            var notice := if !c.Bound() && !quiet then [Launched(c.code)] else [];
            var r := RunSync(cmds, env, quiet, run);
            if exit.status != 0 then r == SyncRun([c.code], notice + [Failed(c.code)], Bind(env, c, exit.output), true)
            else
              var rest := RunSync(cmds[1..], Bind(env, c, exit.output), quiet, run);
              r == SyncRun([c.code] + rest.launched, notice + rest.log, rest.env, rest.failed)
  {
  }

  /** The codes launched are those of the first commands, in list order. */
  lemma {:induction false} RunSyncLaunched(cmds: seq<Command>, env: Env, quiet: bool, run: Oracle)
    ensures var r := RunSync(cmds, env, quiet, run);
            forall i :: 0 <= i < |r.launched| ==> r.launched[i] == cmds[i].code
    decreases |cmds|
  {
    if |cmds| > 0 {
      RunSyncUnfold(cmds, env, quiet, run);
      var exit := run(cmds[0].code, env);
      if exit.status == 0 {
        var env1 := Bind(env, cmds[0], exit.output);
        var rest := RunSync(cmds[1..], env1, quiet, run);
        var r := RunSync(cmds, env, quiet, run);
        RunSyncLaunched(cmds[1..], env1, quiet, run);
        forall i | 0 <= i < |r.launched| ensures r.launched[i] == cmds[i].code {
          if i > 0 {
            assert r.launched[i] == rest.launched[i - 1];
          }
        }
      }
    }
  }

  /** Every launched command but a failing last one exited with status 0, and a failing run ends on a non-zero status. */
  lemma RunSyncStatuses(cmds: seq<Command>, env: Env, quiet: bool, run: Oracle)
    ensures var r := RunSync(cmds, env, quiet, run);
            forall i :: 0 <= i < |r.launched| && !(r.failed && i == |r.launched| - 1) ==>
              StatusAt(cmds, env, run, i) == 0
    ensures var r := RunSync(cmds, env, quiet, run);
            r.failed ==> |r.launched| >= 1 && StatusAt(cmds, env, run, |r.launched| - 1) != 0
  {
    RunSyncPasses(cmds, env, quiet, run);
    RunSyncFailsOn(cmds, env, quiet, run);
  }

  lemma {:induction false} RunSyncPasses(cmds: seq<Command>, env: Env, quiet: bool, run: Oracle)
    ensures var r := RunSync(cmds, env, quiet, run);
            forall i :: 0 <= i < |r.launched| && !(r.failed && i == |r.launched| - 1) ==>
              StatusAt(cmds, env, run, i) == 0
    decreases |cmds|
  {
    if |cmds| > 0 {
      RunSyncUnfold(cmds, env, quiet, run);
      var exit := run(cmds[0].code, env);
      if exit.status == 0 {
        var env1 := Bind(env, cmds[0], exit.output);
        var rest := RunSync(cmds[1..], env1, quiet, run);
        var r := RunSync(cmds, env, quiet, run);
        RunSyncPasses(cmds[1..], env1, quiet, run);
        assert |r.launched| == |rest.launched| + 1 && r.failed == rest.failed;
        forall i | 0 <= i < |r.launched| && !(r.failed && i == |r.launched| - 1)
          ensures StatusAt(cmds, env, run, i) == 0
        {
          if i > 0 {
            StatusShift(cmds, env, run, i);
          }
        }
      }
    }
  }

  lemma {:induction false} RunSyncFailsOn(cmds: seq<Command>, env: Env, quiet: bool, run: Oracle)
    ensures var r := RunSync(cmds, env, quiet, run);
            r.failed ==> |r.launched| >= 1 && StatusAt(cmds, env, run, |r.launched| - 1) != 0
    decreases |cmds|
  {
    if |cmds| > 0 {
      RunSyncUnfold(cmds, env, quiet, run);
      var exit := run(cmds[0].code, env);
      if exit.status == 0 {
        var env1 := Bind(env, cmds[0], exit.output);
        var rest := RunSync(cmds[1..], env1, quiet, run);
        RunSyncFailsOn(cmds[1..], env1, quiet, run);
        if rest.failed {
          StatusShift(cmds, env, run, |rest.launched|);
        }
      }
    }
  }

  /** After a head that exits with 0, the statuses are those of the tail from the head's bindings. */
  lemma StatusShift(cmds: seq<Command>, env: Env, run: Oracle, j: nat)
    requires 1 <= j < |cmds|
    requires run(cmds[0].code, env).status == 0
    ensures StatusAt(cmds, env, run, j)
            == StatusAt(cmds[1..], Bind(env, cmds[0], run(cmds[0].code, env).output), run, j - 1)
  {
    EnvAfterShift(cmds, env, run, j - 1);
  }

  /** The lines printed: launch notices for what was launched, then the banner if it failed. */
  lemma RunSyncLog(cmds: seq<Command>, env: Env, quiet: bool, run: Oracle)
    ensures var r := RunSync(cmds, env, quiet, run);
            r.failed ==> (|r.launched| >= 1 &&
              r.log == LaunchLines(cmds[..|r.launched|], quiet) + [Failed(cmds[|r.launched| - 1].code)])
    ensures var r := RunSync(cmds, env, quiet, run);
            !r.failed ==> |r.launched| == |cmds| && r.log == LaunchLines(cmds, quiet)
  {
    RunSyncLogFailed(cmds, env, quiet, run);
    RunSyncLogPassed(cmds, env, quiet, run);
  }

  lemma {:induction false} RunSyncLogPassed(cmds: seq<Command>, env: Env, quiet: bool, run: Oracle)
    ensures var r := RunSync(cmds, env, quiet, run);
            !r.failed ==> |r.launched| == |cmds| && r.log == LaunchLines(cmds, quiet)
    decreases |cmds|
  {
    if |cmds| > 0 {
      RunSyncUnfold(cmds, env, quiet, run);
      var exit := run(cmds[0].code, env);
      if exit.status == 0 {
        RunSyncLogPassed(cmds[1..], Bind(env, cmds[0], exit.output), quiet, run);
      }
    }
  }

  lemma {:induction false} RunSyncLogFailed(cmds: seq<Command>, env: Env, quiet: bool, run: Oracle)
    ensures FailedLogged(cmds, RunSync(cmds, env, quiet, run), quiet)
    decreases |cmds|
  {
    if |cmds| > 0 {
      var exit := run(cmds[0].code, env);
      if exit.status != 0 {
        LogHeadFails(cmds, env, quiet, run);
      } else {
        var env1 := Bind(env, cmds[0], exit.output);
        RunSyncLogFailed(cmds[1..], env1, quiet, run);
        LogTailFails(cmds, env, quiet, run);
      }
    }
  }

  /** A failed run printed the notices of what it launched, then the banner of its last command. */
  predicate FailedLogged(cmds: seq<Command>, r: SyncRun, quiet: bool) {
    r.failed ==> (1 <= |r.launched| <= |cmds| &&
      r.log == LaunchLines(cmds[..|r.launched|], quiet) + [Failed(cmds[|r.launched| - 1].code)])
  }

  lemma LogHeadFails(cmds: seq<Command>, env: Env, quiet: bool, run: Oracle)
    requires |cmds| > 0 && run(cmds[0].code, env).status != 0
    ensures FailedLogged(cmds, RunSync(cmds, env, quiet, run), quiet)
  {
    RunSyncUnfold(cmds, env, quiet, run);
    var c := cmds[0];
    var notice := if !c.Bound() && !quiet then [Launched(c.code)] else [];
    assert LaunchLines(cmds[..1], quiet) == notice by {
      LaunchLinesCons(cmds, 1, quiet);
      assert cmds[1..][..0] == [];
    }
  }

  lemma LogTailFails(cmds: seq<Command>, env: Env, quiet: bool, run: Oracle)
    requires |cmds| > 0 && run(cmds[0].code, env).status == 0
    requires FailedLogged(cmds[1..], RunSync(cmds[1..], Bind(env, cmds[0], run(cmds[0].code, env).output), quiet, run), quiet)
    ensures FailedLogged(cmds, RunSync(cmds, env, quiet, run), quiet)
  {
    RunSyncUnfold(cmds, env, quiet, run);
    var c := cmds[0];
    var notice := if !c.Bound() && !quiet then [Launched(c.code)] else [];
    var rest := RunSync(cmds[1..], Bind(env, c, run(c.code, env).output), quiet, run);
    if rest.failed {
      var n := |rest.launched|;
      LaunchLinesCons(cmds, n + 1, quiet);
      assert cmds[1..][n - 1] == cmds[n];
      AppendAssoc(notice, LaunchLines(cmds[1..][..n], quiet), [Failed(cmds[n].code)]);
    }
  }

  lemma AppendAssoc<T>(a: seq<T>, b: seq<T>, c: seq<T>)
    ensures a + (b + c) == a + b + c
  {
  }

  lemma LaunchLinesCons(cmds: seq<Command>, n: nat, quiet: bool)
    requires 1 <= n <= |cmds|
    ensures LaunchLines(cmds[..n], quiet)
            == (if !cmds[0].Bound() && !quiet then [Launched(cmds[0].code)] else []) + LaunchLines(cmds[1..][..n - 1], quiet)
  {
    assert cmds[..n][0] == cmds[0];
    assert cmds[..n][1..] == cmds[1..][..n - 1];
  }

  /** A run without failure leaves exactly the reference environment. */
  lemma {:induction false} RunSyncEnv(cmds: seq<Command>, env: Env, quiet: bool, run: Oracle)
    ensures var r := RunSync(cmds, env, quiet, run);
            !r.failed ==> r.env == EnvAfter(cmds, env, run, |cmds|)
    decreases |cmds|
  {
    if |cmds| > 0 {
      RunSyncUnfold(cmds, env, quiet, run);
      var c := cmds[0];
      var exit := run(c.code, env);
      if exit.status == 0 {
        var env1 := Bind(env, c, exit.output);
        RunSyncEnv(cmds[1..], env1, quiet, run);
        EnvAfterShift(cmds, env, run, |cmds| - 1);
      }
    }
  }

  /** Running the tail after the head is the fold shifted by one. */
  lemma {:induction false} EnvAfterShift(cmds: seq<Command>, env: Env, run: Oracle, n: nat)
    requires 1 <= |cmds| && n < |cmds|
    ensures EnvAfter(cmds[1..], Bind(env, cmds[0], run(cmds[0].code, env).output), run, n)
            == EnvAfter(cmds, env, run, n + 1)
  {
    if n > 0 {
      EnvAfterShift(cmds, env, run, n - 1);
    }
  }

  /** A variable no command among the first `n` binds keeps its value. */
  lemma {:induction false} EnvAfterUntouched(cmds: seq<Command>, env: Env, run: Oracle, n: nat, v: string)
    requires n <= |cmds|
    requires forall i :: 0 <= i < n ==> !(cmds[i].Bound() && cmds[i].variable.value == v)
    ensures v in EnvAfter(cmds, env, run, n) <==> v in env
    ensures v in env ==> EnvAfter(cmds, env, run, n)[v] == env[v]
  {
    if n > 0 {
      EnvAfterUntouched(cmds, env, run, n - 1, v);
    }
  }

  /** After a bound command runs, its variable holds that command's raw output. */
  lemma EnvAfterBinds(cmds: seq<Command>, env: Env, run: Oracle, n: nat)
    requires 1 <= n <= |cmds| && cmds[n - 1].Bound()
    ensures var before := EnvAfter(cmds, env, run, n - 1);
            EnvAfter(cmds, env, run, n)[cmds[n - 1].variable.value] == run(cmds[n - 1].code, before).output
  {
  }

  /** When quiet, the only line `executeSync` can print is the failure banner. */
  lemma {:induction false} QuietLogsNothing(cmds: seq<Command>)
    ensures LaunchLines(cmds, true) == []
  {
    if |cmds| > 0 {
      QuietLogsNothing(cmds[1..]);
    }
  }
}

=== FILE: helpers.dfy ===
/**
 * The pure parts of src/helpers.php: the endless colour palette `iter_colors`
 * (helpers.php:70-90) and the line scan of `read_config` (helpers.php:26-51) that pairs
 * every top-level key of the parsed configuration with the `# ` comments written
 * directly above the line that mentions it.
 *
 * Reading the file, splitting off the options document and parsing YAML happen before
 * the scan; the scan receives the first document's text and the mapping it parsed to.
 */
module Helpers {
  import opened Common
  import opened Strings
  import opened Tasks

  // ---------------------------------------------------------------- colours

  const COLORS: seq<string> := [
    "cyan", "yellow", "green", "magenta", "red", "blue",
    "intense_cyan", "intense_yellow", "intense_green", "intense_magenta", "intense_red", "intense_blue"
  ]

  /** The colour the generator yields at (zero-based) position `n`. */
  function ColorAt(n: nat): string {
    COLORS[n % |COLORS|]
  }

  /**
   * The first `n` values of `iter_colors()`: an endless outer loop whose every round
   * yields the palette once, in order; the caller stops pulling after `n` values.
   */
  method IterColors(n: nat) returns (ys: seq<string>)
    ensures |ys| == n
    ensures forall i :: 0 <= i < n ==> ys[i] == ColorAt(i) && ys[i] in COLORS
  {
    ys := [];
    var rounds := 0;
    while |ys| < n
      invariant |ys| <= n
      invariant |ys| == 12 * rounds || |ys| == n
      invariant forall i :: 0 <= i < |ys| ==> ys[i] == ColorAt(i)
      decreases n - |ys|
    {
      var j := 0;
      while j < |COLORS| && |ys| < n
        invariant 0 <= j <= |COLORS| && |ys| <= n
        invariant |ys| == 12 * rounds + j
        invariant forall i :: 0 <= i < |ys| ==> ys[i] == ColorAt(i)
        decreases |COLORS| - j
      {
        assert (12 * rounds + j) % 12 == j;
        ys := ys + [COLORS[j]];
        j := j + 1;
      }
      rounds := rounds + 1;
    }
  }

  /** No colour appears twice in the palette. */
  lemma PaletteDistinct()
    ensures forall i, j :: 0 <= i < j < |COLORS| ==> COLORS[i] != COLORS[j]
  {
  }

  lemma {:induction false} DistinctOnce(xs: seq<string>, c: string)
    requires forall i, j :: 0 <= i < j < |xs| ==> xs[i] != xs[j]
    ensures multiset(xs)[c] == (if c in xs then 1 else 0)
  {
    if |xs| > 0 {
      assert xs == [xs[0]] + xs[1..];
      DistinctOnce(xs[1..], c);
      assert xs[0] !in xs[1..] by {
        forall k | 0 <= k < |xs[1..]| ensures xs[1..][k] != xs[0] {
          assert xs[1..][k] == xs[k + 1];
        }
      }
    }
  }

  /** The twelve yields from position `s` on. */
  function Window(s: nat): (w: seq<string>)
    ensures |w| == 12 && forall k :: 0 <= k < 12 ==> w[k] == ColorAt(s + k)
  {
    seq(12, k requires 0 <= k < 12 => ColorAt(s + k))
  }

  lemma ModOffset(q: nat, x: nat)
    requires x < 12
    ensures (12 * q + x) % 12 == x
  {
  }

  /** A window whose k-th element is `xs[(s + k) mod |xs|]` is `xs` rotated by `s`. */
  lemma Rotation(xs: seq<string>, s: nat, w: seq<string>)
    requires |xs| == 12 && |w| == 12
    requires forall k :: 0 <= k < 12 ==> w[k] == xs[(s + k) % 12]
    ensures w == xs[s % 12..] + xs[..s % 12]
  {
    var n := 12;
    var r := s % n;
    var q := s / n;
    assert s == n * q + r;
    var rot := xs[r..] + xs[..r];
    forall k | 0 <= k < n ensures w[k] == rot[k] {
      if k < n - r {
        ModOffset(q, r + k);
        assert s + k == n * q + (r + k);
        assert rot[k] == xs[r + k];
      } else {
        ModOffset(q + 1, r + k - n);
        assert s + k == n * (q + 1) + (r + k - n);
        assert rot[k] == xs[r + k - n];
      }
    }
  }

  lemma RotationKeepsMultiset(xs: seq<string>, r: nat)
    requires r <= |xs|
    ensures multiset(xs[r..] + xs[..r]) == multiset(xs)
  {
    assert xs[..r] + xs[r..] == xs;
    assert multiset(xs[..r] + xs[r..]) == multiset(xs[..r]) + multiset(xs[r..]);
  }

  /** A rearrangement of a repetition-free sequence holds each of its elements once and nothing else. */
  lemma OnceEach(xs: seq<string>, w: seq<string>)
    requires forall i, j :: 0 <= i < j < |xs| ==> xs[i] != xs[j]
    requires multiset(w) == multiset(xs)
    ensures forall c :: c in xs ==> multiset(w)[c] == 1
    ensures forall c :: c !in xs ==> multiset(w)[c] == 0
  {
    forall c ensures multiset(w)[c] == (if c in xs then 1 else 0) {
      DistinctOnce(xs, c);
    }
  }

  /** The twelve yields from `s` on hold the palette's colours, each as often as the palette does. */
  lemma WindowMultiset(s: nat)
    ensures multiset(Window(s)) == multiset(COLORS)
  {
    var w := Window(s);
    assert forall k :: 0 <= k < 12 ==> w[k] == COLORS[(s + k) % 12];
    Rotation(COLORS, s, w);
    RotationKeepsMultiset(COLORS, s % 12);
  }

  /** Twelve consecutive yields, starting anywhere, contain every palette colour exactly once. */
  lemma ColorWindow(s: nat)
    ensures forall c :: c in COLORS ==> multiset(Window(s))[c] == 1
    ensures forall c :: c !in COLORS ==> multiset(Window(s))[c] == 0
  {
    WindowMultiset(s);
    PaletteDistinct();
    OnceEach(COLORS, Window(s));
  }

  // ---------------------------------------------------------------- splitting the document

  /** `explode("\n", $text)`: the pieces between separators; there is always at least one. */
  function Split(s: string, sep: char): (r: seq<string>)
    ensures |r| >= 1
    ensures forall k :: 0 <= k < |r| ==> sep !in r[k]
    decreases |s|
  {
    if |s| == 0 then [""]
    else
      var rest := Split(s[1..], sep);
      if s[0] == sep then [""] + rest
      else [[s[0]] + rest[0]] + rest[1..]
  }

  lemma JoinHead(sep: string, x: string, parts: seq<string>)
    requires |parts| >= 1
    ensures Join(sep, [x + parts[0]] + parts[1..]) == x + Join(sep, parts)
  {
    var ps := [x + parts[0]] + parts[1..];
    assert ps[1..] == parts[1..];
  }

  /** Joining the pieces back with the separator gives the original text. */
  lemma {:induction false} SplitJoin(s: string, sep: char)
    ensures Join([sep], Split(s, sep)) == s
    decreases |s|
  {
    if |s| > 0 {
      var rest := Split(s[1..], sep);
      SplitJoin(s[1..], sep);
      if s[0] == sep {
        assert ([""] + rest)[1..] == rest;
      } else {
        JoinHead([sep], [s[0]], rest);
      }
      assert s == [s[0]] + s[1..];
    }
  }

  lemma {:induction false} SplitPrefix(a: string, sep: char, b: string)
    requires sep !in a
    ensures Split(a + [sep] + b, sep) == [a] + Split(b, sep)
    decreases |a|
  {
    if |a| == 0 {
      assert a + [sep] + b == [sep] + b;
      assert ([sep] + b)[1..] == b;
    } else {
      SplitPrefix(a[1..], sep, b);
      assert (a + [sep] + b)[1..] == a[1..] + [sep] + b;
      assert [a[0]] + a[1..] == a;
    }
  }

  lemma {:induction false} SplitNoSep(a: string, sep: char)
    requires sep !in a
    ensures Split(a, sep) == [a]
    decreases |a|
  {
    if |a| > 0 {
      SplitNoSep(a[1..], sep);
      assert [a[0]] + a[1..] == a;
    }
  }

  /** Splitting pieces that hold no separator, once joined, gives the pieces back. */
  lemma {:induction false} JoinSplit(parts: seq<string>, sep: char)
    requires |parts| >= 1
    requires forall k :: 0 <= k < |parts| ==> sep !in parts[k]
    ensures Split(Join([sep], parts), sep) == parts
    decreases |parts|
  {
    if |parts| == 1 {
      SplitNoSep(parts[0], sep);
    } else {
      JoinSplit(parts[1..], sep);
      SplitPrefix(parts[0], sep, Join([sep], parts[1..]));
      assert parts == [parts[0]] + parts[1..];
    }
  }

  // ---------------------------------------------------------------- the comment scan

  /** `substr($line, 0, 2) === '# '`. */
  predicate IsComment(line: string) {
    StartsWith(line, "# ")
  }

  /** `str_replace('# ', '', $line)`: every occurrence is deleted, not only the leading one. */
  function CommentText(line: string): string {
    RemoveAll(line, "# ")
  }

  // An integer key (module Strings) is never identical (`===`) to a substring of a line.

  /** `substr($line, 0, strlen($key)) === $key` for a key as PHP holds it. */
  predicate KeyMatches(key: string, line: string) {
    !IntegerKey(key) && StartsWith(line, key)
  }

  /** The top-level entries the scan iterates; a parsed document that is not a mapping has none. */
  function RawEntries(raw: Value): seq<Entry> {
    if raw.Arr? then raw.entries else []
  }

  /** Positions, from `j` on and in increasing order, of the keys the line starts with. */
  function Matching(raw: seq<Entry>, line: string, j: nat): (ix: seq<nat>)
    requires j <= |raw|
    ensures forall k :: 0 <= k < |ix| ==> j <= ix[k] < |raw| && KeyMatches(raw[ix[k]].key, line)
    ensures forall k, l :: 0 <= k < l < |ix| ==> ix[k] < ix[l]
    ensures forall i :: j <= i < |raw| && KeyMatches(raw[i].key, line) ==> i in ix
    decreases |raw| - j
  {
    if j == |raw| then []
    else if KeyMatches(raw[j].key, line) then [j] + Matching(raw, line, j + 1)
    else Matching(raw, line, j + 1)
  }

  /** One run item: `[$key => ['code' => $value, 'desc' => $desc]]`. */
  function Item(key: string, value: Value, desc: string): Value {
    Arr([Entry(key, Arr([Entry("code", value), Entry("desc", Text(desc))]))])
  }

  /** The items one non-comment line adds, one per matching key, in key order. */
  function LineItems(raw: seq<Entry>, line: string, desc: string): (items: seq<Value>)
    ensures var ix := Matching(raw, line, 0);
            |items| == |ix| &&
            forall k :: 0 <= k < |ix| ==> items[k] == Item(raw[ix[k]].key, raw[ix[k]].value, desc)
  {
    var ix := Matching(raw, line, 0);
    seq(|ix|, k requires 0 <= k < |ix| => Item(raw[ix[k]].key, raw[ix[k]].value, desc))
  }

  /** The scan's two variables between lines: the run list so far and the pending comments. */
  datatype ScanState = ScanState(run: seq<Value>, comments: seq<string>)

  /**
   * One iteration of the loop at helpers.php:29-51: a comment line is collected; any other
   * line adds its items, described by the pending comments joined with the two literal
   * characters backslash and `n`, and then clears them.
   */
  function Step(raw: seq<Entry>, st: ScanState, line: string): ScanState {
    if IsComment(line) then ScanState(st.run, st.comments + [CommentText(line)])
    else ScanState(st.run + LineItems(raw, line, Join("\\n", st.comments)), [])
  }

  /** The state after the first `n` lines. */
  function Scan(raw: seq<Entry>, lines: seq<string>, n: nat): ScanState
    requires n <= |lines|
  {
    if n == 0 then ScanState([], []) else Step(raw, Scan(raw, lines, n - 1), lines[n - 1])
  }

  /** `(string) $i` for a list index. */
  function Decimal(n: nat): (s: string)
    ensures |s| >= 1 && Digits(s)
  {
    if n < 10 then ["0123456789"[n]] else Decimal(n / 10) + ["0123456789"[n % 10]]
  }

  /**
   * `$config` as the scan leaves it: `['run' => [...]]`, the run items keyed by their
   * list positions. The document's text is split at line breaks first.
   */
  function ScanConfig(raw: Value, text: string): (config: Value)
    ensures config.Arr? && |config.entries| == 1 && config.entries[0].key == "run"
    ensures config.entries[0].value.Arr?
    ensures var lines := Split(text, '\n');
            var run := Scan(RawEntries(raw), lines, |lines|).run;
            |config.entries[0].value.entries| == |run| &&
            forall i :: 0 <= i < |run| ==> config.entries[0].value.entries[i].value == run[i]
  {
    var lines := Split(text, '\n');
    var run := Scan(RawEntries(raw), lines, |lines|).run;
    Arr([Entry("run", Arr(seq(|run|, i requires 0 <= i < |run| => Entry(Decimal(i), run[i]))))])
  }

  // ---------------------------------------------------------------- reference description

  /** Where the block of comment lines that ends just before line `n` begins. */
  function BlockStart(lines: seq<string>, n: nat): (s: nat)
    requires n <= |lines|
    ensures s <= n
    ensures forall k :: s <= k < n ==> IsComment(lines[k])
    ensures s == 0 || !IsComment(lines[s - 1])
  {
    if n == 0 || !IsComment(lines[n - 1]) then n else BlockStart(lines, n - 1)
  }

  /** The comments attached to line `n`: the texts of the comment block directly above it. */
  function CommentsAbove(lines: seq<string>, n: nat): seq<string>
    requires n <= |lines|
  {
    var s := BlockStart(lines, n);
    seq(n - s, k requires 0 <= k < n - s => CommentText(lines[s + k]))
  }

  /** What line `i` contributes on its own: nothing for a comment, else its items. */
  function Contribution(raw: seq<Entry>, lines: seq<string>, i: nat): seq<Value>
    requires i < |lines|
  {
    if IsComment(lines[i]) then [] else LineItems(raw, lines[i], Join("\\n", CommentsAbove(lines, i)))
  }

  /** The pending comments after `n` lines are exactly the comment block that ends there. */
  lemma {:induction false} ScanComments(raw: seq<Entry>, lines: seq<string>, n: nat)
    requires n <= |lines|
    ensures Scan(raw, lines, n).comments == CommentsAbove(lines, n)
  {
    if n > 0 {
      ScanComments(raw, lines, n - 1);
      if IsComment(lines[n - 1]) {
        var s := BlockStart(lines, n - 1);
        assert BlockStart(lines, n) == s;
        assert CommentsAbove(lines, n) == CommentsAbove(lines, n - 1) + [CommentText(lines[n - 1])];
      }
    }
  }

  /** Each line extends the run list by its own contribution and by nothing else. */
  lemma ScanAppends(raw: seq<Entry>, lines: seq<string>, n: nat)
    requires n < |lines|
    ensures Scan(raw, lines, n + 1).run == Scan(raw, lines, n).run + Contribution(raw, lines, n)
  {
    ScanComments(raw, lines, n);
  }

  /** A comment line adds no item, and its text is what is left after deleting every `# `. */
  lemma CommentLine(raw: seq<Entry>, lines: seq<string>, n: nat, rest: string)
    requires n < |lines| && lines[n] == "# " + rest && !Contains(rest, "# ")
    ensures Scan(raw, lines, n + 1).run == Scan(raw, lines, n).run
    ensures Scan(raw, lines, n + 1).comments == Scan(raw, lines, n).comments + [rest]
  {
    assert StartsWith(lines[n], "# ");
    assert lines[n][2..] == rest;
    RemoveAllAbsent(rest, "# ");
  }

  /**
   * Comments attach only to the line right below them: a line that follows a non-comment
   * line (or opens the document) gets the empty description.
   */
  lemma NoStaleComments(raw: seq<Entry>, lines: seq<string>, i: nat)
    requires i < |lines| && !IsComment(lines[i])
    requires i == 0 || !IsComment(lines[i - 1])
    ensures Contribution(raw, lines, i) == LineItems(raw, lines[i], "")
  {
    assert BlockStart(lines, i) == i;
  }

  /**
   * Every item is a `{code, desc}` wrapper the task constructor opens: its single entry
   * carries a top-level key and the code is that key's parsed value.
   */
  lemma ItemsAreDescribed(raw: seq<Entry>, line: string, desc: string, k: nat)
    requires k < |LineItems(raw, line, desc)|
    ensures var item := LineItems(raw, line, desc)[k];
            item.Arr? && |item.entries| == 1 && Described(item.entries[0].value)
            && exists i :: 0 <= i < |raw| && KeyMatches(raw[i].key, line)
                 && item.entries[0].key == raw[i].key && CodeOf(item.entries[0].value) == raw[i].value
  {
    var ix := Matching(raw, line, 0);
    var i := ix[k];
    var inner := Arr([Entry("code", raw[i].value), Entry("desc", Text(desc))]);
    assert KeyIndex(inner.entries, "code") == Some(0);
    assert KeyIndex(inner.entries[1..], "desc") == Some(0);
    assert KeyIndex(inner.entries, "desc") == Some(1);
  }
}

=== FILE: navigator.dfy ===
/**
 * Read-only algorithms over the task tree (src/task.php:131-217).
 *
 * A node is named by the path of child indices leading to it from the root, so the
 * PHP parent back-references become path prefixes: the ancestors of the node at `p`
 * are the nodes at `p[..k]` for `k < |p|`, and object comparison becomes path equality.
 */
module Navigator {
  import opened Common
  import opened Strings
  import opened Tasks

  type Path = seq<nat>

  predicate ValidPath(t: Task, p: Path)
    decreases |p|
  {
    |p| == 0 || (p[0] < |t.children| && ValidPath(t.children[p[0]], p[1..]))
  }

  function At(t: Task, p: Path): Task
    requires ValidPath(t, p)
    decreases |p|
  {
    if |p| == 0 then t else At(t.children[p[0]], p[1..])
  }

  /** `is_root()` (task.php:135-137): only the empty path has no parent. */
  predicate IsRoot(p: Path) {
    |p| == 0
  }

  lemma {:induction false} AtConcat(t: Task, p: Path, q: Path)
    ensures ValidPath(t, p + q) <==> ValidPath(t, p) && ValidPath(At(t, p), q)
    ensures ValidPath(t, p + q) ==> At(t, p + q) == At(At(t, p), q)
    decreases |p|
  {
    if |p| == 0 {
      assert p + q == q;
    } else {
      assert (p + q)[0] == p[0];
      assert (p + q)[1..] == p[1..] + q;
      if p[0] < |t.children| {
        AtConcat(t.children[p[0]], p[1..], q);
      }
    }
  }

  lemma ChildStep(t: Task, p: Path, i: nat)
    ensures ValidPath(t, p + [i]) <==> ValidPath(t, p) && i < |At(t, p).children|
    ensures ValidPath(t, p + [i]) ==> At(t, p + [i]) == At(t, p).children[i]
  {
    AtConcat(t, p, [i]);
    if ValidPath(t, p) {
      assert [i][1..] == [];
    }
  }

  lemma PrefixValid(t: Task, p: Path, k: nat)
    requires ValidPath(t, p) && k <= |p|
    ensures ValidPath(t, p[..k])
  {
    assert p == p[..k] + p[k..];
    AtConcat(t, p[..k], p[k..]);
  }

  /** `parents()` (task.php:139-148): the ancestors of the node at `p`, root first. */
  function Parents(t: Task, p: Path): (r: seq<Task>)
    requires ValidPath(t, p)
    ensures |r| == |p|
    ensures forall i :: 0 <= i < |p| ==> ValidPath(t, p[..i]) && r[i] == At(t, p[..i])
    decreases |p|
  {
    // `this` at task.php:141 means $this, and `task.parent` at task.php:143 means $task->parent()
    if |p| == 0 then []
    else
      var rest := Parents(t.children[p[0]], p[1..]);
      assert forall i :: 1 <= i <= |p| ==> p[..i][1..] == p[1..][..i - 1];
      [t] + rest
  }

  /** The names of the given nodes that PHP treats as true, in order. */
  function TruthyNames(ts: seq<Task>): (r: seq<string>)
    ensures forall i :: 0 <= i < |r| ==> Truthy(r[i])
    ensures |r| <= |ts|
  {
    if |ts| == 0 then []
    else (if Truthy(ts[0].name) then [ts[0].name] else []) + TruthyNames(ts[1..])
  }

  lemma {:induction false} TruthyNamesSnoc(ts: seq<Task>, x: Task)
    ensures TruthyNames(ts + [x]) == TruthyNames(ts) + (if Truthy(x.name) then [x.name] else [])
  {
    if |ts| > 0 {
      assert (ts + [x])[1..] == ts[1..] + [x];
      TruthyNamesSnoc(ts[1..], x);
    } else {
      assert ts + [x] == [x];
    }
  }

  /** `qualified_name()` (task.php:150-156). */
  function QualifiedName(t: Task, p: Path): string
    requires ValidPath(t, p)
  {
    // `[self]` at task.php:152 means [$this]; `parent.name` at task.php:153 means $parent->name(), tested for truthiness
    Join(" ", TruthyNames(Parents(t, p) + [At(t, p)]))
  }

  /** The qualified name grown by one node: a falsy name adds nothing, otherwise one space-separated word. */
  function Extend(qualified: string, name: string): string {
    if !Truthy(name) then qualified else if qualified == "" then name else qualified + " " + name
  }

  lemma ParentsSnoc(t: Task, p: Path, i: nat)
    requires ValidPath(t, p) && i < |At(t, p).children|
    ensures ValidPath(t, p + [i])
    ensures Parents(t, p + [i]) == Parents(t, p) + [At(t, p)]
  {
    ChildStep(t, p, i);
    var ps := Parents(t, p + [i]);
    assert (p + [i])[..|p|] == p;
    forall k | 0 <= k < |p| ensures ps[k] == Parents(t, p)[k] {
      assert (p + [i])[..k] == p[..k];
    }
  }

  /** The root's qualified name is its own name when that is truthy, and empty otherwise. */
  lemma QualifiedNameRoot(t: Task)
    ensures QualifiedName(t, []) == (if Truthy(t.name) then t.name else "")
  {
    assert Parents(t, []) + [At(t, [])] == [t];
    assert TruthyNames([t]) == (if Truthy(t.name) then [t.name] else []) + TruthyNames([]);
  }

  /**
   * Qualified names are built incrementally down the tree: each step to a child extends
   * the parent's qualified name by the child's name when that is truthy.
   */
  lemma QualifiedNameStep(t: Task, p: Path, i: nat)
    requires ValidPath(t, p) && i < |At(t, p).children|
    ensures ValidPath(t, p + [i])
    ensures QualifiedName(t, p + [i]) == Extend(QualifiedName(t, p), At(t, p).children[i].name)
  {
    ParentsSnoc(t, p, i);
    ChildStep(t, p, i);
    var line := Parents(t, p) + [At(t, p)];
    var names := TruthyNames(line);
    var child := At(t, p).children[i];
    TruthyNamesSnoc(line, child);
    assert Parents(t, p + [i]) + [At(t, p + [i])] == line + [child];
    JoinSnoc(" ", names, child.name);
    JoinEmpty(" ", names);
    if !Truthy(child.name) {
      assert TruthyNames(line + [child]) == names;
    } else {
      assert TruthyNames(line + [child]) == names + [child.name];
    }
  }

  /** Lexicographic order on paths, a proper prefix first: the document order of nodes. */
  predicate LexLess(a: Path, b: Path)
    decreases |a|
  {
    |b| > 0 && (|a| == 0 || a[0] < b[0] || (a[0] == b[0] && LexLess(a[1..], b[1..])))
  }

  predicate Sorted(ps: seq<Path>) {
    forall i, j :: 0 <= i < j < |ps| ==> LexLess(ps[i], ps[j])
  }

  lemma LexLessCons(i: nat, a: Path, j: nat, b: Path)
    ensures LexLess([i] + a, [j] + b) <==> i < j || (i == j && LexLess(a, b))
  {
    assert ([i] + a)[1..] == a;
    assert ([j] + b)[1..] == b;
  }

  lemma {:induction false} LexLessIrreflexive(a: Path)
    ensures !LexLess(a, a)
    decreases |a|
  {
    if |a| > 0 {
      LexLessIrreflexive(a[1..]);
    }
  }

  lemma SortedConcat(xs: seq<Path>, ys: seq<Path>)
    requires Sorted(xs) && Sorted(ys)
    requires forall i, j :: 0 <= i < |xs| && 0 <= j < |ys| ==> LexLess(xs[i], ys[j])
    ensures Sorted(xs + ys)
  {
    forall i, j | 0 <= i < j < |xs + ys| ensures LexLess((xs + ys)[i], (xs + ys)[j]) {
      if j < |xs| {
      } else if i >= |xs| {
        assert (xs + ys)[i] == ys[i - |xs|];
      } else {
        assert (xs + ys)[j] == ys[j - |xs|];
      }
    }
  }

  /** The paths `ps`, each prefixed by the child index `i`. */
  function Prefixed(i: nat, ps: seq<Path>): (r: seq<Path>)
    ensures |r| == |ps|
    ensures forall k :: 0 <= k < |ps| ==> r[k] == [i] + ps[k]
  {
    seq(|ps|, k requires 0 <= k < |ps| => [i] + ps[k])
  }

  lemma SortedPrefixed(i: nat, ps: seq<Path>)
    requires Sorted(ps)
    ensures Sorted(Prefixed(i, ps))
  {
    forall a, b | 0 <= a < b < |ps| ensures LexLess(Prefixed(i, ps)[a], Prefixed(i, ps)[b]) {
      LexLessCons(i, ps[a], i, ps[b]);
    }
  }

  /** The paths below child `i`, prefixed by `i`, are sorted paths of `t` through that child. */
  lemma PrefixedBelow(t: Task, i: nat, ps: seq<Path>)
    requires i < |t.children| && Sorted(ps)
    requires forall q :: q in ps ==> ValidPath(t.children[i], q)
    ensures Sorted(Prefixed(i, ps))
    ensures forall q :: q in Prefixed(i, ps) ==>
              |q| >= 1 && q[0] == i && ValidPath(t, q) && At(t, q) == At(t.children[i], q[1..])
    ensures (forall q :: q in ps ==> |q| >= 1) ==> forall q :: q in Prefixed(i, ps) ==> |q| >= 2
  {
    PrefixedInto(t, i, ps);
    SortedPrefixed(i, ps);
  }

  /** Child `i` itself goes before everything below it. */
  lemma WithSelf(t: Task, i: nat, below: seq<Path>)
    requires i < |t.children| && Sorted(below)
    requires forall q :: q in below ==> |q| >= 2 && q[0] == i && ValidPath(t, q)
    ensures Sorted([[i]] + below)
    ensures forall q :: q in [[i]] + below ==> |q| >= 1 && q[0] == i && ValidPath(t, q)
  {
    ChildStep(t, [], i);
    forall b | 0 <= b < |below| ensures LexLess([i], below[b]) {
      assert below[b] in below;
      assert below[b] == [i] + below[b][1..];
      LexLessCons(i, [], i, below[b][1..]);
    }
    SortedConcat([[i]], below);
  }

  /** Paths through child `i` go before paths through later children. */
  lemma SortedByHead(i: nat, here: seq<Path>, rest: seq<Path>)
    requires Sorted(here) && Sorted(rest)
    requires forall q :: q in here ==> |q| >= 1 && q[0] == i
    requires forall q :: q in rest ==> |q| >= 1 && i < q[0]
    ensures Sorted(here + rest)
  {
    forall a, b | 0 <= a < |here| && 0 <= b < |rest| ensures LexLess(here[a], rest[b]) {
      assert here[a] in here;
      assert rest[b] in rest;
      assert rest[b] == [rest[b][0]] + rest[b][1..];
      assert here[a] == [i] + here[a][1..];
      LexLessCons(i, here[a][1..], rest[b][0], rest[b][1..]);
    }
    SortedConcat(here, rest);
  }

  lemma PrefixedInto(t: Task, i: nat, ps: seq<Path>)
    requires i < |t.children|
    requires forall q :: q in ps ==> ValidPath(t.children[i], q)
    ensures forall q :: q in Prefixed(i, ps) ==>
              |q| >= 1 && q[0] == i && ValidPath(t, q) && At(t, q) == At(t.children[i], q[1..])
  {
    forall q | q in Prefixed(i, ps)
      ensures |q| >= 1 && q[0] == i && ValidPath(t, q) && At(t, q) == At(t.children[i], q[1..])
    {
      var k :| 0 <= k < |ps| && Prefixed(i, ps)[k] == q;
      assert q[1..] == ps[k];
    }
  }

  // ---------------------------------------------------------------------------
  // flatten_general_tasks (task.php:172-182)
  // ---------------------------------------------------------------------------

  /**
   * The leaves under `t`, relative to `t`: `[self]` for a leaf, otherwise the flattenings
   * of the children concatenated in order. Every element is a leaf, and the list is in
   * document order (hence without repetition).
   */
  function LeafPaths(t: Task): (r: seq<Path>)
    ensures |r| >= 1
    ensures forall q :: q in r ==> ValidPath(t, q) && !At(t, q).Composite()
    ensures Sorted(r)
    decreases t, |t.children| + 1
  {
    // `$this.composite ? $this.childs : [$this]` at task.php:174-175 means $this->composite() and $this->childs()
    if |t.children| == 0 then [[]] else LeavesFrom(t, 0)
  }

  function LeavesFrom(t: Task, i: nat): (r: seq<Path>)
    requires i <= |t.children|
    ensures |t.children| > i ==> |r| >= 1
    ensures forall q :: q in r ==>
              |q| >= 1 && i <= q[0] < |t.children| && ValidPath(t, q) && !At(t, q).Composite()
    ensures Sorted(r)
    decreases t, |t.children| - i
  {
    if i == |t.children| then []
    else
      var here := Prefixed(i, LeafPaths(t.children[i]));
      var rest := LeavesFrom(t, i + 1);
      PrefixedBelow(t, i, LeafPaths(t.children[i]));
      SortedByHead(i, here, rest);
      here + rest
  }

  lemma {:induction false} LeavesFromComplete(t: Task, i: nat, j: nat, q: Path)
    requires i <= j < |t.children|
    requires q in LeafPaths(t.children[j])
    ensures [j] + q in LeavesFrom(t, i)
    decreases |t.children| - i
  {
    var here := Prefixed(i, LeafPaths(t.children[i]));
    var rest := LeavesFrom(t, i + 1);
    assert LeavesFrom(t, i) == here + rest;
    if i == j {
      PrefixedHas(i, LeafPaths(t.children[i]), q);
    } else {
      LeavesFromComplete(t, i + 1, j, q);
    }
    InConcat([j] + q, here, rest);
  }

  function IndexOf<T(==)>(xs: seq<T>, x: T): (k: nat)
    requires x in xs
    ensures k < |xs| && xs[k] == x
  {
    if xs[0] == x then 0 else 1 + IndexOf(xs[1..], x)
  }

  /** Every leaf below `t` appears in its flattening. */
  lemma {:induction false} LeafPathsComplete(t: Task, q: Path)
    requires ValidPath(t, q) && !At(t, q).Composite()
    ensures q in LeafPaths(t)
    decreases |q|
  {
    if |q| > 0 {
      LeafPathsComplete(t.children[q[0]], q[1..]);
      LeavesFromComplete(t, 0, q[0], q[1..]);
      assert q == [q[0]] + q[1..];
    }
  }

  // ---------------------------------------------------------------------------
  // flatten_childs_with_composite (task.php:184-193)
  // ---------------------------------------------------------------------------

  /** All descendants of `t` (composite ones included, `t` excluded) in preorder. */
  function Descendants(t: Task): (r: seq<Path>)
    ensures forall q :: q in r ==> |q| >= 1 && ValidPath(t, q)
    ensures Sorted(r)
    decreases t, |t.children| + 1
  {
    // `$this.childs()` at task.php:186 means $this->childs(); the bare `tasks` returned at task.php:192 means $tasks
    DescendantsFrom(t, 0)
  }

  function DescendantsFrom(t: Task, i: nat): (r: seq<Path>)
    requires i <= |t.children|
    ensures forall q :: q in r ==> |q| >= 1 && i <= q[0] < |t.children| && ValidPath(t, q)
    ensures Sorted(r)
    decreases t, |t.children| - i
  {
    if i == |t.children| then []
    else
      var below := Prefixed(i, Descendants(t.children[i]));
      var rest := DescendantsFrom(t, i + 1);
      PrefixedBelow(t, i, Descendants(t.children[i]));
      WithSelf(t, i, below);
      SortedByHead(i, [[i]] + below, rest);
      [[i]] + below + rest
  }

  lemma {:induction false} DescendantsFromComplete(t: Task, i: nat, q: Path)
    requires |q| >= 1 && i <= q[0] < |t.children| && ValidPath(t, q)
    ensures q in DescendantsFrom(t, i)
    decreases |q|, |t.children| - i
  {
    var here := [[i]] + Prefixed(i, Descendants(t.children[i]));
    var rest := DescendantsFrom(t, i + 1);
    assert DescendantsFrom(t, i) == here + rest;
    if i < q[0] {
      DescendantsFromComplete(t, i + 1, q);
    } else {
      if |q| > 1 {
        DescendantsFromComplete(t.children[i], 0, q[1..]);
      }
      DescendantsHere(i, Descendants(t.children[i]), q);
    }
    InConcat(q, here, rest);
  }

  /** Child `i` and every path below it, prefixed by `i`, are in the part of the list for child `i`. */
  lemma DescendantsHere(i: nat, below: seq<Path>, q: Path)
    requires |q| >= 1 && q[0] == i && (|q| == 1 || q[1..] in below)
    ensures q in [[i]] + Prefixed(i, below)
  {
    InConcat(q, [[i]], Prefixed(i, below));
    if |q| == 1 {
      assert q == [i];
    } else {
      PrefixedHas(i, below, q[1..]);
      assert q == [i] + q[1..];
    }
  }

  lemma PrefixedHas(i: nat, ps: seq<Path>, x: Path)
    requires x in ps
    ensures [i] + x in Prefixed(i, ps)
  {
    assert Prefixed(i, ps)[IndexOf(ps, x)] == [i] + x;
  }

  lemma InConcat<T>(x: T, a: seq<T>, b: seq<T>)
    ensures x in a + b <==> x in a || x in b
  {
  }

  /** Every node strictly below `t` appears among its descendants. */
  lemma DescendantsComplete(t: Task, q: Path)
    requires |q| >= 1 && ValidPath(t, q)
    ensures q in Descendants(t)
  {
    DescendantsFromComplete(t, 0, q);
  }

  // ---------------------------------------------------------------------------
  // find_child_tasks_by_name (task.php:195-203)
  // ---------------------------------------------------------------------------

  /** The order-preserving filter of `ps` by node name. */
  function NamedAmong(t: Task, ps: seq<Path>, name: string): (r: seq<Path>)
    requires forall q :: q in ps ==> ValidPath(t, q)
    ensures forall q :: q in r <==> q in ps && At(t, q).Is(name)
    ensures Sorted(ps) ==> Sorted(r)
  {
    if |ps| == 0 then []
    else
      var rest := NamedAmong(t, ps[1..], name);
      assert forall q :: q in ps <==> q == ps[0] || q in ps[1..];
      if At(t, ps[0]).Is(name) then
        assert Sorted(ps) ==> Sorted([ps[0]] + rest) by {
          if Sorted(ps) {
            forall b | 0 <= b < |rest| ensures LexLess(ps[0], rest[b]) {
              assert rest[b] in rest;
              var k := IndexOf(ps[1..], rest[b]);
              assert ps[k + 1] == rest[b];
            }
            SortedConcat([ps[0]], rest);
          }
        }
        [ps[0]] + rest
      else rest
  }

  /** The leaves below `t` with exactly the given name, in document order. */
  function FindChildTasksByName(t: Task, name: string): (r: seq<Path>)
    ensures forall q :: q in r <==> ValidPath(t, q) && !At(t, q).Composite() && At(t, q).Is(name)
    ensures Sorted(r)
  {
    assert forall q :: ValidPath(t, q) && !At(t, q).Composite() ==> q in LeafPaths(t) by {
      forall q | ValidPath(t, q) && !At(t, q).Composite() {
        LeafPathsComplete(t, q);
      }
    }
    // the bare `tasks` returned at task.php:202 means $tasks
    NamedAmong(t, LeafPaths(t), name)
  }


  // ---------------------------------------------------------------------------
  // find_child_task_by_abbrevation (task.php:205-217)
  // ---------------------------------------------------------------------------

  /** `$abbrevation[0]`: the first letter, empty for the empty string. */
  function Letter(abbreviation: string): string {
    Head(abbreviation)
  }

  /** `array_slice($abbrevation, 1)`, meaning `substr($abbrevation, 1)` (task.php:207). */
  function Rest(abbreviation: string): (r: string)
    ensures |abbreviation| >= 1 ==> r == abbreviation[1..]
    ensures |abbreviation| == 0 ==> r == ""
  {
    if |abbreviation| == 0 then "" else abbreviation[1..]
  }

  /** Index of the first child whose name starts with `letter`. */
  function FirstStartingWith(cs: seq<Task>, letter: string): (r: Option<nat>)
    ensures r.Some? ==> r.value < |cs| && Head(cs[r.value].name) == letter
    ensures r.Some? ==> forall j :: 0 <= j < r.value ==> Head(cs[j].name) != letter
    ensures r.None? ==> forall j :: 0 <= j < |cs| ==> Head(cs[j].name) != letter
  {
    if |cs| == 0 then None
    else if Head(cs[0].name) == letter then Some(0)
    else match FirstStartingWith(cs[1..], letter)
      case None => None
      case Some(j) => Some(j + 1)
  }

  /** The abbreviation from its `k`-th letter on. */
  function Suffix(s: string, k: nat): string {
    if k <= |s| then s[k..] else ""
  }

  /** A total form of "the prefix of length `k` is a valid path", so `Spells` is well formed. */
  predicate PrefixValidFact(t: Task, q: Path, k: nat) {
    k <= |q| && ValidPath(t, q[..k])
  }

  /** The step at depth `k` takes the first child starting with the `k`-th letter. */
  ghost predicate StepMatches(t: Task, q: Path, abbreviation: string, k: nat) {
    && k < |q|
    && PrefixValidFact(t, q, k)
    && FirstStartingWith(At(t, q[..k]).children, Letter(Suffix(abbreviation, k))) == Some(q[k])
  }

  /**
   * `q` is the walk spelled by `abbreviation`: at each depth the step goes to the first
   * child whose name starts with the next letter, the walk goes on while the rest of the
   * abbreviation is truthy, and stops as soon as it is not.
   */
  ghost predicate Spells(t: Task, q: Path, abbreviation: string) {
    && |q| >= 1
    && ValidPath(t, q)
    && (forall k :: 0 <= k < |q| ==> StepMatches(t, q, abbreviation, k))
    && (forall k :: 0 <= k < |q| - 1 ==> Truthy(Rest(Suffix(abbreviation, k))))
    && !Truthy(Rest(Suffix(abbreviation, |q| - 1)))
  }

  /**
   * One letter per tree level: the result, when there is one, is exactly the walk the
   * abbreviation spells (see `AbbreviationComplete` for the converse).
   */
  function FindChildTaskByAbbreviation(t: Task, abbreviation: string): (r: Option<Path>)
    ensures r.Some? ==> Spells(t, r.value, abbreviation)
    decreases |abbreviation|
  {
    match FirstStartingWith(t.children, Letter(abbreviation))
    case None => None
    case Some(j) =>
      // `if ($abbrev)`: the walk goes on only while the rest is truthy
      if Truthy(Rest(abbreviation)) then
        match FindChildTaskByAbbreviation(t.children[j], Rest(abbreviation))
        case None => None
        case Some(q) =>
          SpellsConsBackward(t, j, q, abbreviation);
          Some([j] + q)
      else
        SpellsOne(t, j, abbreviation);
        Some([j])
  }

  /** How the positions of `[j] + q` relate to those of `q` below child `j`. */
  lemma StepFacts(t: Task, j: nat, q: Path, abbreviation: string, k: nat)
    requires j < |t.children| && k <= |q|
    ensures ([j] + q)[..k + 1] == [j] + q[..k]
    ensures ValidPath(t, ([j] + q)[..k + 1]) <==> ValidPath(t.children[j], q[..k])
    ensures ValidPath(t.children[j], q[..k]) ==> At(t, ([j] + q)[..k + 1]) == At(t.children[j], q[..k])
    ensures Suffix(abbreviation, k + 1) == Suffix(Rest(abbreviation), k)
  {
    assert ([j] + q)[..k + 1] == [j] + q[..k];
    ChildStep(t, [], j);
    AtConcat(t, [j], q[..k]);
  }

  lemma SpellsOne(t: Task, j: nat, abbreviation: string)
    requires FirstStartingWith(t.children, Letter(abbreviation)) == Some(j)
    requires !Truthy(Rest(abbreviation))
    ensures Spells(t, [j], abbreviation)
  {
    ChildStep(t, [], j);
    assert [j][..0] == [];
    assert Suffix(abbreviation, 0) == abbreviation;
    assert StepMatches(t, [j], abbreviation, 0);
  }

  lemma SpellsConsBackward(t: Task, j: nat, q: Path, abbreviation: string)
    requires j < |t.children|
    requires FirstStartingWith(t.children, Letter(abbreviation)) == Some(j)
    requires Truthy(Rest(abbreviation)) && Spells(t.children[j], q, Rest(abbreviation))
    ensures Spells(t, [j] + q, abbreviation)
  {
    var p := [j] + q;
    var c := t.children[j];
    ChildStep(t, [], j);
    AtConcat(t, [j], q);
    assert p[..0] == [] && Suffix(abbreviation, 0) == abbreviation;
    forall k | 0 <= k < |p| ensures StepMatches(t, p, abbreviation, k) {
      if k > 0 {
        StepFacts(t, j, q, abbreviation, k - 1);
        assert StepMatches(c, q, Rest(abbreviation), k - 1);
      }
    }
    forall k | 0 <= k < |p| - 1 ensures Truthy(Rest(Suffix(abbreviation, k))) {
      if k > 0 {
        StepFacts(t, j, q, abbreviation, k - 1);
      }
    }
    StepFacts(t, j, q, abbreviation, |q| - 1);
  }

  lemma SpellsConsForward(t: Task, j: nat, q: Path, abbreviation: string)
    requires j < |t.children|
    requires Spells(t, [j] + q, abbreviation)
    ensures FirstStartingWith(t.children, Letter(abbreviation)) == Some(j)
    ensures |q| == 0 ==> !Truthy(Rest(abbreviation))
    ensures |q| > 0 ==> Truthy(Rest(abbreviation)) && Spells(t.children[j], q, Rest(abbreviation))
  {
    var p := [j] + q;
    var c := t.children[j];
    assert p[..0] == [] && Suffix(abbreviation, 0) == abbreviation;
    assert StepMatches(t, p, abbreviation, 0);
    if |q| > 0 {
      assert Truthy(Rest(Suffix(abbreviation, 0)));
      ChildStep(t, [], j);
      AtConcat(t, [j], q);
      forall k | 0 <= k < |q| ensures StepMatches(c, q, Rest(abbreviation), k) {
        StepFacts(t, j, q, abbreviation, k);
        assert StepMatches(t, p, abbreviation, k + 1);
      }
      forall k | 0 <= k < |q| - 1 ensures Truthy(Rest(Suffix(Rest(abbreviation), k))) {
        StepFacts(t, j, q, abbreviation, k);
        assert Truthy(Rest(Suffix(abbreviation, k + 1)));
      }
      StepFacts(t, j, q, abbreviation, |q| - 1);
    }
  }

  /** The abbreviation lookup finds every spelled walk, so `None` means no walk is spelled. */
  lemma {:induction false} AbbreviationComplete(t: Task, q: Path, abbreviation: string)
    requires Spells(t, q, abbreviation)
    ensures FindChildTaskByAbbreviation(t, abbreviation) == Some(q)
    decreases |q|
  {
    var j := q[0];
    assert q == [j] + q[1..];
    assert StepMatches(t, q, abbreviation, 0);
    SpellsConsForward(t, j, q[1..], abbreviation);
    if |q| > 1 {
      AbbreviationComplete(t.children[j], q[1..], Rest(abbreviation));
      assert FindChildTaskByAbbreviation(t.children[j], Rest(abbreviation)) == Some(q[1..]);
    } else {
      assert q == [j];
    }
  }

  // ---------------------------------------------------------------------------
  // flatten_setup_tasks (task.php:158-170)
  // ---------------------------------------------------------------------------

  /** The `variable` children of `t` with index below `j`, as one-step paths, in order. */
  function VariablesBefore(t: Task, j: nat): (r: seq<Path>)
    requires j <= |t.children|
    ensures forall q :: q in r <==> |q| == 1 && q[0] < j && t.children[q[0]].kind == Variable
    ensures Sorted(r)
  {
    if j == 0 then []
    else
      var earlier := VariablesBefore(t, j - 1);
      if t.children[j - 1].kind == Variable then
        SingletonSnoc(earlier, j - 1);
        earlier + [[j - 1]]
      else earlier
  }

  /** Appending the one-step path `[k]` to sorted one-step paths below `k` keeps them sorted. */
  lemma SingletonSnoc(earlier: seq<Path>, k: nat)
    requires Sorted(earlier)
    requires forall q :: q in earlier ==> |q| == 1 && q[0] < k
    ensures Sorted(earlier + [[k]])
    ensures forall q :: q in earlier + [[k]] <==> q in earlier || (|q| == 1 && q[0] == k)
  {
    forall a | 0 <= a < |earlier| ensures LexLess(earlier[a], [k]) {
      assert earlier[a] in earlier;
      LexLessCons(earlier[a][0], [], k, []);
      assert earlier[a] == [earlier[a][0]] + [];
    }
    SortedConcat(earlier, [[k]]);
    forall q | |q| == 1 && q[0] == k ensures q in earlier + [[k]] {
      assert q == [k];
    }
  }

  /**
   * `q` names a setup task of the node at `p`: a `variable` child of the ancestor at
   * depth `|q| - 1` that comes before the child leading to `p`.
   */
  ghost predicate IsSetupPath(t: Task, p: Path, q: Path) {
    && 1 <= |q| <= |p|
    && q[..|q| - 1] == p[..|q| - 1]
    && q[|q| - 1] < p[|q| - 1]
    && ValidPath(t, q)
    && At(t, q).kind == Variable
  }

  /**
   * The setup tasks of the node at `p`: level by level from the root, the `variable`
   * children of each ancestor that come before the child on the way to `p` (the loop
   * breaks at the child that is `p` or one of its ancestors).
   */
  function SetupPaths(t: Task, p: Path): (r: seq<Path>)
    requires ValidPath(t, p)
    ensures forall q :: q in r ==> IsSetupPath(t, p, q)
    ensures Sorted(r)
    ensures forall a, b :: 0 <= a < b < |r| ==> |r[a]| <= |r[b]|
    decreases |p|, 1
  {
    // `$parent->childs` at task.php:161 reads an undefined property (null, collecting nothing);
    // $parent->childs() is meant. The bare `tasks` returned at task.php:169 means $tasks.
    if |p| == 0 then []
    else
      var here := VariablesBefore(t, p[0]);
      var deeper := Prefixed(p[0], SetupPaths(t.children[p[0]], p[1..]));
      SetupHere(t, p);
      SetupDeeper(t, p);
      SetupOrder(t, p);
      here + deeper
  }

  lemma SetupStep(t: Task, p: Path, q: Path)
    requires ValidPath(t, p) && |p| >= 1
    requires IsSetupPath(t.children[p[0]], p[1..], q)
    ensures IsSetupPath(t, p, [p[0]] + q)
  {
    var q2 := [p[0]] + q;
    assert q2[..|q2| - 1] == [p[0]] + q[..|q| - 1];
    assert p[..|q2| - 1] == [p[0]] + p[1..][..|q| - 1];
    AtConcat(t, [p[0]], q);
    ChildStep(t, [], p[0]);
  }

  lemma SetupDeeper(t: Task, p: Path)
    requires ValidPath(t, p) && |p| >= 1
    ensures forall q :: q in Prefixed(p[0], SetupPaths(t.children[p[0]], p[1..])) ==> IsSetupPath(t, p, q) && |q| >= 2
    decreases |p|, 0
  {
    var below := SetupPaths(t.children[p[0]], p[1..]);
    var deeper := Prefixed(p[0], below);
    forall q | q in deeper ensures IsSetupPath(t, p, q) && |q| >= 2 {
      var k := IndexOf(deeper, q);
      assert below[k] in below;
      SetupStep(t, p, below[k]);
    }
  }

  lemma SetupHere(t: Task, p: Path)
    requires ValidPath(t, p) && |p| >= 1
    ensures forall q :: q in VariablesBefore(t, p[0]) ==> IsSetupPath(t, p, q)
  {
    forall q | q in VariablesBefore(t, p[0]) ensures IsSetupPath(t, p, q) {
      ChildStep(t, [], q[0]);
      assert q == [] + [q[0]];
    }
  }

  lemma SetupOrder(t: Task, p: Path)
    requires ValidPath(t, p) && |p| >= 1
    ensures var here := VariablesBefore(t, p[0]);
            var all := here + Prefixed(p[0], SetupPaths(t.children[p[0]], p[1..]));
            && Sorted(all)
            && forall a, b :: 0 <= a < b < |all| ==> |all[a]| <= |all[b]|
    decreases |p|, 0
  {
    var below := SetupPaths(t.children[p[0]], p[1..]);
    var here := VariablesBefore(t, p[0]);
    var deeper := Prefixed(p[0], below);
    SortedPrefixed(p[0], below);
    HereBeforeDeeper(here, p[0], below);
    SortedConcat(here, deeper);
    SetupLengths(here, p[0], below);
  }

  lemma HereBeforeDeeper(here: seq<Path>, i: nat, below: seq<Path>)
    requires forall q :: q in here ==> |q| == 1 && q[0] < i
    ensures forall a, b :: 0 <= a < |here| && 0 <= b < |Prefixed(i, below)| ==> LexLess(here[a], Prefixed(i, below)[b])
  {
    forall a, b | 0 <= a < |here| && 0 <= b < |below| ensures LexLess(here[a], Prefixed(i, below)[b]) {
      assert here[a] in here;
      assert here[a] == [here[a][0]] + [];
      LexLessCons(here[a][0], [], i, below[b]);
    }
  }

  lemma SetupLengths(here: seq<Path>, i: nat, below: seq<Path>)
    requires forall q :: q in here ==> |q| == 1
    requires forall a, b :: 0 <= a < b < |below| ==> |below[a]| <= |below[b]|
    ensures var all := here + Prefixed(i, below);
            forall a, b :: 0 <= a < b < |all| ==> |all[a]| <= |all[b]|
  {
    var all := here + Prefixed(i, below);
    forall a, b | 0 <= a < b < |all| ensures |all[a]| <= |all[b]| {
      if a < |here| {
        assert all[a] in here;
        if b < |here| {
          assert all[b] in here;
        } else {
          assert all[b] == [i] + below[b - |here|];
        }
      } else {
        assert all[a] == [i] + below[a - |here|];
        assert all[b] == [i] + below[b - |here|];
      }
    }
  }

  /** Every setup task of the node at `p` is collected. */
  lemma {:induction false} SetupPathsComplete(t: Task, p: Path, q: Path)
    requires ValidPath(t, p)
    requires IsSetupPath(t, p, q)
    ensures q in SetupPaths(t, p)
    decreases |p|
  {
    ChildStep(t, [], p[0]);
    if |q| == 1 {
      assert q == [] + [q[0]];
      ChildStep(t, [], q[0]);
    } else {
      var c := t.children[p[0]];
      var q' := q[1..];
      assert q[0] == p[0] by {
        assert q[..|q| - 1][0] == p[..|q| - 1][0];
      }
      assert q == [p[0]] + q';
      assert q'[..|q'| - 1] == q[..|q| - 1][1..];
      assert p[1..][..|q'| - 1] == p[..|q| - 1][1..];
      AtConcat(t, [p[0]], q');
      assert IsSetupPath(c, p[1..], q');
      SetupPathsComplete(c, p[1..], q');
      var deeper := Prefixed(p[0], SetupPaths(c, p[1..]));
      assert deeper[IndexOf(SetupPaths(c, p[1..]), q')] == q;
    }
  }
}

=== FILE: plan.dfy ===
/**
 * An execution plan (src/plan.php): the ordered commands a resolved task runs and the
 * mode of the task they came from. `Explain` renders it as text; `Execute` is the
 * pure skeleton of running it, over the process oracle of module Executors.
 */
module Plans {
  import opened Common
  import opened Strings
  import opened Tasks
  import opened Commands
  import opened Executors

  datatype Plan = Plan(commands: seq<Command>, mode: TaskType)

  /** The mode as the source spells it. */
  function ModeName(k: TaskType): string {
    match k
    case Directive => "directive"
    case Variable => "variable"
    case Sequence => "sequence"
    case Parallel => "parallel"
    case Multiplex => "multiplex"
  }

  /** Modes whose explanation puts a header before the first unbound command. */
  predicate Headed(k: TaskType) {
    k == Sequence || k == Parallel || k == Multiplex
  }

  function Header(k: TaskType): string {
    "[" + Upper(ModeName(k)) + "]"
  }

  /** A bound command shows its assignment `NAME='code'`, any other just its code. */
  function Render(c: Command): string {
    if c.Bound() then c.variable.value + "='" + c.code + "'" else c.code
  }

  /** One explanation line: no indent before the header, four spaces after it, then a space. */
  function Line(c: Command, indented: bool): string {
    (if indented then "    " else "") + " " + Render(c)
  }

  /** The position of the first unbound command among the first `n`, if there is one. */
  function FirstUnbound(cs: seq<Command>, n: nat): (r: Option<nat>)
    requires n <= |cs|
    ensures r.None? <==> forall i :: 0 <= i < n ==> cs[i].Bound()
    ensures r.Some? ==> r.value < n && !cs[r.value].Bound()
    ensures r.Some? ==> forall i :: 0 <= i < r.value ==> cs[i].Bound()
  {
    if n == 0 then None
    else match FirstUnbound(cs, n - 1)
      case Some(h) => Some(h)
      case None => if !cs[n - 1].Bound() then Some(n - 1) else None
  }

  /** The lines of commands `lo` to `hi`, all with the same indentation. */
  function Lines(cs: seq<Command>, lo: nat, hi: nat, indented: bool): (r: seq<string>)
    requires lo <= hi <= |cs|
    ensures |r| == hi - lo
    decreases hi - lo
  {
    if lo == hi then [] else Lines(cs, lo, hi - 1, indented) + [Line(cs[hi - 1], indented)]
  }

  /** The `k`-th of those lines renders command `lo + k`. */
  lemma {:induction false} LinesAt(cs: seq<Command>, lo: nat, hi: nat, indented: bool)
    requires lo <= hi <= |cs|
    ensures forall k :: 0 <= k < hi - lo ==> Lines(cs, lo, hi, indented)[k] == Line(cs[lo + k], indented)
    decreases hi - lo
  {
    if lo < hi {
      LinesAt(cs, lo, hi - 1, indented);
    }
  }

  /** How a mode is explained: whether it is headed, and its header line. */
  datatype Style = Style(headed: bool, header: string)

  function StyleOf(k: TaskType): (st: Style)
    ensures st.headed <==> Headed(k)
    ensures st.header == Header(k)
  {
    Style(Headed(k), Header(k))
  }

  /**
   * Reference rendering of the first `n` commands: each in order, with the header
   * inserted right before the first unbound command when the mode is headed, and the
   * lines from there on indented.
   */
  function ExpectedLines(cs: seq<Command>, n: nat, st: Style): seq<string>
    requires n <= |cs|
  {
    var h := if st.headed then FirstUnbound(cs, n) else None;
    if h.None? then Lines(cs, 0, n, false)
    else Lines(cs, 0, h.value, false) + [st.header] + Lines(cs, h.value, n, true)
  }

  function Explanation(plan: Plan): seq<string> {
    ExpectedLines(plan.commands, |plan.commands|, StyleOf(plan.mode))
  }

  /** The `plain` flag after the `explain()` loop has seen command `c`: cleared by an unbound command of a headed mode. */
  function TurnPlain(c: Command, st: Style, plain: bool): bool {
    plain && !(st.headed && !c.Bound())
  }

  /** The lines one turn of the loop pushes: the header when `plain` is just cleared, then the command's line. */
  function Pushed(c: Command, st: Style, plain: bool): seq<string> {
    var plain' := TurnPlain(c, st, plain);
    if plain && !plain' then [st.header, Line(c, true)] else [Line(c, !plain')]
  }

  /** `a + [x] + [y]` is `a + [x, y]`. */
  lemma PushTwo<T>(a: seq<T>, x: T, y: T)
    ensures a + [x] + [y] == a + [x, y]
  {
  }

  /** Rendering one more command appends what one turn of the loop pushes. */
  lemma ExpectedLinesSnoc(cs: seq<Command>, i: nat, st: Style)
    requires i < |cs|
    ensures var plain := !(st.headed && FirstUnbound(cs, i).Some?);
            (TurnPlain(cs[i], st, plain) <==> !(st.headed && FirstUnbound(cs, i + 1).Some?))
            && ExpectedLines(cs, i + 1, st) == ExpectedLines(cs, i, st) + Pushed(cs[i], st, plain)
  {
    if st.headed && FirstUnbound(cs, i).Some? {
      SnocAfterHeader(cs, i, st);
    } else if st.headed && !cs[i].Bound() {
      SnocAtHeader(cs, i, st);
    } else {
      SnocPlain(cs, i, st);
    }
  }

  lemma SnocAfterHeader(cs: seq<Command>, i: nat, st: Style)
    requires i < |cs| && st.headed && FirstUnbound(cs, i).Some?
    ensures FirstUnbound(cs, i + 1) == FirstUnbound(cs, i)
    ensures ExpectedLines(cs, i + 1, st) == ExpectedLines(cs, i, st) + [Line(cs[i], true)]
  {
    var h := FirstUnbound(cs, i).value;
    var a := Lines(cs, 0, h, false) + [st.header];
    var b := Lines(cs, h, i, true);
    assert Lines(cs, h, i + 1, true) == b + [Line(cs[i], true)];
    assert a + (b + [Line(cs[i], true)]) == (a + b) + [Line(cs[i], true)];
  }

  lemma SnocAtHeader(cs: seq<Command>, i: nat, st: Style)
    requires i < |cs| && st.headed && FirstUnbound(cs, i).None? && !cs[i].Bound()
    ensures FirstUnbound(cs, i + 1) == Some(i)
    ensures ExpectedLines(cs, i + 1, st) == ExpectedLines(cs, i, st) + [st.header, Line(cs[i], true)]
  {
    assert Lines(cs, i, i + 1, true) == [Line(cs[i], true)];
    PushTwo(Lines(cs, 0, i, false), st.header, Line(cs[i], true));
  }

  lemma SnocPlain(cs: seq<Command>, i: nat, st: Style)
    requires i < |cs| && !(st.headed && (FirstUnbound(cs, i).Some? || !cs[i].Bound()))
    ensures st.headed ==> FirstUnbound(cs, i + 1).None?
    ensures ExpectedLines(cs, i + 1, st) == ExpectedLines(cs, i, st) + [Line(cs[i], false)]
  {
  }

  /** The `plain` flag of the `explain()` loop after `n` commands. */
  function LoopPlain(cs: seq<Command>, n: nat, st: Style): bool
    requires n <= |cs|
  {
    if n == 0 then true else TurnPlain(cs[n - 1], st, LoopPlain(cs, n - 1, st))
  }

  /** The lines the `explain()` loop has pushed after `n` commands. */
  function LoopLines(cs: seq<Command>, n: nat, st: Style): seq<string>
    requires n <= |cs|
  {
    if n == 0 then [] else LoopLines(cs, n - 1, st) + Pushed(cs[n - 1], st, LoopPlain(cs, n - 1, st))
  }

  /** The loop's flag is set exactly while no unbound command of a headed mode has been seen. */
  lemma {:induction false} LoopPlainExpected(cs: seq<Command>, n: nat, st: Style)
    requires n <= |cs|
    ensures LoopPlain(cs, n, st) <==> !(st.headed && FirstUnbound(cs, n).Some?)
  {
    if n > 0 {
      LoopPlainExpected(cs, n - 1, st);
    }
  }

  /** The loop's lines agree with the reference rendering after every command. */
  lemma {:induction false} LoopRendersExpected(cs: seq<Command>, n: nat, st: Style)
    requires n <= |cs|
    ensures LoopLines(cs, n, st) == ExpectedLines(cs, n, st)
  {
    if n > 0 {
      var c := cs[n - 1];
      calc {
        LoopLines(cs, n, st);
        LoopLines(cs, n - 1, st) + Pushed(c, st, LoopPlain(cs, n - 1, st));
        { LoopRendersExpected(cs, n - 1, st); LoopPlainExpected(cs, n - 1, st); }
        ExpectedLines(cs, n - 1, st) + Pushed(c, st, !(st.headed && FirstUnbound(cs, n - 1).Some?));
        { ExpectedLinesSnoc(cs, n - 1, st); }
        ExpectedLines(cs, n, st);
      }
    }
  }

  /**
   * `explain()` (plan.php:15-36): the loop over the commands, keeping the `plain` flag,
   * renders exactly the reference lines, joined by newlines.
   */
  method Explain(plan: Plan) returns (text: string)
    ensures text == Join("\n", Explanation(plan))
  {
    var cs := plan.commands;
    ghost var st := StyleOf(plan.mode);
    var lines: seq<string> := [];
    var plain := true;
    var i := 0;
    while i < |cs|
      invariant 0 <= i <= |cs|
      invariant plain == LoopPlain(cs, i, st)
      invariant lines == LoopLines(cs, i, st)
    {
      ghost var before := lines;
      if Headed(plan.mode) && !cs[i].Bound() {
        // `$lines.push(...)` (plan.php:24) is array_push
        if plain {
          lines := lines + [Header(plan.mode)];
        }
        plain := false;
      }
      lines := lines + [Line(cs[i], !plain)];
      PushTwo(before, st.header, Line(cs[i], true));
      i := i + 1;
    }
    LoopRendersExpected(cs, |cs|, st);
    text := Join("\n", lines);
  }

  /**
   * The shape of an explanation: one line per command plus a header exactly when the
   * mode is headed and some command is unbound; the header names the mode in upper case
   * and sits right before the first unbound command, whose line is indented; directive
   * plans have no header and no indentation.
   */
  lemma ExplainShape(plan: Plan)
    ensures var cs := plan.commands;
            var headed := Headed(plan.mode) && FirstUnbound(cs, |cs|).Some?;
            |Explanation(plan)| == |cs| + (if headed then 1 else 0)
    ensures var cs := plan.commands;
            Headed(plan.mode) && FirstUnbound(cs, |cs|).Some? ==>
              var h := FirstUnbound(cs, |cs|).value;
              Explanation(plan)[h] == Header(plan.mode) && Explanation(plan)[h + 1] == "     " + Render(cs[h])
    ensures var cs := plan.commands;
            plan.mode == Directive ==>
              |Explanation(plan)| == |cs| && forall k :: 0 <= k < |cs| ==> Explanation(plan)[k] == " " + Render(cs[k])
  {
    var cs := plan.commands;
    var st := StyleOf(plan.mode);
    if st.headed && FirstUnbound(cs, |cs|).Some? {
      ExplainHeader(cs, FirstUnbound(cs, |cs|).value, st);
    } else if !st.headed {
      ExplainPlain(cs, st);
    }
  }

  /** With a header at `h`, the header line and the indented line of command `h` follow the plain lines. */
  lemma ExplainHeader(cs: seq<Command>, h: nat, st: Style)
    requires st.headed && FirstUnbound(cs, |cs|) == Some(h)
    ensures ExpectedLines(cs, |cs|, st)[h] == st.header
    ensures ExpectedLines(cs, |cs|, st)[h + 1] == "     " + Render(cs[h])
  {
    var head := Lines(cs, 0, h, false);
    var tail := Lines(cs, h, |cs|, true);
    assert ExpectedLines(cs, |cs|, st) == head + [st.header] + tail;
    AroundMiddle(head, st.header, tail);
    assert tail[0] == Line(cs[h], true) by {
      LinesAt(cs, h, |cs|, true);
    }
    IndentedLine(cs[h]);
  }

  lemma AroundMiddle<T>(a: seq<T>, x: T, b: seq<T>)
    requires |b| > 0
    ensures (a + [x] + b)[|a|] == x && (a + [x] + b)[|a| + 1] == b[0]
  {
  }

  lemma IndentedLine(c: Command)
    ensures Line(c, true) == "     " + Render(c)
  {
    assert "    " + " " == "     ";
  }

  /** Without a header every line is a plain line. */
  lemma ExplainPlain(cs: seq<Command>, st: Style)
    requires !st.headed
    ensures forall k :: 0 <= k < |cs| ==> ExpectedLines(cs, |cs|, st)[k] == " " + Render(cs[k])
  {
    assert ExpectedLines(cs, |cs|, st) == Lines(cs, 0, |cs|, false);
    LinesAt(cs, 0, |cs|, false);
  }

  /** The bound commands, in order. */
  function BoundOf(cs: seq<Command>): (r: seq<Command>)
    ensures forall c :: c in r <==> c in cs && c.Bound()
  {
    if |cs| == 0 then [] else (if cs[0].Bound() then [cs[0]] else []) + BoundOf(cs[1..])
  }

  /** The unbound commands, in order: what `execute` still has to run after the variables. */
  function UnboundOf(cs: seq<Command>): (r: seq<Command>)
    ensures forall c :: c in r <==> c in cs && !c.Bound()
    ensures |r| + |BoundOf(cs)| == |cs|
  {
    if |cs| == 0 then [] else (if cs[0].Bound() then [] else [cs[0]]) + UnboundOf(cs[1..])
  }

  /** Filtering distributes over concatenation, so the unbound commands keep their relative order. */
  lemma {:induction false} UnboundOfAppend(xs: seq<Command>, ys: seq<Command>)
    ensures UnboundOf(xs + ys) == UnboundOf(xs) + UnboundOf(ys)
    decreases |xs|
  {
    if |xs| > 0 {
      UnboundOfAppend(xs[1..], ys);
      UnboundOfAppendStep(xs, ys);
    } else {
      assert xs + ys == ys;
    }
  }

  lemma UnboundOfAppendStep(xs: seq<Command>, ys: seq<Command>)
    requires |xs| > 0
    requires UnboundOf(xs[1..] + ys) == UnboundOf(xs[1..]) + UnboundOf(ys)
    ensures UnboundOf(xs + ys) == UnboundOf(xs) + UnboundOf(ys)
  {
    var head := if xs[0].Bound() then [] else [xs[0]];
    TailOfAppend(xs, ys);
    UnboundOfCons(xs, head);
    UnboundOfCons(xs + ys, head);
    Associative(head, UnboundOf(xs[1..]), UnboundOf(ys));
  }

  lemma UnboundOfCons(cs: seq<Command>, head: seq<Command>)
    requires |cs| > 0 && head == if cs[0].Bound() then [] else [cs[0]]
    ensures UnboundOf(cs) == head + UnboundOf(cs[1..])
  {
  }

  lemma TailOfAppend<X>(a: seq<X>, b: seq<X>)
    requires |a| > 0
    ensures (a + b)[0] == a[0] && (a + b)[1..] == a[1..] + b
  {
  }

  lemma Associative<X>(a: seq<X>, b: seq<X>, c: seq<X>)
    ensures a + (b + c) == (a + b) + c
  {
  }

  /**
   * One more command extends the pending list by itself exactly when it is unbound. With
   * `UnboundOf([]) == []` this determines the list: the unbound commands in their original order.
   */
  lemma UnboundOfSnoc(cs: seq<Command>, c: Command)
    ensures UnboundOf(cs + [c]) == UnboundOf(cs) + (if c.Bound() then [] else [c])
  {
    UnboundOfAppend(cs, [c]);
    assert UnboundOf([c]) == (if c.Bound() then [] else [c]) + UnboundOf([]);
  }

  /** `$command->variable()` as a string (null reads as the empty string). */
  function VarName(c: Command): string {
    if c.variable.Some? then c.variable.value else ""
  }

  /** `$_ENV[$name]`: an unset name reads as null, which prints as the empty string. */
  function Lookup(env: Env, name: string): string {
    if name in env then env[name] else ""
  }

  datatype Phase = PhaseFailed(code: string) | PrintMode(value: string, env: Env) | PhaseDone(env: Env)

  /**
   * The variable loop of `execute` (plan.php:42-56) from command `i` on. Each bound
   * command is run by `executeSync` with the bindings so far; after every command the
   * remaining list (unbound commands seen so far and everything not yet visited) is
   * checked, and when it is empty the last variable is printed.
   */
  function VariablePhase(cs: seq<Command>, i: nat, env: Env, quiet: bool, run: Oracle): (r: Phase)
    requires i <= |cs|
    ensures r.PhaseFailed? ==> exists k :: i <= k < |cs| && cs[k].Bound() && r.code == cs[k].code
    ensures r.PrintMode? ==> i < |cs| && forall k :: 0 <= k < |cs| ==> cs[k].Bound()
    decreases |cs| - i
  {
    if i == |cs| then PhaseDone(env)
    else
      var c := cs[i];
      // plan.php:51 re-runs every variable collected so far; only the new one is meant
      // `array_diff` at plan.php:49 would compare Command objects as strings; dropping the bound command is meant
      var step := if c.Bound() then RunSync([c], env, quiet, run) else SyncRun([], [], env, false);
      if step.failed then PhaseFailed(c.code)
      else if |UnboundOf(cs[..i + 1]) + cs[i + 1..]| == 0 then
        assert forall k :: 0 <= k < |cs| ==> cs[k].Bound() by {
          assert cs[..i + 1] == cs;
          UnboundEmpty(cs);
        }
        PrintMode(Lookup(step.env, VarName(c)), step.env)
      else VariablePhase(cs, i + 1, step.env, quiet, run)
  }

  lemma UnboundEmpty(cs: seq<Command>)
    ensures |UnboundOf(cs)| == 0 <==> forall j :: 0 <= j < |cs| ==> cs[j].Bound()
  {
    if |UnboundOf(cs)| == 0 {
      forall j | 0 <= j < |cs| ensures cs[j].Bound() {
        assert cs[j] in cs;
      }
    } else {
      var c := UnboundOf(cs)[0];
      assert c in UnboundOf(cs);
    }
  }

  lemma BoundOfSuffix(cs: seq<Command>, i: nat)
    requires i < |cs|
    ensures BoundOf(cs[i..]) == (if cs[i].Bound() then [cs[i]] else []) + BoundOf(cs[i + 1..])
  {
    assert cs[i..][0] == cs[i];
    assert cs[i..][1..] == cs[i + 1..];
  }

  /** When the `i`-th command is reached, the remaining list is empty exactly at the last command of an all-bound plan. */
  lemma PendingEmpty(cs: seq<Command>, i: nat)
    requires i < |cs|
    ensures |UnboundOf(cs[..i + 1]) + cs[i + 1..]| == 0 <==> i + 1 == |cs| && |UnboundOf(cs)| == 0
  {
    if i + 1 == |cs| {
      assert cs[..i + 1] == cs;
    }
  }

  /**
   * Reference for the variable loop from command `i` on: run the bound commands of the
   * rest in order with `executeSync`; fail on the same command that run fails on, print
   * when every command of the plan is bound, and otherwise hand on its environment.
   */
  function PartitionPhase(cs: seq<Command>, i: nat, env: Env, quiet: bool, run: Oracle): Phase
    requires i <= |cs|
  {
    var r := RunSync(BoundOf(cs[i..]), env, quiet, run);
    if r.failed then PhaseFailed(LastLaunched(r))
    else if i < |cs| && |UnboundOf(cs)| == 0 then PrintMode(Lookup(r.env, VarName(cs[|cs| - 1])), r.env)
    else PhaseDone(r.env)
  }

  /** An unbound command is skipped by the loop: the remaining list still holds it. */
  lemma VariableSkipsUnbound(cs: seq<Command>, i: nat, env: Env, quiet: bool, run: Oracle)
    requires i < |cs| && !cs[i].Bound()
    ensures VariablePhase(cs, i, env, quiet, run) == VariablePhase(cs, i + 1, env, quiet, run)
  {
    assert cs[i] in cs;
    PendingEmpty(cs, i);
  }

  /** An unbound command is not among the bound commands the partition runs, and the plan is not all bound. */
  lemma PartitionSkipsUnbound(cs: seq<Command>, i: nat, env: Env, quiet: bool, run: Oracle)
    requires i < |cs| && !cs[i].Bound()
    ensures PartitionPhase(cs, i, env, quiet, run) == PartitionPhase(cs, i + 1, env, quiet, run)
  {
    assert |UnboundOf(cs)| > 0 by {
      assert cs[i] in cs;
      assert cs[i] in UnboundOf(cs);
    }
    assert BoundOf(cs[i..]) == BoundOf(cs[i + 1..]) by {
      BoundOfSuffix(cs, i);
    }
    PartitionSomeUnbound(cs, i, env, quiet, run);
    PartitionSomeUnbound(cs, i + 1, env, quiet, run);
  }

  /** With an unbound command in the plan the partition never prints. */
  lemma PartitionSomeUnbound(cs: seq<Command>, i: nat, env: Env, quiet: bool, run: Oracle)
    requires i <= |cs| && |UnboundOf(cs)| > 0
    ensures var r := RunSync(BoundOf(cs[i..]), env, quiet, run);
            PartitionPhase(cs, i, env, quiet, run) == if r.failed then PhaseFailed(LastLaunched(r)) else PhaseDone(r.env)
  {
  }

  lemma PhaseUnboundStep(cs: seq<Command>, i: nat, env: Env, quiet: bool, run: Oracle)
    requires i < |cs| && !cs[i].Bound()
    requires VariablePhase(cs, i + 1, env, quiet, run) == PartitionPhase(cs, i + 1, env, quiet, run)
    ensures VariablePhase(cs, i, env, quiet, run) == PartitionPhase(cs, i, env, quiet, run)
  {
    VariableSkipsUnbound(cs, i, env, quiet, run);
    PartitionSkipsUnbound(cs, i, env, quiet, run);
  }

  /** A bound command that fails ends the loop exactly where the partition's run fails. */
  lemma PhaseBoundFails(cs: seq<Command>, i: nat, env: Env, quiet: bool, run: Oracle)
    requires i < |cs| && cs[i].Bound() && run(cs[i].code, env).status != 0
    ensures VariablePhase(cs, i, env, quiet, run) == PhaseFailed(cs[i].code)
    ensures PartitionPhase(cs, i, env, quiet, run) == PhaseFailed(cs[i].code)
  {
    var c := cs[i];
    RunSyncUnfold([c], env, quiet, run);
    BoundOfSuffix(cs, i);
    RunSyncUnfold([c] + BoundOf(cs[i + 1..]), env, quiet, run);
  }

  /** A bound command that succeeds extends the environment exactly as the partition's run does. */
  lemma PhaseBoundPasses(cs: seq<Command>, i: nat, env: Env, quiet: bool, run: Oracle)
    requires i < |cs| && cs[i].Bound() && run(cs[i].code, env).status == 0
    ensures RunSync([cs[i]], env, quiet, run) == SyncRun([cs[i].code], [], Bind(env, cs[i], run(cs[i].code, env).output), false)
    ensures var tail := RunSync(BoundOf(cs[i + 1..]), Bind(env, cs[i], run(cs[i].code, env).output), quiet, run);
            var whole := RunSync(BoundOf(cs[i..]), env, quiet, run);
            whole.failed == tail.failed && whole.env == tail.env
    ensures var tail := RunSync(BoundOf(cs[i + 1..]), Bind(env, cs[i], run(cs[i].code, env).output), quiet, run);
            var whole := RunSync(BoundOf(cs[i..]), env, quiet, run);
            tail.failed ==> LastLaunched(whole) == LastLaunched(tail)
  {
    var c := cs[i];
    var rest := BoundOf(cs[i + 1..]);
    RunSyncUnfold([c], env, quiet, run);
    assert [c][1..] == [];
    BoundOfSuffix(cs, i);
    var b := BoundOf(cs[i..]);
    assert b == [c] + rest;
    assert b[1..] == rest;
    RunSyncUnfold(b, env, quiet, run);
    var env1 := Bind(env, c, run(c.code, env).output);
    var tail := RunSync(rest, env1, quiet, run);
    var whole := RunSync(b, env, quiet, run);
    assert whole == SyncRun([c.code] + tail.launched, whole.log, tail.env, tail.failed);
    if tail.failed {
      assert LastLaunched(whole) == LastLaunched(tail);
    }
  }

  /** A bound command that succeeds: the loop either prints at the end of an all-bound plan or moves on with its binding. */
  lemma VariableBoundPasses(cs: seq<Command>, i: nat, env: Env, quiet: bool, run: Oracle)
    requires i < |cs| && cs[i].Bound() && run(cs[i].code, env).status == 0
    ensures var env1 := Bind(env, cs[i], run(cs[i].code, env).output);
            VariablePhase(cs, i, env, quiet, run)
            == if i + 1 == |cs| && |UnboundOf(cs)| == 0 then PrintMode(Lookup(env1, VarName(cs[i])), env1)
               else VariablePhase(cs, i + 1, env1, quiet, run)
  {
    PhaseBoundPasses(cs, i, env, quiet, run);
    PendingEmpty(cs, i);
  }

  /** The partition from a succeeding bound command is the partition of the rest, with its binding. */
  lemma PartitionBoundPasses(cs: seq<Command>, i: nat, env: Env, quiet: bool, run: Oracle)
    requires i < |cs| && cs[i].Bound() && run(cs[i].code, env).status == 0
    ensures var env1 := Bind(env, cs[i], run(cs[i].code, env).output);
            var tail := RunSync(BoundOf(cs[i + 1..]), env1, quiet, run);
            PartitionPhase(cs, i, env, quiet, run)
            == if tail.failed then PhaseFailed(LastLaunched(tail))
               else if |UnboundOf(cs)| == 0 then PrintMode(Lookup(tail.env, VarName(cs[|cs| - 1])), tail.env)
               else PhaseDone(tail.env)
  {
    PhaseBoundPasses(cs, i, env, quiet, run);
  }

  lemma PhaseBoundStep(cs: seq<Command>, i: nat, env: Env, quiet: bool, run: Oracle)
    requires i < |cs| && cs[i].Bound()
    requires var exit := run(cs[i].code, env);
             exit.status == 0 ==>
               var env1 := Bind(env, cs[i], exit.output);
               VariablePhase(cs, i + 1, env1, quiet, run) == PartitionPhase(cs, i + 1, env1, quiet, run)
    ensures VariablePhase(cs, i, env, quiet, run) == PartitionPhase(cs, i, env, quiet, run)
  {
    var exit := run(cs[i].code, env);
    if exit.status != 0 {
      PhaseBoundFails(cs, i, env, quiet, run);
    } else {
      var env1 := Bind(env, cs[i], exit.output);
      VariableBoundPasses(cs, i, env, quiet, run);
      PartitionBoundPasses(cs, i, env, quiet, run);
      if i + 1 == |cs| {
        assert cs[i + 1..] == [];
        assert RunSync(BoundOf(cs[i + 1..]), env1, quiet, run) == SyncRun([], [], env1, false);
      }
    }
  }

  /** The loop of `execute` agrees with the partition it intends, from every position on. */
  lemma {:induction false} PhaseMatchesPartition(cs: seq<Command>, i: nat, env: Env, quiet: bool, run: Oracle)
    requires i <= |cs|
    ensures VariablePhase(cs, i, env, quiet, run) == PartitionPhase(cs, i, env, quiet, run)
    decreases |cs| - i
  {
    if i < |cs| {
      var c := cs[i];
      if c.Bound() {
        var exit := run(c.code, env);
        if exit.status == 0 {
          PhaseMatchesPartition(cs, i + 1, Bind(env, c, exit.output), quiet, run);
        }
        PhaseBoundStep(cs, i, env, quiet, run);
      } else {
        PhaseMatchesPartition(cs, i + 1, env, quiet, run);
        PhaseUnboundStep(cs, i, env, quiet, run);
      }
    } else {
      assert cs[i..] == [];
    }
  }

  /** What `executeAsync` would be asked to do; its body is empty, so this is recorded, not run. */
  datatype Dispatch =
    | Synchronous(sync: SyncRun)
    | Concurrent(commands: seq<Command>, env: Env, multiplex: bool, quiet: bool, faketty: bool)
    | NoDispatch

  datatype Outcome =
    | VariableFailed(code: string)
    | Printed(value: string, env: Env)
    | Dispatched(prepared: seq<string>, env: Env, pending: seq<Command>, dispatch: Dispatch)

  /** The variable names the plan binds, in order. */
  function VarNames(cs: seq<Command>): seq<string> {
    seq(|cs|, i requires 0 <= i < |cs| => VarName(cs[i]))
  }

  /** `[run] Prepared '...'`: every bound variable and RUNARGS with their values. */
  function PreparedMessage(names: seq<string>, env: Env): string {
    "[run] Prepared '" + Join("; ", seq(|names|, i requires 0 <= i < |names| => names[i] + "=" + Lookup(env, names[i]))) + "'"
  }

  /**
   * `execute($argv, $quiet, $faketty)` (plan.php:38-101) from the environment `env`.
   * Once the variable loop has run without printing, RUNARGS is the space-join of argv,
   * the unbound commands keep their original order, and the mode picks the executor.
   * `ExecutePhases` states how the variable loop ends.
   */
  function Execute(plan: Plan, argv: seq<string>, quiet: bool, faketty: bool, env: Env, run: Oracle): (r: Outcome)
    ensures r.Dispatched? ==>
              r.pending == UnboundOf(plan.commands)
              && "RUNARGS" in r.env && r.env["RUNARGS"] == Join(" ", argv)
              && (quiet <==> r.prepared == [])
    ensures r.Dispatched? ==>
              match plan.mode
              case Directive => r.dispatch == Synchronous(RunSync(r.pending, r.env, quiet, run))
              case Sequence => r.dispatch == Synchronous(RunSync(r.pending, r.env, quiet, run))
              case Parallel => r.dispatch == Concurrent(r.pending, r.env, false, quiet, faketty)
              case Multiplex => r.dispatch == Concurrent(r.pending, r.env, true, quiet, faketty)
              case Variable => r.dispatch == NoDispatch
  {
    var cs := plan.commands;
    match VariablePhase(cs, 0, env, quiet, run)
    case PhaseFailed(code) => VariableFailed(code)
    case PrintMode(value, env1) => Printed(value, env1)
    case PhaseDone(env1) =>
      var env2 := env1["RUNARGS" := Join(" ", argv)];
      var pending := UnboundOf(cs);
      // `!quiet` (plan.php:68) is a bare identifier for $quiet
      var prepared := if quiet then [] else [PreparedMessage(VarNames(BoundOf(cs)) + ["RUNARGS"], env2)];
      var dispatch :=
        match plan.mode
        case Directive => Synchronous(RunSync(pending, env2, quiet, run))
        case Sequence => Synchronous(RunSync(pending, env2, quiet, run))
        // plan.php:87 leaves out the multiplex argument
        case Parallel => Concurrent(pending, env2, false, quiet, faketty)
        case Multiplex => Concurrent(pending, env2, true, quiet, faketty)
        case Variable => NoDispatch;
      Dispatched(prepared, env2, pending, dispatch)
  }

  /**
   * How `execute` ends, against running the bound commands in order: it stops with the
   * failure of exactly the variable command that fails; it prints, and stops before
   * RUNARGS and dispatch, exactly when the plan is non-empty and all bound, printing
   * the last command's variable; otherwise it dispatches.
   */
  lemma ExecutePhases(plan: Plan, argv: seq<string>, quiet: bool, faketty: bool, env: Env, run: Oracle)
    ensures var r := Execute(plan, argv, quiet, faketty, env, run);
            var vars := RunSync(BoundOf(plan.commands), env, quiet, run);
            (r.VariableFailed? <==> vars.failed)
            && (r.VariableFailed? ==> r.code == LastLaunched(vars))
    ensures var r := Execute(plan, argv, quiet, faketty, env, run);
            var vars := RunSync(BoundOf(plan.commands), env, quiet, run);
            var cs := plan.commands;
            (r.Printed? <==> !vars.failed && |cs| > 0 && forall j :: 0 <= j < |cs| ==> cs[j].Bound())
            && (r.Printed? ==> r.value == Lookup(r.env, VarName(cs[|cs| - 1])))
  {
    ExecuteByPhase(plan, argv, quiet, faketty, env, run);
    PhaseFromStart(plan.commands, env, quiet, run);
    UnboundEmpty(plan.commands);
  }

  /** Once the variable phase succeeds, the environment handed on holds every binding of the reference fold. */
  lemma ExecuteEnvironment(plan: Plan, argv: seq<string>, quiet: bool, faketty: bool, env: Env, run: Oracle)
    requires Execute(plan, argv, quiet, faketty, env, run).Dispatched?
    ensures var bound := BoundOf(plan.commands);
            Execute(plan, argv, quiet, faketty, env, run).env
            == EnvAfter(bound, env, run, |bound|)["RUNARGS" := Join(" ", argv)]
  {
    ExecuteByPhase(plan, argv, quiet, faketty, env, run);
    PhaseFromStart(plan.commands, env, quiet, run);
    RunSyncEnv(BoundOf(plan.commands), env, quiet, run);
  }

  /** How the outcome of `execute` follows from the way the variable loop ends. */
  lemma ExecuteByPhase(plan: Plan, argv: seq<string>, quiet: bool, faketty: bool, env: Env, run: Oracle)
    ensures var r := Execute(plan, argv, quiet, faketty, env, run);
            var p := VariablePhase(plan.commands, 0, env, quiet, run);
            (r.VariableFailed? <==> p.PhaseFailed?) && (p.PhaseFailed? ==> r.code == p.code)
            && (r.Printed? <==> p.PrintMode?) && (p.PrintMode? ==> r.value == p.value && r.env == p.env)
            && (p.PhaseDone? ==> r.env == p.env["RUNARGS" := Join(" ", argv)])
  {
  }

  /** The variable loop over the whole plan, against running its bound commands in order. */
  lemma PhaseFromStart(cs: seq<Command>, env: Env, quiet: bool, run: Oracle)
    ensures var r := RunSync(BoundOf(cs), env, quiet, run);
            var p := VariablePhase(cs, 0, env, quiet, run);
            (p.PhaseFailed? <==> r.failed) && (p.PhaseFailed? ==> p.code == LastLaunched(r))
            && (p.PrintMode? <==> !r.failed && |cs| > 0 && |UnboundOf(cs)| == 0)
            && (p.PrintMode? ==> p.value == Lookup(r.env, VarName(cs[|cs| - 1])))
            && (!p.PhaseFailed? ==> p.env == r.env)
  {
    PhaseMatchesPartition(cs, 0, env, quiet, run);
    assert cs[0..] == cs;
  }
}

=== FILE: resolver.dfy ===
/**
 * Resolution of a command line against the task tree: `Task::run` up to the creation
 * of the plan, and `Task::complete` (src/task.php:219-352).
 *
 * Tasks are named by paths from the root, as in module Navigator. The filters hold
 * paths relative to the node being run, which is "self" at the empty path; PHP's
 * object comparisons (`===`, `in_array`) become path equality and membership.
 */
module Resolver {
  import opened Common
  import opened Strings
  import opened Tasks
  import opened Navigator
  import opened Commands
  import opened Plans

  /** The argument-forwarding placeholder, a literal in the command code. */
  const PLACEHOLDER := "$RUNARGS"

  /** `array_diff($xs, [$x])`: every occurrence of `x` removed, the rest in order. */
  function Without(xs: seq<string>, x: string): (r: seq<string>)
    ensures forall a :: a in r <==> a in xs && a != x
  {
    if |xs| == 0 then [] else (if xs[0] == x then [] else [xs[0]]) + Without(xs[1..], x)
  }

  // ---------------------------------------------------------------------------
  // Filter extraction (task.php:252-266)
  // ---------------------------------------------------------------------------

  /** Paths, relative to the node being run, that the pick/enable/disable filters select. */
  datatype Filters = Filters(pick: seq<Path>, enable: seq<Path>, disable: seq<Path>)

  /** `arg` carries the one-character `prefix` and, after it, the name of a leaf below `t`. */
  predicate Matches(t: Task, prefix: string, arg: string) {
    Head(arg) == prefix && |FindChildTasksByName(t, Rest(arg))| > 0
  }

  /**
   * One pass of the filter loop for one prefix over the argument copy: every argument
   * with the prefix whose rest names at least one leaf adds those leaves to `found` and
   * is removed, with all its repetitions, from `residual`.
   */
  function Consume(t: Task, args: seq<string>, prefix: string, found: seq<Path>, residual: seq<string>)
    : (r: (seq<Path>, seq<string>))
    decreases |args|
  {
    if |args| == 0 then (found, residual)
    else
      var arg := args[0];
      // `$name` at task.php:258 means $arg; `str_slice($name, 1)` at task.php:259 is the rest of $arg
      if Matches(t, prefix, arg) then
        Consume(t, args[1..], prefix, found + FindChildTasksByName(t, Rest(arg)), Without(residual, arg))
      else Consume(t, args[1..], prefix, found, residual)
  }

  /** The filters and the arguments left over, for the node `t` and its argument list. */
  function ExtractFilters(t: Task, argv: seq<string>): (Filters, seq<string>) {
    var (pick, afterPick) := Consume(t, argv, "=", [], argv);
    var (enable, afterEnable) := Consume(t, argv, "+", [], afterPick);
    var (disable, residual) := Consume(t, argv, "-", [], afterEnable);
    (Filters(pick, enable, disable), residual)
  }

  lemma {:induction false} ConsumeFound(t: Task, args: seq<string>, prefix: string, found: seq<Path>, residual: seq<string>)
    ensures forall q :: q in Consume(t, args, prefix, found, residual).0 <==>
              q in found || exists a :: a in args && Matches(t, prefix, a) && q in FindChildTasksByName(t, Rest(a))
    decreases |args|
  {
    if |args| > 0 {
      var arg := args[0];
      var found' := if Matches(t, prefix, arg) then found + FindChildTasksByName(t, Rest(arg)) else found;
      var residual' := if Matches(t, prefix, arg) then Without(residual, arg) else residual;
      assert Consume(t, args, prefix, found, residual) == Consume(t, args[1..], prefix, found', residual');
      ConsumeFound(t, args[1..], prefix, found', residual');
      assert forall a :: a in args <==> a == arg || a in args[1..];
    }
  }

  /** The elements of `xs` that are not arguments of `args` matching `prefix`, in order. */
  function KeepUnmatched(t: Task, xs: seq<string>, args: seq<string>, prefix: string): seq<string> {
    if |xs| == 0 then []
    else (if xs[0] in args && Matches(t, prefix, xs[0]) then [] else [xs[0]]) + KeepUnmatched(t, xs[1..], args, prefix)
  }

  lemma {:induction false} KeepUnmatchedNone(t: Task, xs: seq<string>, prefix: string)
    ensures KeepUnmatched(t, xs, [], prefix) == xs
  {
    if |xs| > 0 {
      KeepUnmatchedNone(t, xs[1..], prefix);
    }
  }

  lemma {:induction false} KeepUnmatchedAppend(t: Task, xs: seq<string>, ys: seq<string>, args: seq<string>, prefix: string)
    ensures KeepUnmatched(t, xs + ys, args, prefix) == KeepUnmatched(t, xs, args, prefix) + KeepUnmatched(t, ys, args, prefix)
  {
    if |xs| == 0 {
      assert xs + ys == ys;
    } else {
      assert (xs + ys)[0] == xs[0];
      assert (xs + ys)[1..] == xs[1..] + ys;
      KeepUnmatchedAppend(t, xs[1..], ys, args, prefix);
    }
  }

  /** Removing a matching argument now is the same as filtering it out later. */
  lemma {:induction false} KeepUnmatchedWithout(t: Task, xs: seq<string>, args: seq<string>, prefix: string)
    requires |args| > 0 && Matches(t, prefix, args[0])
    ensures KeepUnmatched(t, Without(xs, args[0]), args[1..], prefix) == KeepUnmatched(t, xs, args, prefix)
  {
    if |xs| > 0 {
      var x := xs[0];
      KeepUnmatchedWithout(t, xs[1..], args, prefix);
      var head := if x == args[0] then [] else [x];
      assert Without(xs, args[0]) == head + Without(xs[1..], args[0]);
      KeepUnmatchedAppend(t, head, Without(xs[1..], args[0]), args, prefix);
      KeepUnmatchedAppend(t, head, Without(xs[1..], args[0]), args[1..], prefix);
      if x != args[0] {
        assert x in args <==> x in args[1..];
        assert KeepUnmatched(t, [x], args[1..], prefix) == KeepUnmatched(t, [x], args, prefix);
      } else {
        assert x in args;
      }
    }
  }

  /** An argument that does not match can be left out of `args`. */
  lemma {:induction false} KeepUnmatchedSkip(t: Task, xs: seq<string>, args: seq<string>, prefix: string)
    requires |args| > 0 && !Matches(t, prefix, args[0])
    ensures KeepUnmatched(t, xs, args[1..], prefix) == KeepUnmatched(t, xs, args, prefix)
  {
    if |xs| > 0 {
      KeepUnmatchedSkip(t, xs[1..], args, prefix);
      assert xs[0] != args[0] ==> (xs[0] in args <==> xs[0] in args[1..]);
    }
  }

  lemma {:induction false} ConsumeResidual(t: Task, args: seq<string>, prefix: string, found: seq<Path>, residual: seq<string>)
    ensures Consume(t, args, prefix, found, residual).1 == KeepUnmatched(t, residual, args, prefix)
    decreases |args|
  {
    if |args| == 0 {
      KeepUnmatchedNone(t, residual, prefix);
    } else {
      var arg := args[0];
      if Matches(t, prefix, arg) {
        var found' := found + FindChildTasksByName(t, Rest(arg));
        ConsumeResidual(t, args[1..], prefix, found', Without(residual, arg));
        KeepUnmatchedWithout(t, residual, args, prefix);
      } else {
        ConsumeResidual(t, args[1..], prefix, found, residual);
        KeepUnmatchedSkip(t, residual, args, prefix);
      }
    }
  }

  /** `arg` is a filter argument that consumes itself: one of the three prefixes followed by a leaf name. */
  predicate Consumed(t: Task, arg: string) {
    Matches(t, "=", arg) || Matches(t, "+", arg) || Matches(t, "-", arg)
  }

  /** The arguments that are not consumed filters, in their original order. */
  function Unconsumed(t: Task, xs: seq<string>): (r: seq<string>)
    ensures forall a :: a in r <==> a in xs && !Consumed(t, a)
  {
    if |xs| == 0 then [] else (if Consumed(t, xs[0]) then [] else [xs[0]]) + Unconsumed(t, xs[1..])
  }

  lemma {:induction false} UnconsumedAppend(t: Task, xs: seq<string>, ys: seq<string>)
    ensures Unconsumed(t, xs + ys) == Unconsumed(t, xs) + Unconsumed(t, ys)
  {
    if |xs| == 0 {
      assert xs + ys == ys;
    } else {
      assert (xs + ys)[0] == xs[0];
      assert (xs + ys)[1..] == xs[1..] + ys;
      UnconsumedAppend(t, xs[1..], ys);
    }
  }

  lemma {:induction false} ThreePasses(t: Task, xs: seq<string>, args: seq<string>)
    requires forall a :: a in xs ==> a in args
    ensures KeepUnmatched(t, KeepUnmatched(t, KeepUnmatched(t, xs, args, "="), args, "+"), args, "-") == Unconsumed(t, xs)
  {
    if |xs| > 0 {
      var x := xs[0];
      assert x in xs;
      assert forall a :: a in xs[1..] ==> a in xs;
      ThreePasses(t, xs[1..], args);
      var h1 := if Matches(t, "=", x) then [] else [x];
      var k1 := KeepUnmatched(t, xs[1..], args, "=");
      assert KeepUnmatched(t, xs, args, "=") == h1 + k1;
      KeepUnmatchedAppend(t, h1, k1, args, "+");
      var h2 := KeepUnmatched(t, h1, args, "+");
      var k2 := KeepUnmatched(t, k1, args, "+");
      KeepUnmatchedAppend(t, h2, k2, args, "-");
      assert KeepUnmatched(t, h2, args, "-") == (if Consumed(t, x) then [] else [x]);
    }
  }

  /**
   * What is left of the arguments after filter extraction: exactly the arguments that
   * are not consumed filters, in their original order.
   */
  lemma ResidualArguments(t: Task, argv: seq<string>)
    ensures ExtractFilters(t, argv).1 == Unconsumed(t, argv)
  {
    var r1 := Consume(t, argv, "=", [], argv).1;
    var r2 := Consume(t, argv, "+", [], r1).1;
    ConsumeResidual(t, argv, "=", [], argv);
    ConsumeResidual(t, argv, "+", [], r1);
    ConsumeResidual(t, argv, "-", [], r2);
    ThreePasses(t, argv, argv);
  }

  /** A one-character prefix and a name make up an argument exactly when it is their concatenation. */
  lemma PrefixedArgument(prefix: string, arg: string, name: string)
    requires |prefix| == 1
    ensures Head(arg) == prefix && Rest(arg) == name <==> arg == prefix + name
  {
    if arg == prefix + name {
      assert arg[..1] == prefix;
      assert arg[1..] == name;
    }
    if Head(arg) == prefix && Rest(arg) == name {
      assert arg == arg[..1] + arg[1..];
    }
  }

  /** The leaves a prefix selects: exactly those whose name, after the prefix, is an argument. */
  lemma ConsumeSelects(t: Task, argv: seq<string>, prefix: string, residual: seq<string>)
    requires |prefix| == 1
    ensures forall q :: q in Consume(t, argv, prefix, [], residual).0 <==>
              ValidPath(t, q) && !At(t, q).Composite() && At(t, q).textual && prefix + At(t, q).name in argv
  {
    ConsumeFound(t, argv, prefix, [], residual);
    forall q
      ensures (exists a :: a in argv && Matches(t, prefix, a) && q in FindChildTasksByName(t, Rest(a)))
              <==> ValidPath(t, q) && !At(t, q).Composite() && At(t, q).textual && prefix + At(t, q).name in argv
    {
      if exists a :: a in argv && Matches(t, prefix, a) && q in FindChildTasksByName(t, Rest(a)) {
        var a :| a in argv && Matches(t, prefix, a) && q in FindChildTasksByName(t, Rest(a));
        PrefixedArgument(prefix, a, At(t, q).name);
      }
      if ValidPath(t, q) && !At(t, q).Composite() && At(t, q).textual && prefix + At(t, q).name in argv {
        var a := prefix + At(t, q).name;
        PrefixedArgument(prefix, a, At(t, q).name);
        assert q in FindChildTasksByName(t, Rest(a));
        assert Matches(t, prefix, a);
      }
    }
  }

  /**
   * The filters as sets: a leaf below the node is picked, enabled or disabled exactly
   * when the command line holds its name behind `=`, `+` or `-` respectively.
   */
  lemma FilterMembership(t: Task, argv: seq<string>)
    ensures var f := ExtractFilters(t, argv).0;
            forall q :: q in f.pick <==> ValidPath(t, q) && !At(t, q).Composite() && At(t, q).textual && "=" + At(t, q).name in argv
    ensures var f := ExtractFilters(t, argv).0;
            forall q :: q in f.enable <==> ValidPath(t, q) && !At(t, q).Composite() && At(t, q).textual && "+" + At(t, q).name in argv
    ensures var f := ExtractFilters(t, argv).0;
            forall q :: q in f.disable <==> ValidPath(t, q) && !At(t, q).Composite() && At(t, q).textual && "-" + At(t, q).name in argv
  {
    var r1 := Consume(t, argv, "=", [], argv).1;
    var r2 := Consume(t, argv, "+", [], r1).1;
    ConsumeSelects(t, argv, "=", argv);
    ConsumeSelects(t, argv, "+", r1);
    ConsumeSelects(t, argv, "-", r2);
  }

  // ---------------------------------------------------------------------------
  // Help detection (task.php:268-273)
  // ---------------------------------------------------------------------------

  /** The remaining arguments are exactly `['?']`. */
  predicate HelpRequested(residual: seq<string>) {
    residual == ["?"]
  }

  /**
   * The residual as PHP holds it: `array_diff` keeps each surviving argument under its
   * original index, so the array is a list of (key, value) pairs.
   */
  function KeyedResidual(t: Task, argv: seq<string>, i: nat): (r: seq<(nat, string)>)
    requires i <= |argv|
    ensures forall k :: 0 <= k < |r| ==> i <= r[k].0 < |argv| && r[k].1 == argv[r[k].0]
    decreases |argv| - i
  {
    if i == |argv| then []
    else (if Consumed(t, argv[i]) then [] else [(i, argv[i])]) + KeyedResidual(t, argv, i + 1)
  }

  function Values(keyed: seq<(nat, string)>): (r: seq<string>)
    ensures |r| == |keyed|
  {
    if |keyed| == 0 then [] else [keyed[0].1] + Values(keyed[1..])
  }

  /** The keyed residual holds the same values, in the same order, as the re-indexed one. */
  lemma {:induction false} KeyedResidualValues(t: Task, argv: seq<string>, i: nat)
    requires i <= |argv|
    ensures Values(KeyedResidual(t, argv, i)) == Unconsumed(t, argv[i..])
    decreases |argv| - i
  {
    if i < |argv| {
      KeyedResidualValues(t, argv, i + 1);
      var rest := KeyedResidual(t, argv, i + 1);
      assert argv[i..][0] == argv[i];
      assert argv[i..][1..] == argv[i + 1..];
      if !Consumed(t, argv[i]) {
        var keyed := [(i, argv[i])] + rest;
        assert keyed[0].1 == argv[i] && keyed[1..] == rest;
        assert KeyedResidual(t, argv, i) == keyed;
        assert Values(keyed) == [argv[i]] + Values(rest);
      } else {
        assert KeyedResidual(t, argv, i) == rest;
      }
    }
  }

  /**
   * `$argv === ['?']` as written at task.php:270: identity on arrays compares keys too,
   * so the test holds only when the `?` is still under key 0.
   */
  predicate HelpRequestedAsWritten(t: Task, argv: seq<string>) {
    KeyedResidual(t, argv, 0) == [(0, "?")]
  }

  /** A group with one leaf named `build`. */
  function SampleGroup(): Task {
    Task("group", true, None, Sequence, "", false, false, [Task("build", true, Some("make"), Directive, "", false, false, [])])
  }

  /**
   * As written, `run group =build ?` does not show help: the `?` survives under key 1,
   * while the evidently intended test on the remaining arguments does show it.
   */
  lemma HelpMissedAfterFilter()
    ensures !HelpRequestedAsWritten(SampleGroup(), ["=build", "?"])
  {
    SampleConsumption();
    KeyedAfterConsumed(SampleGroup(), "=build", "?");
  }

  /** After a consumed argument, a surviving one keeps key 1. */
  lemma KeyedAfterConsumed(t: Task, a: string, b: string)
    requires Consumed(t, a) && !Consumed(t, b)
    ensures KeyedResidual(t, [a, b], 0) == [(1, b)]
  {
    assert KeyedResidual(t, [a, b], 2) == [];
    assert KeyedResidual(t, [a, b], 1) == [(1, b)];
  }

  /** The intended test, on the same arguments, does show help. */
  lemma HelpFoundAfterFilter()
    ensures HelpRequested(ExtractFilters(SampleGroup(), ["=build", "?"]).1)
  {
    SampleConsumption();
    var before: seq<string> := ["=build"];
    assert before + [] == before;
    assert before + ["?"] + [] == ["=build", "?"];
    HelpAfterFilters(SampleGroup(), before, []);
  }

  /** In the sample group, `=build` names its leaf while `?` names nothing. */
  lemma SampleConsumption()
    ensures Consumed(SampleGroup(), "=build") && !Consumed(SampleGroup(), "?")
  {
    var t := SampleGroup();
    assert ValidPath(t, [0]) && At(t, [0]).Is("build") && !At(t, [0]).Composite();
    assert [0] in FindChildTasksByName(t, "build");
    assert Rest("=build") == "build";
    assert Head("?") == "?";
  }

  /** With the intended test, consumed filter arguments anywhere around a lone `?` still give help. */
  lemma HelpAfterFilters(t: Task, before: seq<string>, after: seq<string>)
    requires forall a :: a in before + after ==> Consumed(t, a)
    ensures HelpRequested(ExtractFilters(t, before + ["?"] + after).1)
  {
    ResidualArguments(t, before + ["?"] + after);
    UnconsumedAppend(t, before + ["?"], after);
    UnconsumedAppend(t, before, ["?"]);
    assert Head("?") == "?";
    assert !Consumed(t, "?");
    assert Unconsumed(t, ["?"]) == ["?"];
    UnconsumedNone(t, before);
    UnconsumedNone(t, after);
  }

  lemma {:induction false} UnconsumedNone(t: Task, xs: seq<string>)
    requires forall a :: a in xs ==> Consumed(t, a)
    ensures Unconsumed(t, xs) == []
  {
    if |xs| > 0 {
      assert xs[0] in xs;
      assert forall a :: a in xs[1..] ==> a in xs;
      UnconsumedNone(t, xs[1..]);
    }
  }

  // ---------------------------------------------------------------------------
  // Command collection (task.php:275-291)
  // ---------------------------------------------------------------------------

  /** A task's code as the command receives it: a null code reads as the empty string. */
  function CodeText(code: Option<string>): string {
    if code.Some? then code.value else ""
  }

  /** The command of a setup task: it always binds the task's own name. */
  function SetupCommand(root: Task, q: Path): (c: Command)
    requires ValidPath(root, q)
  {
    Command(QualifiedName(root, q), CodeText(At(root, q).code), Some(At(root, q).name))
  }

  function SetupCommandsOf(root: Task, qs: seq<Path>): (r: seq<Command>)
    requires forall q :: q in qs ==> ValidPath(root, q)
    ensures |r| == |qs|
    ensures forall k :: 0 <= k < |qs| ==> r[k] == SetupCommand(root, qs[k])
  {
    if |qs| == 0 then [] else [SetupCommand(root, qs[0])] + SetupCommandsOf(root, qs[1..])
  }

  /** One command per setup task of the node at `p`, root level first. */
  function SetupCommands(root: Task, p: Path): seq<Command>
    requires ValidPath(root, p)
  {
    SetupCommandsOf(root, SetupPaths(root, p))
  }

  /**
   * The general-task selection at task.php:283-286, with `in_array` taking its
   * arguments in the right order and the last test reading "a pick is active": the
   * node itself, or a picked leaf, is always run; with no pick, optional leaves need
   * enabling and disabled leaves are dropped.
   */
  predicate Selected(t: Task, q: Path, f: Filters)
    requires ValidPath(t, q)
  {
    q == [] || q in f.pick || (|f.pick| == 0 && !(At(t, q).optional && q !in f.enable) && q !in f.disable)
  }

  function SelectLeaves(t: Task, qs: seq<Path>, f: Filters): (r: seq<Path>)
    requires forall q :: q in qs ==> ValidPath(t, q)
    ensures forall q :: q in r <==> q in qs && Selected(t, q, f)
    ensures Sorted(qs) ==> Sorted(r)
  {
    if |qs| == 0 then []
    else
      var rest := SelectLeaves(t, qs[1..], f);
      assert forall q :: q in qs[1..] ==> q in qs;
      if Selected(t, qs[0], f) then
        assert Sorted(qs) ==> forall k :: 0 <= k < |rest| ==> LexLess(qs[0], rest[k]) by {
          if Sorted(qs) {
            forall k | 0 <= k < |rest| ensures LexLess(qs[0], rest[k]) {
              assert rest[k] in qs[1..];
              var m :| 0 <= m < |qs[1..]| && qs[1..][m] == rest[k];
              assert qs[1..][m] == qs[m + 1];
            }
          }
        }
        [qs[0]] + rest
      else rest
  }

  /** The command of a general leaf: it binds the leaf's name only when the leaf is `variable`. */
  function LeafCommand(root: Task, p: Path, q: Path): Command
    requires ValidPath(root, p) && ValidPath(At(root, p), q)
  {
    AtConcat(root, p, q);
    var leaf := At(root, p + q);
    Command(QualifiedName(root, p + q), CodeText(leaf.code), if leaf.kind == Variable then Some(leaf.name) else None)
  }

  function LeafCommandsOf(root: Task, p: Path, qs: seq<Path>): (r: seq<Command>)
    requires ValidPath(root, p)
    requires forall q :: q in qs ==> ValidPath(At(root, p), q)
    ensures |r| == |qs|
    ensures forall k :: 0 <= k < |qs| ==> r[k] == LeafCommand(root, p, qs[k])
  {
    if |qs| == 0 then [] else [LeafCommand(root, p, qs[0])] + LeafCommandsOf(root, p, qs[1..])
  }

  /** The leaves below the node at `p` that the filters keep, in depth-first order. */
  function GeneralPaths(root: Task, p: Path, f: Filters): (r: seq<Path>)
    requires ValidPath(root, p)
    ensures forall q :: q in r <==> ValidPath(At(root, p), q) && !At(At(root, p), q).Composite() && Selected(At(root, p), q, f)
    ensures Sorted(r)
  {
    var t := At(root, p);
    var leaves := LeafPaths(t);
    assert forall q :: ValidPath(t, q) && !At(t, q).Composite() ==> q in leaves by {
      forall q | ValidPath(t, q) && !At(t, q).Composite() ensures q in leaves {
        LeafPathsComplete(t, q);
      }
    }
    SelectLeaves(t, leaves, f)
  }

  function GeneralCommands(root: Task, p: Path, f: Filters): seq<Command>
    requires ValidPath(root, p)
  {
    LeafCommandsOf(root, p, GeneralPaths(root, p, f))
  }

  // ---------------------------------------------------------------------------
  // Argument placeholder normalisation (task.php:293-315)
  // ---------------------------------------------------------------------------

  /** An unbound command whose code already forwards the arguments. */
  predicate Forwards(c: Command) {
    Contains(c.code, PLACEHOLDER) && !c.Bound()
  }

  /** `$command->code(str_replace('$RUNARGS', '', $command->code()))`: a falsy result changes nothing. */
  function Stripped(c: Command): Command {
    c.Code(Some(RemoveAll(c.code, PLACEHOLDER))).0
  }

  /** The placeholder appended after a space. */
  function Appended(c: Command): Command {
    // task.php:311 interpolates the PHP variable $RUNARGS; the literal placeholder is meant
    c.Code(Some(c.code + " " + PLACEHOLDER)).0
  }

  /**
   * The normalisation loop from index `i`, `marked` being the last forwarding command
   * seen. A forwarding command is (re)marked and kept; once one is marked, every other
   * command has the placeholder stripped from its code.
   */
  function StripFrom(cs: seq<Command>, i: nat, marked: Option<nat>): (r: (seq<Command>, Option<nat>))
    requires i <= |cs|
    decreases |cs| - i
  {
    if i == |cs| then (cs, marked)
    // the condition at task.php:296 reads inverted: a command that holds the placeholder is meant
    else if Forwards(cs[i]) then StripFrom(cs, i + 1, Some(i))
    // `str_replace` at task.php:303 has its arguments swapped
    else if marked.Some? then StripFrom(cs[i := Stripped(cs[i])], i + 1, marked)
    else StripFrom(cs, i + 1, marked)
  }

  /** Whether a forwarding command occurs among `cs[lo..hi]`. */
  predicate ForwardsBetween(cs: seq<Command>, lo: nat, hi: nat) {
    exists l :: lo <= l < hi && l < |cs| && Forwards(cs[l])
  }

  /** The final normalisation: strip after a forwarding command, or else append to the first unbound one. */
  function Normalize(cs: seq<Command>): seq<Command> {
    var (stripped, marked) := StripFrom(cs, 0, None);
    if marked.Some? then stripped
    else match FirstUnbound(stripped, |stripped|)
      case Some(j) => stripped[j := Appended(stripped[j])]
      case None => stripped
  }

  /** Stripping a command that is not bound and lacks the placeholder leaves it as it is. */
  lemma StripNoop(c: Command)
    requires !Contains(c.code, PLACEHOLDER)
    ensures Stripped(c) == c
  {
    RemoveAllAbsent(c.code, PLACEHOLDER);
  }

  /**
   * The loop from `i` keeps the commands before `i`; from `i` on, it strips the
   * placeholder exactly from the bound commands that follow a forwarding command (or a
   * mark made before `i`), and it ends with a mark exactly when one was made.
   */
  lemma {:induction false} StripFromSpec(cs: seq<Command>, i: nat, marked: Option<nat>)
    requires i <= |cs|
    ensures var r := StripFrom(cs, i, marked).0;
            |r| == |cs|
            && (forall j :: 0 <= j < i ==> r[j] == cs[j])
            && (forall j :: i <= j < |cs| ==>
                  r[j] == if (marked.Some? || ForwardsBetween(cs, i, j)) && cs[j].Bound() then Stripped(cs[j]) else cs[j])
    ensures StripFrom(cs, i, marked).1.Some? <==> marked.Some? || ForwardsBetween(cs, i, |cs|)
    decreases |cs| - i
  {
    if i < |cs| {
      var c := cs[i];
      if Forwards(c) {
        StripFromSpec(cs, i + 1, Some(i));
        assert ForwardsBetween(cs, i, |cs|);
      } else if marked.Some? {
        var cs' := cs[i := Stripped(c)];
        StripFromSpec(cs', i + 1, marked);
        if !c.Bound() {
          StripNoop(c);
        }
        assert forall j :: i < j < |cs| ==> cs'[j] == cs[j];
      } else {
        StripFromSpec(cs, i + 1, marked);
        forall j | i <= j <= |cs|
          ensures ForwardsBetween(cs, i, j) <==> (j > i && ForwardsBetween(cs, i + 1, j))
        {
          if ForwardsBetween(cs, i, j) {
            var l :| i <= l < j && l < |cs| && Forwards(cs[l]);
            assert l != i;
          }
        }
      }
    }
  }

  /**
   * Normalisation keeps every command's name and variable and only ever touches the
   * code. With a forwarding command present, the placeholder is stripped from the bound
   * commands after the first one and everything else is unchanged; otherwise `$RUNARGS`
   * is appended to the first unbound command, and only to it.
   */
  lemma NormalizeSpec(cs: seq<Command>)
    ensures |Normalize(cs)| == |cs|
    ensures forall j :: 0 <= j < |cs| ==> Normalize(cs)[j].name == cs[j].name && Normalize(cs)[j].variable == cs[j].variable
    ensures ForwardsBetween(cs, 0, |cs|) ==>
              forall j :: 0 <= j < |cs| ==>
                Normalize(cs)[j] == if ForwardsBetween(cs, 0, j) && cs[j].Bound() then Stripped(cs[j]) else cs[j]
    ensures !ForwardsBetween(cs, 0, |cs|) ==>
              Normalize(cs) == match FirstUnbound(cs, |cs|)
                               case Some(k) => cs[k := Appended(cs[k])]
                               case None => cs
  {
    StripFromSpec(cs, 0, None);
    var r := StripFrom(cs, 0, None).0;
    if !ForwardsBetween(cs, 0, |cs|) {
      assert forall j :: 0 <= j < |cs| ==> !ForwardsBetween(cs, 0, j);
      assert r == cs;
    }
  }

  /** The appended placeholder goes to an unbound command and makes its code forward the arguments. */
  lemma AppendedForwards(c: Command)
    requires !c.Bound()
    ensures Appended(c).code == c.code + " " + PLACEHOLDER
    ensures Forwards(Appended(c))
  {
    var code := c.code + " " + PLACEHOLDER;
    assert code[|c.code| + 1..] == PLACEHOLDER;
    ContainsSuffix(code, |c.code| + 1, PLACEHOLDER);
  }

  lemma {:induction false} ContainsSuffix(s: string, k: nat, pattern: string)
    requires k <= |s| && s[k..] == pattern
    ensures Contains(s, pattern)
    decreases k
  {
    if k > 0 {
      ContainsSuffix(s[1..], k - 1, pattern);
      assert s[1..][k - 1..] == s[k..];
    } else {
      assert s[..|pattern|] == pattern;
    }
  }

  // ---------------------------------------------------------------------------
  // run and complete (task.php:219-352)
  // ---------------------------------------------------------------------------

  /** The first child whose name is identical (`===`) to the given one. */
  function ChildNamed(cs: seq<Task>, name: string): (r: Option<nat>)
    ensures r.Some? ==> r.value < |cs| && cs[r.value].Is(name)
    ensures r.Some? ==> forall j :: 0 <= j < r.value ==> !cs[j].Is(name)
    ensures r.None? ==> forall j :: 0 <= j < |cs| ==> !cs[j].Is(name)
  {
    if |cs| == 0 then None
    else if cs[0].Is(name) then Some(0)
    else match ChildNamed(cs[1..], name)
      case Some(j) => Some(j + 1)
      case None => None
  }

  function NotFoundMessage(arg: string): string {
    // task.php:244 quotes the message with backticks, the shell-execution operator; a string is meant
    "Task \"" + arg + "\" not found"
  }

  datatype Resolution =
    | TaskNotFound(message: string)
    | RootHelp
    | ShowHelp(helpTarget: Path, selected: Path, plan: Plan, filters: Filters)
    | RunPlan(selected: Path, plan: Plan, argv: seq<string>, quiet: bool)

  /**
   * The part of `run` after delegation, for the non-root node at `p`: filters, help,
   * setup commands, selected general commands, normalisation, and the plan in the
   * node's own mode.
   */
  function Prepare(root: Task, p: Path, argv: seq<string>): (r: Resolution)
    requires ValidPath(root, p)
    ensures r.ShowHelp? || r.RunPlan?
    ensures r.ShowHelp? <==> ExtractFilters(At(root, p), argv).1 == ["?"]
    ensures r.ShowHelp? ==> r.selected == p && r.helpTarget == (if |p| < 2 then p else p[..1])
    ensures r.RunPlan? ==> r.selected == p && r.quiet == At(root, p).quiet && r.argv == Unconsumed(At(root, p), argv)
    ensures r.plan.mode == At(root, p).kind
  {
    var t := At(root, p);
    var (filters, residual) := ExtractFilters(t, argv);
    ResidualArguments(t, argv);
    var commands := Normalize(SetupCommands(root, p) + GeneralCommands(root, p, filters));
    var plan := Plan(commands, t.kind);
    if HelpRequested(residual) then
      // `count($this->parents)` at task.php:322 means the length of parents()
      ShowHelp(if |p| < 2 then p else p[..1], p, plan, filters)
    else RunPlan(p, plan, residual, t.quiet)
  }

  /**
   * The resolved command list: one command per setup task, in setup order, each bound
   * to its task's own name; then one per selected leaf, in depth-first order, bound
   * exactly when the leaf is `variable`. Normalisation only touches codes.
   */
  lemma ResolvedCommands(root: Task, p: Path, argv: seq<string>)
    requires ValidPath(root, p)
    ensures var t := At(root, p);
            var cs := Prepare(root, p, argv).plan.commands;
            var setup := SetupPaths(root, p);
            var general := GeneralPaths(root, p, ExtractFilters(t, argv).0);
            |cs| == |setup| + |general| && SetupBound(root, setup, cs) && LeavesBound(t, general, cs, |setup|)
  {
    var f := ExtractFilters(At(root, p), argv).0;
    PrepareCommands(root, p, argv);
    NormalizeKeeps(SetupCommands(root, p) + GeneralCommands(root, p, f));
    assert KeepsNamesAndVariables(Prepare(root, p, argv).plan.commands, SetupCommands(root, p) + GeneralCommands(root, p, f));
    CommandsShape(root, p, f, Prepare(root, p, argv).plan.commands);
  }

  /** Command `k` is the `k`-th setup task's: under its qualified name, bound to its own name. */
  predicate SetupBound(root: Task, setup: seq<Path>, cs: seq<Command>) {
    |setup| <= |cs|
    && forall k :: 0 <= k < |setup| ==>
         ValidPath(root, setup[k])
         && cs[k].name == QualifiedName(root, setup[k])
         && cs[k].variable == Some(At(root, setup[k]).name)
  }

  /** From `offset` on, command `k` is bound exactly when the `k`-th leaf is `variable`. */
  predicate LeavesBound(t: Task, general: seq<Path>, cs: seq<Command>, offset: nat) {
    offset + |general| <= |cs|
    && forall k :: 0 <= k < |general| ==>
         ValidPath(t, general[k])
         && cs[offset + k].variable == (if At(t, general[k]).kind == Variable then Some(At(t, general[k]).name) else None)
  }

  /** What normalisation keeps of the concatenated command list. */
  predicate KeepsNamesAndVariables(cs: seq<Command>, xs: seq<Command>) {
    |cs| == |xs| && forall j :: 0 <= j < |xs| ==> cs[j].name == xs[j].name && cs[j].variable == xs[j].variable
  }

  lemma CommandsShape(root: Task, p: Path, f: Filters, cs: seq<Command>)
    requires ValidPath(root, p)
    requires KeepsNamesAndVariables(cs, SetupCommands(root, p) + GeneralCommands(root, p, f))
    ensures var t := At(root, p);
            var setup := SetupPaths(root, p);
            var general := GeneralPaths(root, p, f);
            |cs| == |setup| + |general| && SetupBound(root, setup, cs) && LeavesBound(t, general, cs, |setup|)
  {
    SetupPart(root, p, f, cs);
    SetupLength(root, p);
    GeneralShape(root, p, f);
    GeneralPart(At(root, p), cs, SetupCommands(root, p), GeneralCommands(root, p, f), SetupPaths(root, p), GeneralPaths(root, p, f));
  }

  lemma SetupLength(root: Task, p: Path)
    requires ValidPath(root, p)
    ensures |SetupCommands(root, p)| == |SetupPaths(root, p)|
  {
  }

  lemma SetupPart(root: Task, p: Path, f: Filters, cs: seq<Command>)
    requires ValidPath(root, p)
    requires KeepsNamesAndVariables(cs, SetupCommands(root, p) + GeneralCommands(root, p, f))
    ensures |cs| == |SetupPaths(root, p)| + |GeneralPaths(root, p, f)|
    ensures SetupBound(root, SetupPaths(root, p), cs)
  {
    var sc := SetupCommands(root, p);
    var gc := GeneralCommands(root, p, f);
    SetupShape(root, p);
    assert |gc| == |GeneralPaths(root, p, f)|;
    ConcatKeepsFront(cs, sc, gc);
  }

  lemma ConcatKeepsFront(cs: seq<Command>, xs: seq<Command>, ys: seq<Command>)
    requires KeepsNamesAndVariables(cs, xs + ys)
    ensures |cs| == |xs| + |ys|
    ensures forall k :: 0 <= k < |xs| ==> cs[k].name == xs[k].name && cs[k].variable == xs[k].variable
  {
    forall k | 0 <= k < |xs| ensures cs[k].name == xs[k].name && cs[k].variable == xs[k].variable {
      assert (xs + ys)[k] == xs[k];
    }
  }

  lemma ConcatKeepsBack(cs: seq<Command>, xs: seq<Command>, ys: seq<Command>)
    requires KeepsNamesAndVariables(cs, xs + ys)
    ensures forall k :: 0 <= k < |ys| ==> cs[|xs| + k].variable == ys[k].variable
  {
    forall k | 0 <= k < |ys| ensures cs[|xs| + k].variable == ys[k].variable {
      assert (xs + ys)[|xs| + k] == ys[k];
    }
  }

  /** The general commands keep their variables through normalisation, whatever the leaves are. */
  lemma GeneralPart(t: Task, cs: seq<Command>, sc: seq<Command>, gc: seq<Command>, setup: seq<Path>, general: seq<Path>)
    requires KeepsNamesAndVariables(cs, sc + gc) && |sc| == |setup| && |gc| == |general|
    requires LeavesBound(t, general, gc, 0)
    ensures LeavesBound(t, general, cs, |setup|)
  {
    ConcatKeepsBack(cs, sc, gc);
  }

  lemma GeneralShape(root: Task, p: Path, f: Filters)
    requires ValidPath(root, p)
    ensures |GeneralCommands(root, p, f)| == |GeneralPaths(root, p, f)|
    ensures LeavesBound(At(root, p), GeneralPaths(root, p, f), GeneralCommands(root, p, f), 0)
  {
    forall k | 0 <= k < |GeneralPaths(root, p, f)| {
      GeneralCommandAt(root, p, f, k);
    }
  }

  lemma PrepareCommands(root: Task, p: Path, argv: seq<string>)
    requires ValidPath(root, p)
    ensures Prepare(root, p, argv).plan.commands
            == Normalize(SetupCommands(root, p) + GeneralCommands(root, p, ExtractFilters(At(root, p), argv).0))
  {
  }

  /** Normalisation keeps the length, and every command's name and variable. */
  lemma NormalizeKeeps(cs: seq<Command>)
    ensures |Normalize(cs)| == |cs|
    ensures forall j :: 0 <= j < |cs| ==> Normalize(cs)[j].name == cs[j].name && Normalize(cs)[j].variable == cs[j].variable
  {
    NormalizeSpec(cs);
  }

  lemma SetupShape(root: Task, p: Path)
    requires ValidPath(root, p)
    ensures var sc := SetupCommands(root, p);
            var setup := SetupPaths(root, p);
            |sc| == |setup|
            && forall k :: 0 <= k < |setup| ==>
                 ValidPath(root, setup[k])
                 && sc[k].name == QualifiedName(root, setup[k])
                 && sc[k].variable == Some(At(root, setup[k]).name)
  {
    var setup := SetupPaths(root, p);
    assert forall k :: 0 <= k < |setup| ==> setup[k] in setup;
  }

  lemma GeneralCommandAt(root: Task, p: Path, f: Filters, k: nat)
    requires ValidPath(root, p) && k < |GeneralPaths(root, p, f)|
    ensures var t := At(root, p);
            var q := GeneralPaths(root, p, f)[k];
            ValidPath(t, q)
            && GeneralCommands(root, p, f)[k].variable == (if At(t, q).kind == Variable then Some(At(t, q).name) else None)
  {
    var q := GeneralPaths(root, p, f)[k];
    assert q in GeneralPaths(root, p, f);
    AtConcat(root, p, q);
  }


  /**
   * `run($argv)` on the node at `p`: an exact child name delegates to that child, at the
   * root an abbreviation delegates to the task it spells, and an undelegated root either
   * reports the unknown task or shows the general help.
   */
  function Run(root: Task, p: Path, argv: seq<string>): (r: Resolution)
    requires ValidPath(root, p)
    ensures !IsRoot(p) ==> r.ShowHelp? || r.RunPlan?
    decreases |argv|
  {
    var t := At(root, p);
    var byName := if |argv| > 0 then ChildNamed(t.children, argv[0]) else None;
    if byName.Some? then
      // task.php:225-226 delegates through an undefined $task and calls complete(); $child->run() is meant
      ChildStep(root, p, byName.value);
      Run(root, p + [byName.value], argv[1..])
    else if IsRoot(p) && |argv| > 0 && FindChildTaskByAbbreviation(t, argv[0]).Some? then
      var q := FindChildTaskByAbbreviation(t, argv[0]).value;
      AtConcat(root, p, q);
      Run(root, p + q, argv[1..])
    else if IsRoot(p) then
      if |argv| > 0 && argv != ["?"] then TaskNotFound(NotFoundMessage(argv[0])) else RootHelp
    else Prepare(root, p, argv)
  }

  /** The path of exact child names the arguments spell from `t`, as far as they go. */
  function NameWalk(t: Task, argv: seq<string>): (q: Path)
    ensures |q| <= |argv| && ValidPath(t, q)
    decreases |argv|
  {
    if |argv| > 0 && ChildNamed(t.children, argv[0]).Some? then
      var j := ChildNamed(t.children, argv[0]).value;
      var rest := NameWalk(t.children[j], argv[1..]);
      assert ([j] + rest)[1..] == rest;
      [j] + rest
    else []
  }

  /**
   * The walk takes, at every level, the first child named by the next argument, and
   * stops only when the arguments run out or no child has the next name.
   */
  lemma {:induction false} NameWalkSteps(t: Task, argv: seq<string>)
    ensures WalksByName(t, argv, NameWalk(t, argv))
    ensures var q := NameWalk(t, argv);
            |q| < |argv| ==> ChildNamed(At(t, q).children, argv[|q|]).None?
    decreases |argv|
  {
    var q := NameWalk(t, argv);
    if |q| > 0 {
      var j := q[0];
      var rest := NameWalk(t.children[j], argv[1..]);
      NameWalkSteps(t.children[j], argv[1..]);
      assert q == [j] + rest;
      WalkCons(t, argv, j, rest);
      WalkConsStops(t, argv, j, rest);
    }
  }

  /** Step `k` of the walk `q` from `t` takes the first child named `argv[k]`. */
  predicate WalksByName(t: Task, argv: seq<string>, q: Path) {
    |q| <= |argv|
    && forall k :: 0 <= k < |q| ==>
         ValidPath(t, q[..k]) && ChildNamed(At(t, q[..k]).children, argv[k]) == Some(q[k])
  }

  lemma WalkCons(t: Task, argv: seq<string>, j: nat, rest: Path)
    requires |argv| > 0 && ChildNamed(t.children, argv[0]) == Some(j)
    requires WalksByName(t.children[j], argv[1..], rest)
    ensures WalksByName(t, argv, [j] + rest)
  {
    var q := [j] + rest;
    forall k | 0 <= k < |q|
      ensures ValidPath(t, q[..k]) && ChildNamed(At(t, q[..k]).children, argv[k]) == Some(q[k])
    {
      if k > 0 {
        StepFacts(t, j, rest, "", k - 1);
        assert q[..k] == [j] + rest[..k - 1];
        assert argv[k] == argv[1..][k - 1];
      } else {
        assert q[..0] == [];
      }
    }
  }

  lemma WalkConsStops(t: Task, argv: seq<string>, j: nat, rest: Path)
    requires |argv| > 0 && j < |t.children| && ValidPath(t.children[j], rest) && |rest| <= |argv| - 1
    requires |rest| < |argv[1..]| ==> ChildNamed(At(t.children[j], rest).children, argv[1..][|rest|]).None?
    ensures |[j] + rest| < |argv| ==> ChildNamed(At(t, [j] + rest).children, argv[|[j] + rest|]).None?
  {
    ChildStep(t, [], j);
    AtConcat(t, [j], rest);
    assert [j][1..] == [];
    if |[j] + rest| < |argv| {
      assert argv[|[j] + rest|] == argv[1..][|rest|];
    }
  }

  /**
   * Below the root, `run` walks exact child names as far as they go and resolves the
   * rest of the arguments at the node reached.
   */
  lemma {:induction false} RunBelowRoot(root: Task, p: Path, argv: seq<string>)
    requires ValidPath(root, p) && !IsRoot(p)
    ensures var q := NameWalk(At(root, p), argv);
            ValidPath(root, p + q) && Run(root, p, argv) == Prepare(root, p + q, argv[|q|..])
    decreases |argv|
  {
    var t := At(root, p);
    var q := NameWalk(t, argv);
    AtConcat(root, p, q);
    if |q| > 0 {
      var j := q[0];
      assert ChildNamed(t.children, argv[0]) == Some(j);
      ChildStep(root, p, j);
      RunBelowRoot(root, p + [j], argv[1..]);
      RunStep(root, p, argv, j);
    } else {
      assert p + q == p && argv[|q|..] == argv;
    }
  }

  lemma WalkSlices(p: Path, j: nat, q': Path, argv: seq<string>)
    requires |q'| < |argv|
    ensures p + [j] + q' == p + ([j] + q')
    ensures argv[1..][|q'|..] == argv[|[j] + q'|..]
  {
  }

  /** One level of the walk below the root: the first argument names child `j`. */
  lemma RunStep(root: Task, p: Path, argv: seq<string>, j: nat)
    requires ValidPath(root, p) && !IsRoot(p) && |argv| > 0
    requires ChildNamed(At(root, p).children, argv[0]) == Some(j)
    requires ValidPath(root, p + [j])
    requires var q' := NameWalk(At(root, p + [j]), argv[1..]);
             ValidPath(root, p + [j] + q') && Run(root, p + [j], argv[1..]) == Prepare(root, p + [j] + q', argv[1..][|q'|..])
    ensures var q := NameWalk(At(root, p), argv);
            ValidPath(root, p + q) && Run(root, p, argv) == Prepare(root, p + q, argv[|q|..])
  {
    var t := At(root, p);
    ChildStep(root, p, j);
    var q' := NameWalk(t.children[j], argv[1..]);
    var q := NameWalk(t, argv);
    assert q == [j] + q';
    WalkSlices(p, j, q', argv);
    assert Run(root, p, argv) == Run(root, p + [j], argv[1..]);
  }

  /**
   * At the root, the unknown-task error comes exactly when some argument is given, the
   * arguments are not just `?`, no child has the first argument as its name, and the
   * first argument spells no walk of first letters.
   */
  lemma RootNotFound(root: Task, argv: seq<string>)
    ensures Run(root, [], argv).TaskNotFound? <==>
              |argv| > 0 && argv != ["?"]
              && (forall j :: 0 <= j < |root.children| ==> !root.children[j].Is(argv[0]))
              && (forall q :: !Spells(root, q, argv[0]))
    ensures Run(root, [], argv).TaskNotFound? ==> Run(root, [], argv).message == NotFoundMessage(argv[0])
    ensures Run(root, [], argv) == RootHelp <==>
              (argv == [] || argv == ["?"])
              && (argv == ["?"] ==> ChildNamed(root.children, "?").None? && FindChildTaskByAbbreviation(root, "?").None?)
  {
    if |argv| > 0 {
      forall q | Spells(root, q, argv[0]) ensures FindChildTaskByAbbreviation(root, argv[0]).Some? {
        AbbreviationComplete(root, q, argv[0]);
      }
    }
    RootFallsThrough(root, argv);
  }

  /** At the root, a first argument naming a child or spelling a walk leads below the root. */
  lemma RootFallsThrough(root: Task, argv: seq<string>)
    ensures Run(root, [], argv).TaskNotFound? || Run(root, [], argv) == RootHelp <==>
              |argv| == 0
              || (ChildNamed(root.children, argv[0]).None? && FindChildTaskByAbbreviation(root, argv[0]).None?)
    ensures Run(root, [], argv).TaskNotFound? <==>
              |argv| > 0 && argv != ["?"]
              && ChildNamed(root.children, argv[0]).None? && FindChildTaskByAbbreviation(root, argv[0]).None?
    ensures Run(root, [], argv).TaskNotFound? ==> Run(root, [], argv).message == NotFoundMessage(argv[0])
  {
    assert [] + [0] == [0];
    if |argv| > 0 {
      var byName := ChildNamed(root.children, argv[0]);
      if byName.Some? {
        ChildStep(root, [], byName.value);
        assert !IsRoot([] + [byName.value]);
      } else if FindChildTaskByAbbreviation(root, argv[0]).Some? {
        var q := FindChildTaskByAbbreviation(root, argv[0]).value;
        AtConcat(root, [], q);
        assert [] + q == q && !IsRoot(q);
      }
    }
  }

  /**
   * At the root, a first argument naming child `j` delegates to that child, which walks the
   * following exact names and resolves the remaining arguments at the node reached.
   */
  lemma RootDelegatesByName(root: Task, argv: seq<string>, j: nat)
    requires |argv| > 0 && ChildNamed(root.children, argv[0]) == Some(j)
    ensures var w := NameWalk(At(root, [j]), argv[1..]);
            ValidPath(root, [j] + w) && Run(root, [], argv) == Prepare(root, [j] + w, argv[1 + |w|..])
  {
    ChildStep(root, [], j);
    assert [] + [j] == [j];
    RootDelegatesTo(root, argv, [j]);
  }

  /**
   * At the root, a first argument naming no child but spelling the walk `q` of first letters
   * delegates to the end of that walk, which continues with the exact names that follow.
   */
  lemma RootDelegatesByAbbreviation(root: Task, argv: seq<string>, q: Path)
    requires |argv| > 0 && ChildNamed(root.children, argv[0]).None?
    requires FindChildTaskByAbbreviation(root, argv[0]) == Some(q)
    ensures var w := NameWalk(At(root, q), argv[1..]);
            ValidPath(root, q + w) && Run(root, [], argv) == Prepare(root, q + w, argv[1 + |w|..])
  {
    AtConcat(root, [], q);
    assert [] + q == q;
    RootDelegatesTo(root, argv, q);
  }

  /** Once the root hands the remaining arguments to the node at `q`, the walk below the root takes over. */
  lemma RootDelegatesTo(root: Task, argv: seq<string>, q: Path)
    requires |argv| > 0 && ValidPath(root, q) && !IsRoot(q)
    requires Run(root, [], argv) == Run(root, q, argv[1..])
    ensures var w := NameWalk(At(root, q), argv[1..]);
            ValidPath(root, q + w) && Run(root, [], argv) == Prepare(root, q + w, argv[1 + |w|..])
  {
    RunBelowRoot(root, q, argv[1..]);
    var w := NameWalk(At(root, q), argv[1..]);
    assert argv[1..][|w|..] == argv[1 + |w|..];
  }

  /**
   * `complete($argv)`: walk exact child names (task.php:338-339 means $child->complete())
   * and list the truthy names of the children of the node reached.
   */
  function Complete(t: Task, argv: seq<string>): (r: seq<string>)
    ensures forall k :: 0 <= k < |r| ==> Truthy(r[k])
    decreases |argv|
  {
    if |argv| > 0 && ChildNamed(t.children, argv[0]).Some? then
      Complete(t.children[ChildNamed(t.children, argv[0]).value], argv[1..])
    else TruthyNames(t.children)
  }

  /** Completion lists exactly the truthy child names of the node the name walk reaches. */
  lemma {:induction false} CompleteAtWalk(t: Task, argv: seq<string>)
    ensures Complete(t, argv) == TruthyNames(At(t, NameWalk(t, argv)).children)
    ensures forall n :: n in Complete(t, argv) <==>
              Truthy(n) && exists j :: 0 <= j < |At(t, NameWalk(t, argv)).children| && At(t, NameWalk(t, argv)).children[j].name == n
    decreases |argv|
  {
    var q := NameWalk(t, argv);
    if |q| > 0 {
      var j := q[0];
      CompleteAtWalk(t.children[j], argv[1..]);
      assert q == [j] + NameWalk(t.children[j], argv[1..]);
    }
    TruthyNamesMembers(At(t, q).children);
  }

  lemma {:induction false} TruthyNamesMembers(ts: seq<Task>)
    ensures forall n :: n in TruthyNames(ts) <==> Truthy(n) && exists j :: 0 <= j < |ts| && ts[j].name == n
  {
    if |ts| > 0 {
      TruthyNamesMembers(ts[..|ts| - 1]);
      assert ts == ts[..|ts| - 1] + [ts[|ts| - 1]];
      TruthyNamesSnoc(ts[..|ts| - 1], ts[|ts| - 1]);
    }
  }
}

=== FILE: strings.dfy ===
/** The handful of PHP string built-ins the task runner relies on, as pure functions. */
module Strings {

  /** PHP truthiness of a string: only `""` and `"0"` are falsy. */
  predicate Truthy(s: string) {
    s != "" && s != "0"
  }

  predicate StartsWith(s: string, prefix: string) {
    |prefix| <= |s| && s[..|prefix|] == prefix
  }

  /** `substr($s, 0, 1)`: the first character, or the empty string. */
  function Head(s: string): (r: string)
    ensures |r| <= 1
    ensures |s| > 0 ==> r == [s[0]]
    ensures |s| == 0 ==> r == ""
  {
    if |s| == 0 then "" else s[..1]
  }

  /** `strpos($s, $pattern) !== false`. */
  predicate Contains(s: string, pattern: string)
    decreases |s|
  {
    StartsWith(s, pattern) || (|s| > 0 && Contains(s[1..], pattern))
  }

  lemma {:induction false} ContainsChar(s: string, c: char)
    ensures Contains(s, [c]) <==> c in s
    decreases |s|
  {
    if |s| > 0 {
      ContainsChar(s[1..], c);
      assert s == [s[0]] + s[1..];
    }
  }

  /** `str_replace($pattern, '', $s)`: one left-to-right pass deleting non-overlapping occurrences. */
  function RemoveAll(s: string, pattern: string): (r: string)
    requires |pattern| > 0
    ensures |r| <= |s|
    decreases |s|
  {
    if StartsWith(s, pattern) then RemoveAll(s[|pattern|..], pattern)
    else if |s| == 0 then ""
    else [s[0]] + RemoveAll(s[1..], pattern)
  }

  /** Deleting a pattern that does not occur changes nothing. */
  lemma {:induction false} RemoveAllAbsent(s: string, pattern: string)
    requires |pattern| > 0
    requires !Contains(s, pattern)
    ensures RemoveAll(s, pattern) == s
    decreases |s|
  {
    if |s| > 0 {
      RemoveAllAbsent(s[1..], pattern);
      assert s == [s[0]] + s[1..];
    }
  }

  /** Deleting every occurrence of one character leaves none of it behind. */
  lemma {:induction false} RemoveAllChar(s: string, c: char)
    ensures c !in RemoveAll(s, [c])
    ensures forall x :: x in s && x != c ==> x in RemoveAll(s, [c])
    decreases |s|
  {
    if |s| > 0 {
      RemoveAllChar(s[1..], c);
      assert s == [s[0]] + s[1..];
    }
  }

  /** The characters of `s` other than `c`, in order. */
  function DropChar(s: string, c: char): (r: string)
    ensures c !in r
    ensures forall x :: x in r ==> x in s
  {
    if |s| == 0 then "" else (if s[0] == c then "" else [s[0]]) + DropChar(s[1..], c)
  }

  /** Deleting a one-character pattern with `str_replace` keeps every other character, in order. */
  lemma {:induction false} RemoveAllIsDrop(s: string, c: char)
    ensures RemoveAll(s, [c]) == DropChar(s, c)
    decreases |s|
  {
    if |s| > 0 {
      RemoveAllIsDrop(s[1..], c);
      assert StartsWith(s, [c]) <==> s[0] == c;
    }
  }

  /** Dropping a character that does not occur changes nothing. */
  lemma {:induction false} DropAbsent(s: string, c: char)
    requires c !in s
    ensures DropChar(s, c) == s
    decreases |s|
  {
    if |s| > 0 {
      DropAbsent(s[1..], c);
      assert s == [s[0]] + s[1..];
    }
  }

  predicate IsDigit(c: char) {
    '0' <= c <= '9'
  }

  predicate Digits(s: string) {
    forall k :: 0 <= k < |s| ==> IsDigit(s[k])
  }

  /**
   * A key PHP stores as an integer: canonical decimal text (no sign but `-`, no leading
   * zero, not `-0`).
   */
  predicate IntegerKey(k: string) {
    k == "0"
    || (|k| >= 1 && Digits(k) && k[0] != '0')
    || (|k| >= 2 && k[0] == '-' && Digits(k[1..]) && k[1] != '0')
  }

  /** An integer key holds neither `/` up front nor any `!`. */
  lemma IntegerKeyPlain(k: string)
    requires IntegerKey(k)
    ensures !StartsWith(k, "/") && '!' !in k
  {
    forall i | 0 <= i < |k| ensures k[i] != '!' {
      if 0 < i && k[0] == '-' {
        assert k[1..][i - 1] == k[i];
      }
    }
    assert |k| >= 1 && k[0] != '/' && k[..1][0] == k[0];
  }

  predicate IsLower(c: char) {
    'a' <= c <= 'z'
  }

  /** `strtoupper` on one character (ASCII letters only, as PHP 8 does). */
  function UpperChar(c: char): (r: char)
    ensures IsLower(c) ==> r != c && !IsLower(r)
    ensures !IsLower(c) ==> r == c
  {
    if IsLower(c) then (c as int - 'a' as int + 'A' as int) as char else c
  }

  function Upper(s: string): (r: string)
    ensures |r| == |s|
    ensures forall i :: 0 <= i < |s| ==> r[i] == UpperChar(s[i])
  {
    seq(|s|, i requires 0 <= i < |s| => UpperChar(s[i]))
  }

  /** A string equals its upper-cased form exactly when it has no lower-case letter. */
  lemma UpperFixed(s: string)
    ensures s == Upper(s) <==> forall i :: 0 <= i < |s| ==> !IsLower(s[i])
  {
    if s == Upper(s) {
      forall i | 0 <= i < |s| ensures !IsLower(s[i]) {
        assert Upper(s)[i] == UpperChar(s[i]);
      }
    }
  }

  /** `join($sep, $parts)`. */
  function Join(sep: string, parts: seq<string>): string
  {
    if |parts| == 0 then ""
    else if |parts| == 1 then parts[0]
    else parts[0] + sep + Join(sep, parts[1..])
  }

  lemma {:induction false} JoinSnoc(sep: string, parts: seq<string>, last: string)
    ensures Join(sep, parts + [last]) ==
            if |parts| == 0 then last else Join(sep, parts) + sep + last
  {
    if |parts| >= 2 {
      assert (parts + [last])[1..] == parts[1..] + [last];
      JoinSnoc(sep, parts[1..], last);
    } else if |parts| == 1 {
      assert parts + [last] == [parts[0], last];
    } else {
      assert parts + [last] == [last];
    }
  }

  /** Joining non-empty parts gives the empty string only for no parts at all. */
  lemma JoinEmpty(sep: string, parts: seq<string>)
    requires forall i :: 0 <= i < |parts| ==> parts[i] != ""
    ensures Join(sep, parts) == "" <==> |parts| == 0
  {
    if |parts| >= 2 {
      assert |Join(sep, parts)| >= |parts[0]|;
    }
  }
}

=== FILE: task.dfy ===
/**
 * The task tree and its one-pass construction from the nested configuration
 * mapping (`Task::__construct`, src/task.php:9-93).
 *
 * The PHP object graph (children plus a parent back-reference) is modelled as an
 * immutable tree; a node's ancestry is carried by the `depth` argument during
 * construction and by index paths afterwards (see module Navigator).
 */
module Tasks {
  import opened Common
  import opened Strings

  /** A configuration value as PHP sees it: a scalar string, `null`, or an ordered array. */
  datatype Value = Text(text: string) | Nil | Arr(entries: seq<Entry>)

  /**
   * One key/value pair of a PHP array, with the key as text. Which keys PHP holds as
   * integers is decided by `IntegerKey`; list entries carry such keys.
   */
  datatype Entry = Entry(key: string, value: Value)

  datatype TaskType = Directive | Variable | Sequence | Parallel | Multiplex

  /**
   * One node of the task tree. The options mapping every PHP node keeps a reference
   * to is not stored here: the only option read (`faketty`) is a parameter of execution.
   */
  datatype Task = Task(
    name: string,
    textual: bool,
    code: Option<string>,
    kind: TaskType,
    desc: string,
    quiet: bool,
    optional: bool,
    children: seq<Task>)
  {
    /**
     * `$task->name() === n` for an argument `n`. A name PHP holds as the integer 0 or as
     * null (`textual` false; `name` is then what `substr` and truthiness see, `"0"` or `""`)
     * is never identical to a string.
     */
    predicate Is(n: string) {
      textual && name == n
    }

    /** `composite()`: the node owns at least one child (task.php:131-133). */
    predicate Composite() {
      |children| > 0
    }
  }

  const ROOT_DESC := "General run description"
  const VARIABLE_DESC := "Prints the variable"
  const NESTING_ERROR := "Subtask descriptions and execution control not supported"

  predicate IsGroupType(k: TaskType) {
    k == Sequence || k == Parallel || k == Multiplex
  }

  predicate IsConcurrent(k: TaskType) {
    k == Parallel || k == Multiplex
  }

  /**
   * The structural facts every constructed tree satisfies: markers are stripped, a
   * composite node has no code of its own and is typed as a group, quiet is inherited,
   * and a group nested in a parallel/multiplex group stays concurrent.
   */
  ghost predicate WellFormed(t: Task)
  {
    && '!' !in t.name
    && (t.Composite() ==> t.code.None? && IsGroupType(t.kind))
    && forall i :: 0 <= i < |t.children| ==>
         && WellFormed(t.children[i])
         && (t.quiet ==> t.children[i].quiet)
         && (IsConcurrent(t.kind) && IsGroupType(t.children[i].kind) ==> IsConcurrent(t.children[i].kind))
  }

  /** The name markers of task.php:24-34: a leading `/` and any `!`. */
  datatype Marked = Marked(name: string, optional: bool, quiet: bool)

  function Markers(name: string, quiet: bool): (m: Marked)
    ensures m.optional <==> StartsWith(name, "/")
    ensures m.quiet <==> quiet || '!' in name
    ensures '!' !in m.name
    ensures forall c :: c in m.name ==> c in name
    ensures !m.optional && '!' !in name ==> m.name == name
    ensures m.name == DropChar(if m.optional then name[1..] else name, '!')
  {
    // array_slice on a string at task.php:26 means substr($name, 1)
    var optional := StartsWith(name, "/");
    var rest := if optional then name[1..] else name;
    assert optional ==> name == "/" + rest;
    // str_replace at task.php:32 has its arguments swapped; the intent removes every '!'
    var bang := Contains(rest, "!");
    ContainsChar(rest, '!');
    RemoveAllIsDrop(rest, '!');
    assert !bang ==> DropChar(rest, '!') == rest by {
      if !bang {
        DropAbsent(rest, '!');
      }
    }
    var stripped := if bang then RemoveAll(rest, "!") else rest;
    Marked(stripped, optional, quiet || bang)
  }

  /** Both markers at once: `/b!` is the optional, quiet task `b`. */
  lemma MarkersExample()
    ensures Markers("/b!", false) == Marked("b", true, true)
  {
    assert "/b!"[1..] == "b!";
    assert DropChar("b!", '!') == "b";
  }

  /** `substr($n, 0, 1) === '(' && substr($n, -1, 1) === ')'`. */
  predicate Parenthesised(name: string) {
    |name| >= 2 && name[0] == '(' && name[|name| - 1] == ')'
  }

  function Unwrap(name: string): (r: string)
    requires Parenthesised(name)
    ensures "(" + r + ")" == name
  {
    // array_slice on a string at task.php:62 and 68 means substr($name, 1, -1)
    name[1..|name| - 1]
  }

  /** The type and final name of a node whose code is a list or map (task.php:47-70). */
  function GroupType(name: string, parentType: Option<TaskType>): (g: (TaskType, string))
    ensures IsGroupType(g.0)
    ensures !Parenthesised(name) ==>
              g.1 == name && g.0 == (if parentType.Some? && IsConcurrent(parentType.value) then parentType.value else Sequence)
    ensures Parenthesised(name) && !Parenthesised(Unwrap(name)) ==> g == (Parallel, Unwrap(name))
    ensures Parenthesised(name) && Parenthesised(Unwrap(name)) ==> g == (Multiplex, Unwrap(Unwrap(name)))
    ensures parentType.Some? && IsConcurrent(parentType.value) ==> IsConcurrent(g.0)
  {
    var inherited := if parentType.Some? && IsConcurrent(parentType.value) then parentType.value else Sequence;
    if !Parenthesised(name) then (inherited, name)
    else
      var once := Unwrap(name);
      if Parenthesised(once) then (Multiplex, Unwrap(once)) else (Parallel, once)
  }

  /** The code of a scalar leaf; PHP `null` stays absent. */
  function LeafCode(v: Value): Option<string> {
    match v
    case Text(s) => Some(s)
    case _ => None
  }

  /** Position of the first entry with the given key. */
  function KeyIndex(es: seq<Entry>, key: string): (r: Option<nat>)
    ensures r.Some? ==> r.value < |es| && es[r.value].key == key
    ensures r.Some? ==> forall i :: 0 <= i < r.value ==> es[i].key != key
    ensures r.None? ==> forall i :: 0 <= i < |es| ==> es[i].key != key
  {
    if |es| == 0 then None
    else if es[0].key == key then Some(0)
    else match KeyIndex(es[1..], key)
      case None => None
      case Some(i) => Some(i + 1)
  }

  /** A `{code: ..., desc: ...}` wrapper, as the configuration reader produces. */
  predicate Described(v: Value) {
    v.Arr? && KeyIndex(v.entries, "code").Some? && KeyIndex(v.entries, "desc").Some?
  }

  function Width(v: Value): nat {
    if v.Arr? then |v.entries| else 0
  }

  /**
   * One sub-descriptor as the constructor receives it (task.php:14-17, 74): the first
   * entry of an array, or a bare value under the empty name.
   */
  function FromDescriptor(d: Value, parentType: Option<TaskType>, quiet: bool, depth: nat): (r: Result<Task>)
    ensures r.Success? ==> WellFormed(r.value)
    ensures r.Success? ==> (quiet ==> r.value.quiet)
    ensures r.Success? ==> (parentType.Some? && IsConcurrent(parentType.value) && IsGroupType(r.value.kind)
              ==> IsConcurrent(r.value.kind))
    ensures r.Failure? ==> r.message == NESTING_ERROR
    decreases d, Width(d) + 3
  {
    if !d.Arr? then Build("", d, parentType, quiet, depth)
    // an empty array leaves $name and $code unset: a null-named directive leaf with null code
    // (null is not identical to strtoupper(null), so it is not a variable)
    else if |d.entries| == 0 then Success(Task("", false, None, Directive, if depth == 0 then ROOT_DESC else "", quiet, false, []))
    else Build(d.entries[0].key, d.entries[0].value, parentType, quiet, depth)
  }

  /**
   * The name `$name = $key` takes: `array_slice($descriptor, 0, 1)` (task.php:14) renumbers
   * an integer key to 0, whatever its value.
   */
  function KeyName(key: string): string {
    if IntegerKey(key) then "0" else key
  }

  /**
   * `Task::__construct` for the entry `key => value` of a node with `depth` ancestors.
   * Fails with the nesting error when a parenthesised group sits below a root child.
   */
  function Build(key: string, value: Value, parentType: Option<TaskType>, quiet: bool, depth: nat): (r: Result<Task>)
    ensures r.Success? ==> WellFormed(r.value)
    ensures r.Success? ==> r.value.textual == !IntegerKey(key)
    ensures r.Success? ==> r.value.optional == StartsWith(key, "/")
    ensures r.Success? ==> r.value.quiet == (quiet || '!' in key)
    ensures r.Success? ==> (parentType.Some? && IsConcurrent(parentType.value) && IsGroupType(r.value.kind)
              ==> IsConcurrent(r.value.kind))
    ensures r.Failure? ==> r.message == NESTING_ERROR
    decreases value, Width(value) + 2
  {
    // the bare `parent` at task.php:10 and `name`, `code`, `type`, ... at task.php:84-91 mean the
    // locals $parent, $name, $code, $type, ...; the parent reference itself is a path prefix here
    // the literal `is_array($code)` at task.php:18 would also unwrap every list of subtasks
    // (yielding a null code); the split is applied to `{code, desc}` wrappers only
    var code := CodeOf(value);
    var textual := !IntegerKey(key);
    assert !textual ==> !StartsWith(key, "/") && '!' !in key by {
      if !textual {
        IntegerKeyPlain(key);
      }
    }
    var m := Markers(KeyName(key), quiet);
    // kept literally (task.php:40): the empty name and names without lower-case letters
    // are `variable`; the integer 0 is not identical to the string strtoupper returns
    var isVariable := textual && m.name == Upper(m.name);
    var desc := Description(isVariable, value, depth);
    if !code.Arr? then
      Success(Task(m.name, textual, LeafCode(code), if isVariable then Variable else Directive, desc, m.quiet, m.optional, []))
    else BuildGroup(m, textual, code, desc, parentType, depth)
  }

  /** The description a node gets (task.php:13, 19-20, 41-42). */
  function Description(isVariable: bool, value: Value, depth: nat): string {
    if isVariable then VARIABLE_DESC
    else if Described(value) then DescText(value.entries[KeyIndex(value.entries, "desc").value].value)
    // bare `parent` at task.php:13 means $parent: only the root gets the general description
    else if depth == 0 then ROOT_DESC
    else ""
  }

  /** The group branch of the constructor (task.php:47-79), once markers and description are known. */
  function BuildGroup(m: Marked, textual: bool, code: Value, desc: string, parentType: Option<TaskType>, depth: nat): (r: Result<Task>)
    requires code.Arr? && '!' !in m.name
    ensures r.Success? ==> WellFormed(r.value) && r.value.optional == m.optional && r.value.quiet == m.quiet
    ensures r.Success? ==> r.value.textual == textual
    ensures r.Success? ==> (parentType.Some? && IsConcurrent(parentType.value) ==> IsConcurrent(r.value.kind))
    ensures r.Failure? ==> r.message == NESTING_ERROR
    decreases code, Width(code) + 1
  {
    if Parenthesised(m.name) && depth >= 2 then
      Failure(NESTING_ERROR)
    else
      var (kind, groupName) := GroupType(m.name, parentType);
      GroupNameClean(m.name, parentType);
      var children :- BuildChildren(code, 0, kind, m.quiet, depth + 1);
      // the code of a composite node is reset to null (task.php:79)
      var t := Task(groupName, textual, None, kind, desc, m.quiet, m.optional, children);
      GroupWellFormed(t);
      Success(t)
  }

  /** Unwrapping parentheses brings in no `!`. */
  lemma GroupNameClean(name: string, parentType: Option<TaskType>)
    requires '!' !in name
    ensures '!' !in GroupType(name, parentType).1
  {
    if Parenthesised(name) {
      assert forall c :: c in Unwrap(name) ==> c in name;
      if Parenthesised(Unwrap(name)) {
        assert forall c :: c in Unwrap(Unwrap(name)) ==> c in Unwrap(name);
      }
    }
  }

  /** A code-less group whose children are well formed and keep its quiet and concurrency is well formed. */
  lemma GroupWellFormed(t: Task)
    requires '!' !in t.name && t.code.None? && IsGroupType(t.kind)
    requires forall k :: 0 <= k < |t.children| ==>
               && WellFormed(t.children[k])
               && (t.quiet ==> t.children[k].quiet)
               && (IsConcurrent(t.kind) && IsGroupType(t.children[k].kind) ==> IsConcurrent(t.children[k].kind))
    ensures WellFormed(t)
  {
  }

  function DescText(v: Value): string {
    if v.Text? then v.text else ""
  }

  /** The children of a group, one per entry value in order (task.php:73-76). */
  function BuildChildren(group: Value, i: nat, kind: TaskType, quiet: bool, depth: nat): (r: Result<seq<Task>>)
    requires group.Arr? && i <= |group.entries|
    ensures r.Success? ==> |r.value| == |group.entries| - i
    ensures r.Success? ==> forall k :: 0 <= k < |r.value| ==>
              && WellFormed(r.value[k])
              && (quiet ==> r.value[k].quiet)
              && (IsConcurrent(kind) && IsGroupType(r.value[k].kind) ==> IsConcurrent(r.value[k].kind))
    ensures r.Failure? ==> r.message == NESTING_ERROR
    decreases group, |group.entries| - i
  {
    if i == |group.entries| then Success([])
    else
      // the bare `self` passed as parent at task.php:75 means $this, here one level deeper
      var first :- FromDescriptor(group.entries[i].value, Some(kind), quiet, depth);
      var rest :- BuildChildren(group, i + 1, kind, quiet, depth);
      Success([first] + rest)
  }

  /** The root node built from the whole configuration mapping (`Task(config)`, cli.php:23). */
  function BuildTree(config: Value): (r: Result<Task>)
    ensures r.Success? ==> WellFormed(r.value)
  {
    FromDescriptor(config, None, false, 0)
  }

  /** The code a descriptor value carries once a `{code, desc}` wrapper is opened. */
  function CodeOf(value: Value): Value {
    if Described(value) then value.entries[KeyIndex(value.entries, "code").value].value else value
  }

  /**
   * Type inference of task.php:36-70: a scalar code gives a leaf that is `variable` exactly
   * when its key is a string and its stripped name has no lower-case letter (so also when
   * it is empty), and `directive` otherwise; a list/map code gives a code-less group typed and renamed by its
   * parentheses, with one child per entry.
   */
  lemma Classification(name: string, value: Value, parentType: Option<TaskType>, quiet: bool, depth: nat)
    requires Build(name, value, parentType, quiet, depth).Success?
    ensures var t := Build(name, value, parentType, quiet, depth).value;
            var m := Markers(KeyName(name), quiet);
            && (!CodeOf(value).Arr? ==>
                  && t.children == [] && t.name == m.name && t.code == LeafCode(CodeOf(value))
                  && (t.kind == Variable <==> !IntegerKey(name) && forall i :: 0 <= i < |m.name| ==> !IsLower(m.name[i]))
                  && (t.kind != Variable ==> t.kind == Directive))
            && (CodeOf(value).Arr? ==>
                  && (t.kind, t.name) == GroupType(m.name, parentType)
                  && t.code.None?
                  && |t.children| == |CodeOf(value).entries|)
            && (!IntegerKey(name) && m.name == Upper(m.name) ==> t.desc == VARIABLE_DESC)
  {
    if CodeOf(value).Arr? {
      GroupClassified(name, value, parentType, quiet, depth);
    } else {
      LeafClassified(name, value, parentType, quiet, depth);
    }
    var m := Markers(KeyName(name), quiet);
    if !IntegerKey(name) && m.name == Upper(m.name) {
      DescClassified(name, value, parentType, quiet, depth);
    }
  }

  lemma LeafClassified(name: string, value: Value, parentType: Option<TaskType>, quiet: bool, depth: nat)
    requires Build(name, value, parentType, quiet, depth).Success? && !CodeOf(value).Arr?
    ensures var t := Build(name, value, parentType, quiet, depth).value;
            var m := Markers(KeyName(name), quiet);
            && t.children == [] && t.name == m.name && t.code == LeafCode(CodeOf(value))
            && (t.kind == Variable <==> !IntegerKey(name) && forall i :: 0 <= i < |m.name| ==> !IsLower(m.name[i]))
            && (t.kind != Variable ==> t.kind == Directive)
  {
    MarkersName(KeyName(name), quiet);
    UpperFixed(StrippedName(name));
  }

  lemma GroupClassified(name: string, value: Value, parentType: Option<TaskType>, quiet: bool, depth: nat)
    requires Build(name, value, parentType, quiet, depth).Success? && CodeOf(value).Arr?
    ensures var t := Build(name, value, parentType, quiet, depth).value;
            && (t.kind, t.name) == GroupType(Markers(KeyName(name), quiet).name, parentType)
            && t.code.None?
            && |t.children| == |CodeOf(value).entries|
  {
  }

  lemma DescClassified(name: string, value: Value, parentType: Option<TaskType>, quiet: bool, depth: nat)
    requires Build(name, value, parentType, quiet, depth).Success?
    requires !IntegerKey(name) && Markers(KeyName(name), quiet).name == Upper(Markers(KeyName(name), quiet).name)
    ensures Build(name, value, parentType, quiet, depth).value.desc == VARIABLE_DESC
  {
    MarkersName(KeyName(name), quiet);
  }

  /** A parenthesised group below a child of the root is a fatal configuration error (task.php:56-61). */
  lemma NestingRejected(name: string, value: Value, parentType: Option<TaskType>, quiet: bool, depth: nat)
    requires CodeOf(value).Arr? && Parenthesised(Markers(KeyName(name), quiet).name) && depth >= 2
    ensures Build(name, value, parentType, quiet, depth) == Failure(NESTING_ERROR)
  {
  }

  /**
   * A bare list item is wrapped as `{'' : item}` (task.php:74); as the variable test is kept
   * literally, a bare scalar item becomes an unnamed `variable` leaf running that scalar.
   */
  lemma BareItemIsAnonymousVariable(s: string, parentType: Option<TaskType>, quiet: bool, depth: nat)
    ensures FromDescriptor(Text(s), parentType, quiet, depth)
            == Success(Task("", true, Some(s), Variable, VARIABLE_DESC, quiet, false, []))
  {
    assert Markers("", quiet).name == "";
  }

  /** Children are built one per entry value, in entry order (task.php:73-76). */
  lemma ChildrenInOrder(group: Value, i: nat, kind: TaskType, quiet: bool, depth: nat)
    requires group.Arr? && i <= |group.entries|
    requires BuildChildren(group, i, kind, quiet, depth).Success?
    ensures var cs := BuildChildren(group, i, kind, quiet, depth).value;
            forall j :: i <= j < |group.entries| ==>
              FromDescriptor(group.entries[j].value, Some(kind), quiet, depth) == Success(cs[j - i])
  {
    forall j | i <= j < |group.entries|
      ensures FromDescriptor(group.entries[j].value, Some(kind), quiet, depth)
              == Success(BuildChildren(group, i, kind, quiet, depth).value[j - i])
    {
      ChildAt(group, i, kind, quiet, depth, j);
    }
  }

  lemma {:induction false} ChildAt(group: Value, i: nat, kind: TaskType, quiet: bool, depth: nat, j: nat)
    requires group.Arr? && i <= j < |group.entries|
    requires BuildChildren(group, i, kind, quiet, depth).Success?
    ensures FromDescriptor(group.entries[j].value, Some(kind), quiet, depth)
            == Success(BuildChildren(group, i, kind, quiet, depth).value[j - i])
    decreases j - i
  {
    ChildrenCons(group, i, kind, quiet, depth);
    if j > i {
      ChildAt(group, i + 1, kind, quiet, depth, j);
      ShiftedIndex(BuildChildren(group, i, kind, quiet, depth).value, j - i);
    }
  }

  /** Dropping the head of a sequence shifts every later index by one. */
  lemma ShiftedIndex<X>(s: seq<X>, k: nat)
    requires 0 < k < |s|
    ensures s[1..][k - 1] == s[k]
  { }

  /** A successful build of the children from entry `i` is that entry's child, then the rest. */
  lemma ChildrenCons(group: Value, i: nat, kind: TaskType, quiet: bool, depth: nat)
    requires group.Arr? && i < |group.entries|
    requires BuildChildren(group, i, kind, quiet, depth).Success?
    ensures var cs := BuildChildren(group, i, kind, quiet, depth).value;
            && FromDescriptor(group.entries[i].value, Some(kind), quiet, depth) == Success(cs[0])
            && BuildChildren(group, i + 1, kind, quiet, depth) == Success(cs[1..])
  {
  }

  /** The name a descriptor key leaves once its markers are removed. */
  function StrippedName(key: string): string {
    Markers(KeyName(key), false).name
  }

  /**
   * The entry `key => value`, seen at `depth`, is a parenthesised group below a child of
   * the root, or holds one among the descriptors of its subtasks.
   */
  predicate TooDeep(key: string, value: Value, depth: nat)
    decreases value, 1
  {
    var code := CodeOf(value);
    code.Arr?
    && ((Parenthesised(StrippedName(key)) && depth >= 2)
        || exists k :: 0 <= k < |code.entries| && DescriptorTooDeep(code.entries[k].value, depth + 1))
  }

  /** A sub-descriptor whose first entry is too deep; a bare value or an empty array never is. */
  predicate DescriptorTooDeep(d: Value, depth: nat)
    decreases d, 2
  {
    d.Arr? && |d.entries| > 0 && TooDeep(d.entries[0].key, d.entries[0].value, depth)
  }

  /** The quiet flag does not affect the stripped name. */
  lemma MarkersName(name: string, quiet: bool)
    ensures Markers(name, quiet).name == Markers(name, false).name
  {
  }

  /** Construction fails exactly when some group too deep is reached (task.php:56-61, 73-76). */
  lemma {:induction false} BuildFails(key: string, value: Value, parentType: Option<TaskType>, quiet: bool, depth: nat)
    ensures Build(key, value, parentType, quiet, depth).Failure? <==> TooDeep(key, value, depth)
    decreases value, Width(value) + 2
  {
    var code := CodeOf(value);
    if code.Arr? {
      var m := Markers(KeyName(key), quiet);
      MarkersName(KeyName(key), quiet);
      var textual := !IntegerKey(key);
      GroupFails(m, textual, code, Description(textual && m.name == Upper(m.name), value, depth), parentType, depth);
    }
  }

  lemma {:induction false} GroupFails(m: Marked, textual: bool, code: Value, desc: string, parentType: Option<TaskType>, depth: nat)
    requires code.Arr? && '!' !in m.name
    ensures BuildGroup(m, textual, code, desc, parentType, depth).Failure? <==>
              (Parenthesised(m.name) && depth >= 2)
              || exists k :: 0 <= k < |code.entries| && DescriptorTooDeep(code.entries[k].value, depth + 1)
    decreases code, Width(code) + 1
  {
    if !(Parenthesised(m.name) && depth >= 2) {
      var (kind, groupName) := GroupType(m.name, parentType);
      ChildrenFail(code, 0, kind, m.quiet, depth + 1);
    }
  }

  lemma {:induction false} ChildrenFail(group: Value, i: nat, kind: TaskType, quiet: bool, depth: nat)
    requires group.Arr? && i <= |group.entries|
    ensures BuildChildren(group, i, kind, quiet, depth).Failure? <==>
              exists k :: i <= k < |group.entries| && DescriptorTooDeep(group.entries[k].value, depth)
    decreases group, |group.entries| - i
  {
    if i < |group.entries| {
      DescriptorFails(group.entries[i].value, Some(kind), quiet, depth);
      ChildrenFail(group, i + 1, kind, quiet, depth);
    }
  }

  lemma {:induction false} DescriptorFails(d: Value, parentType: Option<TaskType>, quiet: bool, depth: nat)
    ensures FromDescriptor(d, parentType, quiet, depth).Failure? <==> DescriptorTooDeep(d, depth)
    decreases d, Width(d) + 3
  {
    if !d.Arr? {
      BuildFails("", d, parentType, quiet, depth);
    } else if |d.entries| > 0 {
      BuildFails(d.entries[0].key, d.entries[0].value, parentType, quiet, depth);
    }
  }

  /** The whole configuration builds exactly when no group in it is too deep. */
  lemma BuildTreeFails(config: Value)
    ensures BuildTree(config).Failure? <==> DescriptorTooDeep(config, 0)
  {
    DescriptorFails(config, None, false, 0);
  }
}
